=== FILE: README.md ===
# conquis-app: a Dafny model of the CEP ↔ specialty linkage core

The conquis-app backend serves two catalogues: the CEP manifest (categories of
"Clases de Especialidad" PDFs) and the areas file (areas of specialties with
their images and PDFs). It also links the two. For every CEP item not yet
decided, it proposes the specialties whose name or slug best matches. The
decisions are kept in a ledger of links, one per CEP id.

This project models that engine and the small pieces around it:

- `text_match.dfy` (`TextMatch`): text normalisation, tokenisation, token-set
  overlap and the priority-rule scorer.
- `ranking.dfy` (`Ranking`): the candidate ranker. It applies the score
  threshold, a stable sort by descending score, and keeps the top five. It is
  generic over the scorer, so the backend and the offline generator share it.
- `catalog.dfy` (`Catalog`, over the datatypes of `catalog_data.dfy`): the
  flattening of the two catalogues into CEP items and specialties.
- `ledger.dfy` (`Ledger`): the link ledger, the reading of its file (a
  missing file is an empty ledger; an unreadable one is an error) and the
  upsert.
- `suggestions.dfy` (`Suggestions`): the suggestion page. It filters by the
  search text, excludes linked ids, slices the page and ranks candidates.
- `offline_suggestions.dfy` (`OfflineSuggestions`): the offline copy of the
  scorer and ranker, and its agreement with the backend.
- `integration_controller.dfy`, `cep_controller.dfy`, `cep_service.dfy`,
  `areas_service.dfy`, `areas_controller.dfy`: the HTTP-facing parsing, the
  image-path derivation, slug lookups, the manifest cache, and the areas
  listing and paging.
- `slugify.dfy` (`SlugifyJs`), `create_json.dfy` (`CreateJson`),
  `download_slug.dfy` (`DownloadSlug`): the three slugifiers, and the path
  rules of the catalogue conversion script.
- `cli_args.dfy` (`CliArgs`), `remove_bg.dfy` (`RemoveBg`),
  `extract_logo.dfy` (`ExtractLogo`), `batch_remove_bg.dfy` (`BatchRemoveBg`):
  the thumbnail scripts. This covers the shared `--key value` parser, option
  parsing, pixel indexing and the alpha bounding-box scan (`FindBounds`, a
  method with loop invariants), crop parsing, and the batch command line.
  The batch command line is proved to be read back by the parser of the
  script it calls.
- `vite_config.dfy` (`ViteConfig`): the port parser of the front-end
  configuration.
- `common.dfy`, `seqs.dfy`, `strings.dfy`, `numbers.dfy` (`JsNumbers`) are
  shared helpers:
  - `Option`/`Result`;
  - JavaScript `slice`, `find`, `filter`, `flatMap`;
  - the regex replacements as run-replacing and filtering functions;
  - `Number.parseInt` and `Number.parseFloat` over decimal text, with `NaN`
    as `None`.

Conventions:

- Strings are `seq<char>`.
- A JSON value that is not an array is `None` where the code tests
  `Array.isArray`.
- Scores are exact `real`s (0.98, 0.92, m/n).
- Time, file contents, the outcome of a file write, HTTP responses and
  environment variables are parameters.

Three properties of the code are worth knowing:

- An upsert that omits `specialtyId` or `note` stores `null` for them. The
  payload always carries both keys (`specialtyId || null`,
  `note || null`), so the spread in the merge overwrites the old values. Only
  fields the payload does not carry survive. `Ledger.UpsertClearsOmittedFields`
  states this.
- An exact token-set overlap scores 1.0, which outranks the 0.98 given to
  equal slugs. Two names with the same words in another order beat a slug
  match (`TextMatch.ReorderedNamesOutrankSlugMatch`).
- The backend `slugify` keeps a trailing hyphen: "a !" gives "a-"
  (`SlugifyJs.TrailingHyphenKept`).

## Model

| member | source | states |
|---|---|---|
| TextMatch.NormalizeTextShape | backend/src/services/integrationService.js:50-57 | normalized text holds only `[a-z0-9 ]`, never starts or ends with a space, and has no two spaces in a row |
| TextMatch.NormalizeTextContent | backend/src/services/integrationService.js:50-57 | normalizing keeps exactly the lower-case letters and digits of the lowered input, in order; it is empty exactly when there are none |
| TextMatch.NormalizeTextFixed | backend/src/services/integrationService.js:50-57 | text already in normal form is left unchanged |
| TextMatch.NormalizeTextIdempotent | backend/src/services/integrationService.js:50-57 | normalizing twice is normalizing once |
| TextMatch.TokenizeSpec | backend/src/services/integrationService.js:59-62 | no tokens exactly when the normalized text is empty; every token is a non-empty run of `[a-z0-9]`; the tokens joined by single spaces give back the normalized text |
| TextMatch.TokenizeWords | backend/src/services/integrationService.js:59-62 | a text whose lowered form is words joined by single spaces tokenizes into exactly those words (the inverse of joining) |
| TextMatch.CountShared | backend/src/services/integrationService.js:66-71 | the counting loop over the first token set yields the size of the intersection of the two token sets |
| TextMatch.TokenScore | backend/src/services/integrationService.js:64-73 | the overlap score lies in [0, 1] and is 0 exactly when the two token lists share no token |
| TextMatch.TokenScoreSetwise | backend/src/services/integrationService.js:64-73 | the score depends only on the sets of tokens, so repeated tokens change nothing |
| TextMatch.TokenScoreSymmetric | backend/src/services/integrationService.js:64-73 | the score of (a, b) equals the score of (b, a) |
| TextMatch.TokenScoreOne | backend/src/services/integrationService.js:64-73 | the score is 1 exactly when both lists are non-empty and have the same token set |
| TextMatch.ScoreMatch | backend/src/services/integrationService.js:75-95 | the score lies in [0, 1]; equal non-empty slugs score 0.98 whatever the names; otherwise equal non-empty normalized names score 0.92 |
| TextMatch.ScoreMatchOverlap | backend/src/services/integrationService.js:86-94 | when neither equality rule applies, the score is the larger of the name-token and slug-token overlap scores |
| TextMatch.ScoreMatchEmptyFields | backend/src/services/integrationService.js:75-95 | items whose names and slugs normalize to nothing, and whose slugs are not equal, score 0 |
| TextMatch.ScoreMatchWords | backend/src/services/integrationService.js:86-94 | for slug-less items whose names are different word lists, the score is the overlap score of those word lists |
| TextMatch.ScoreMatchPartialOverlap | backend/src/services/integrationService.js:86-94 | a three-word name against a two-word name sharing two words scores 2/3 |
| TextMatch.ReorderedNamesOutrankSlugMatch | backend/src/services/integrationService.js:75-95 | two slug-less names with the same two words in swapped order score 1.0, above the 0.98 of an equal-slug match |
| Ranking.ScoreAll | backend/src/services/integrationService.js:211-215 | one candidate per specialty, in specialty order, carrying that specialty's score |
| Ranking.SortDesc | backend/src/services/integrationService.js:217 | the sort returns a permutation of its input, ordered by non-increasing score |
| Ranking.InsertSorted | backend/src/services/integrationService.js:217 | inserting into a list sorted by descending score keeps it sorted |
| Ranking.SortDescStable | backend/src/services/integrationService.js:217 | for every score value, the candidates with that score keep their input order (the sort is stable) |
| Ranking.RankIsPrefix | backend/src/services/integrationService.js:216-218 | the ranked list is the first min(5, n) entries of the sorted qualifying candidates |
| Ranking.RankShape | backend/src/services/integrationService.js:210-218 | the ranked list has min(5, number qualifying) entries, is sorted by descending score, and is a sub-multiset of the qualifying candidates |
| Ranking.RankMember | backend/src/services/integrationService.js:211-216 | every ranked candidate is one of the specialties, carries its own score, and reaches the threshold |
| Ranking.RankTopK | backend/src/services/integrationService.js:216-218 | a qualifying candidate that was cut scores no more than any ranked candidate |
| Ranking.RankProjected | scripts/integration/generateSuggestions.js:87-98 | ranking after projecting the specialties, with a scorer that agrees through the projection, is the projection of the ranking |
| Catalog.CepItemAt | backend/src/services/integrationService.js:97-118 | item j of category k appears after the items of the earlier categories, with id "cep:"+codigo, its own fields and its category's slug and name |
| Catalog.BuildCepItemsLength | backend/src/services/integrationService.js:97-118 | there are as many CEP items as the array `items` of the categories hold together; a non-array `items` adds nothing |
| Catalog.SpecialtyAt | backend/src/services/integrationService.js:120-139 | item j of area k appears after the items of the earlier areas, with id "esp:"+areaSlug+":"+slug and its area's slug and name |
| Catalog.BuildSpecialtiesLength | backend/src/services/integrationService.js:120-139 | there are as many specialties as the array `items` of the areas hold together |
| Ledger.ReadJsonFile | backend/src/services/integrationService.js:33-43 | only a missing file gives the fallback; any other read or parse failure is an error carrying its message; a parsed file gives its document |
| Ledger.GetIntegrationLinks | backend/src/services/integrationService.js:141-147 | it fails exactly when the ledger file cannot be read or parsed, or holds `null`; a missing file, and a document without a `links` array, read as the empty ledger stamped with the current time; a document with a `links` array is used as it is, its `updatedAt`, links and other top-level keys all kept |
| Ledger.ReadBackWritten | backend/src/services/integrationService.js:45-48 | a ledger written to the file reads back as the same ledger: its `updatedAt`, its links and its other top-level keys |
| Ledger.FindLink | backend/src/services/integrationService.js:166 | the index of the first link with that CEP id, or -1 exactly when no link has it |
| Ledger.Payload | backend/src/services/integrationService.js:157-164 | the stored record has the given CEP id and time; `specialtyId` and `note` are null when omitted; `status` defaults to "confirmed" and `source` to "manual" |
| Ledger.Merge | backend/src/services/integrationService.js:168 | the merged record takes each payload field (id, specialty, status, source, note, time) and keeps the old record's extra fields |
| Ledger.Upsert | backend/src/services/integrationService.js:149-176 | the upsert fails with "cepId requerido" exactly when the trimmed id is empty; otherwise the record has the trimmed id, the ledger and record share the new `updatedAt`, and the ledger's other top-level keys are kept |
| Ledger.UpsertPlacement | backend/src/services/integrationService.js:166-171 | a known id is replaced in place by the merge and every other link is unchanged; an unknown id is appended at the end |
| Ledger.UpsertThenLookup | backend/src/services/integrationService.js:157-171 | after an upsert, looking the id up finds the payload (plus old extra fields), and lookups of every other id are unchanged |
| Ledger.UpsertKeepsUnique | backend/src/services/integrationService.js:166-171 | a ledger with at most one link per CEP id keeps that property |
| Ledger.UpsertLinkedIds | backend/src/services/integrationService.js:166-171 | the set of linked ids grows by exactly the upserted id |
| Ledger.UpsertIdempotent | backend/src/services/integrationService.js:149-176 | repeating the same upsert later gives what the later upsert alone would give |
| Ledger.UpsertIntegrationLink | backend/src/services/integrationService.js:149-176 | it fails exactly when the ledger file cannot be read, the trimmed id is empty, or the write of the file fails; a read failure wins even for a blank id, since the file is read first; a failed write fails with its own message; otherwise it is the upsert of the ledger read |
| Ledger.UpsertWrittenThenRead | backend/src/services/integrationService.js:149-176 | after a successful upsert the written file reads back as the new ledger, which holds the payload for its id and keeps the other top-level keys of the document read |
| Ledger.UpsertClearsOmittedFields | backend/src/services/integrationService.js:157-168 | an upsert without `specialtyId` and `note` leaves the stored link with both null, whatever was stored before |
| Suggestions.GetSuggestions | backend/src/services/integrationService.js:178-233 | it fails exactly when one of the three files cannot be read (or the ledger holds `null`), with the manifest's error first; otherwise the page echoes the query's page and limit, and with both catalogs parsed it is the page over the flattened catalogs and the ledger read |
| Suggestions.MissingManifestEmptyPage | backend/src/services/integrationService.js:184-208 | without a manifest file the page is empty with total 0; `hasMore` holds only for a window ending before position 0 |
| Suggestions.PendingMembership | backend/src/services/integrationService.js:196-205 | an item is pending exactly when it is a CEP item, matches the normalized search (or the search is empty), and its id is not linked in the ledger, whatever the link's status |
| Suggestions.UpsertRemovesFromPending | backend/src/services/integrationService.js:149-205 | after an upsert the upserted id is no longer pending, and every other item's pending status is unchanged |
| Suggestions.PageWindow | backend/src/services/integrationService.js:205-230 | for page ≥ 1 and limit ≥ 0: `total` counts the pending items; the page holds the pending items from `(page-1)*limit` on, at most `limit` of them, in order; `hasMore` holds exactly when pending items remain after the page |
| Suggestions.SecondPageOfFortyFive | backend/src/services/integrationService.js:205-230 | with 45 pending items, page 2 of 20 holds pending items 20 to 39 and reports more |
| Suggestions.SuggestionCandidates | backend/src/services/integrationService.js:210-224 | each suggestion has at most 5 candidates, sorted by descending score, each a specialty scored against that CEP item and reaching `minScore` |
| OfflineSuggestions.OfflineScoreAgrees | scripts/integration/generateSuggestions.js:9-46 | the offline scorer gives the backend's score for every pair |
| OfflineSuggestions.OfflineCepItemsAgree | scripts/integration/generateSuggestions.js:50-65 | the offline CEP items are the backend's items without the files base URL, in the same order |
| OfflineSuggestions.OfflineSpecialtiesAgree | scripts/integration/generateSuggestions.js:67-79 | the offline specialties are the backend's specialties without the extra fields, in the same order |
| OfflineSuggestions.OfflineCandidatesAgree | scripts/integration/generateSuggestions.js:87-98 | the offline candidate list of an item is the backend ranking at threshold 0.6, projected |
| OfflineSuggestions.GenerateSuggestionsShape | scripts/integration/generateSuggestions.js:87-104 | one suggestion per CEP item in order; `total` equals the number of items; candidates number at most 5, are sorted by descending score and reach 0.6 |
| IntegrationController.ParseSuggestionQuery | backend/src/controllers/integrationController.js:9-19 | a page that parses to NaN becomes 1, else it is passed through; a NaN limit becomes 20, else it is capped at 100; a NaN `minScore` becomes 0.6 |
| IntegrationController.ParseEmptyQuery | backend/src/controllers/integrationController.js:9-19 | an empty query asks for page 1 of 20 at minimum score 0.6 with no search |
| IntegrationController.ParsePrintedNumbers | backend/src/controllers/integrationController.js:10-18 | an integer page is passed through unchanged and an integer limit arrives as min(limit, 100) |
| IntegrationController.UpsertLink | backend/src/controllers/integrationController.js:36-53 | an empty `cepId` answers 400 without reading the file; a ledger file that cannot be read answers 500 with the read error; a blank `cepId` answers 500; a failed write answers 500 with the write error; status 200 exactly when the read succeeds, the trimmed id is non-empty and the write succeeds, and then the written ledger and the payload are those of the upsert; nothing is written unless the answer is 200 |
| IntegrationController.GetLinks | backend/src/controllers/integrationController.js:27-34 | it fails exactly when the ledger file cannot be read or holds `null`, with the read error; a missing file lists the empty ledger; a document with a `links` array is sent whole, other top-level keys included |
| IntegrationController.SavedLinkListed | backend/src/controllers/integrationController.js:27-53 | after a 200 from `upsertLink`, `getLinks` on the written file lists the ledger with the new link under its id |
| CepController.BuildImagePath | backend/src/controllers/cepController.js:18-21 | "" stays ""; a final ".pdf" in any case becomes ".png" and the rest is kept; any other path is unchanged |
| CepController.BuildImagePathIdempotent | backend/src/controllers/cepController.js:18-21 | deriving the image path of a derived path changes nothing |
| CepController.BuildCategoryImagePath | backend/src/controllers/cepController.js:23-26 | the path is empty exactly for an empty slug; otherwise it starts with slug+"/" and ends with slug+".png" |
| CepController.CategoryImagePathParts | backend/src/controllers/cepController.js:23-26 | for a slug without '/', the path splits at '/' into the slug and slug+".png" |
| CepController.WithCategoryImage | backend/src/controllers/cepController.js:28-36 | only `img` may change; an existing image or a missing slug leaves the category as it is; otherwise `img` becomes the category image path |
| CepController.WithImages | backend/src/controllers/cepController.js:38-46 | only `img` may change; an existing image or a missing PDF leaves the item as it is; otherwise `img` becomes the PDF's image path |
| CepController.WithImagesIdempotent | backend/src/controllers/cepController.js:38-46 | a second application changes nothing |
| CepController.WithImagesForCategory | backend/src/controllers/cepController.js:48-57 | the category gets its image, and an `items` array is mapped element by element keeping length and order; a non-array `items` is kept |
| CepController.WithImagesForCategoryIdempotent | backend/src/controllers/cepController.js:48-57 | a second application changes nothing |
| CepController.WithImagesForManifest | backend/src/controllers/cepController.js:59-68 | a `categorias` array is mapped element by element keeping length and order; a non-array one is kept |
| CepController.WithImagesForManifestIdempotent | backend/src/controllers/cepController.js:48-68 | adding images to a manifest that has them changes nothing |
| CepService.GetCepCategoryBySlug | backend/src/services/cepService.js:106-110 | null without a manifest or a `categorias` array; otherwise the first category with that slug, null exactly when none has it |
| CepService.GetCepSpecialtyBySlugs | backend/src/services/cepService.js:112-116 | null when the category is missing or its `items` is not an array; otherwise the first item with that slug, null exactly when none has it |
| CepService.SpecialtyFoundInManifest | backend/src/services/cepService.js:106-116 | a found item carries the item slug and belongs to a manifest category that carries the category slug |
| CepService.ReadLocal | backend/src/services/cepService.js:22-35 | a failed `stat` answers null; an unchanged file with a cached manifest answers the cache; otherwise the file is parsed again and cached with its mtime, and a failed read answers null and keeps the cache |
| CepService.ReadLocalTwice | backend/src/services/cepService.js:24-30 | after a successful read, reading the unchanged file again answers the same manifest from the cache, whatever the file now holds |
| CepService.ReadLocalSeesChange | backend/src/services/cepService.js:24-30 | a file with a new mtime is read again and its new contents answered |
| CepService.ReadRemote | backend/src/services/cepService.js:37-62 | a fresh cache answers without fetching; no URL answers null; a successful fetch is cached with the read's time; a failed fetch falls back to the local read when so configured, else null |
| CepService.ReadRemoteWithinTtl | backend/src/services/cepService.js:38-54 | once a fetch has produced a manifest, reads within the time-to-live answer it, whatever the network would say |
| CepService.ReadManifest | backend/src/services/cepService.js:22-69 | local mode: a failed `stat` answers null, an unchanged file with a cached manifest answers the cache, a changed file answers its new contents (null when unreadable) and the remote cache time is untouched; remote mode: a fresh cache answers without fetching, no URL answers null, a fetched manifest is cached with the time, a failed fetch falls back to the local read only when so configured; an answered manifest is the cached one |
| CepService.RemoteModeIgnoresCase | backend/src/services/cepService.js:13 | "REMOTE" and "Remote" select the remote read; "local" and "LOCAL" do not |
| CepService.ReadManifestModeCase | backend/src/services/cepService.js:64-69 | two modes equal after lower-casing read the manifest the same way |
| CepService.ReadManifestLocalTwice | backend/src/services/cepService.js:22-69 | in local mode, a second read of an unchanged file answers the cached manifest, whatever the file would now parse to |
| AreasService.ReadAreas | backend/src/services/areasService.js:11-19 | a file that cannot be read or parsed reads as no areas |
| AreasService.GetAreaBySlug | backend/src/services/areasService.js:25-28 | the first area with that slug; none exactly when no area has it |
| AreasService.GetSpecialtyBySlugs | backend/src/services/areasService.js:30-36 | nothing when no area matches; an error when the matching area's `items` is not an array; otherwise the first item of that area with that slug, nothing exactly when none has it |
| AreasService.GetAllSpecialtiesLength | backend/src/services/areasService.js:39-54 | the flattened list has as many entries as the array `items` hold together; areas without one contribute nothing |
| AreasService.GetAllSpecialtiesAt | backend/src/services/areasService.js:39-54 | item j of area k appears after the items of the earlier areas, tagged with its area's name and slug |
| AreasService.GetAllSpecialtiesOrigin | backend/src/services/areasService.js:39-54 | every entry of the flattened list is an item of some area, tagged with that area |
| AreasController.GetAllAreas | backend/src/controllers/areasController.js:10-23 | one summary per area, in order, with name, slug, image and the number of items; an area whose `items` is missing or null makes the handler fail |
| AreasController.SummaryTotalIsItems | backend/src/controllers/areasController.js:12-18 | the summary counts add up to the number of items of all areas |
| AreasController.SummaryCountsAddUp | backend/src/controllers/areasController.js:12-18 | the summary counts add up to the length of the flattened specialty list |
| AreasController.GetAllSpecialtiesPaginated | backend/src/controllers/areasController.js:55-86 | the response echoes the parsed page and limit and counts the filtered specialties; a page or limit that parses to NaN yields an empty page |
| AreasController.SearchMembership | backend/src/controllers/areasController.js:63-71 | an empty search keeps every specialty; otherwise exactly those whose lower-cased name, area or slug contains the lower-cased term |
| AreasController.SpecialtiesPageWindow | backend/src/controllers/areasController.js:73-75 | for page ≥ 1 and limit ≥ 0 the page holds the filtered specialties from `(page-1)*limit` on, at most `limit` of them, in order |
| AreasController.DefaultPaging | backend/src/controllers/areasController.js:57-75 | without page and limit the answer is page 1 of 10: the first ten filtered specialties |
| SlugifyJs.SlugifyShape | backend/src/utils/slugify.js:1-9 | a slug holds only `[a-z0-9_-]` and has no hyphen directly after another |
| SlugifyJs.SlugifyNoSpace | backend/src/utils/slugify.js:5-6 | a slug holds no white space |
| SlugifyJs.SlugifyFixed | backend/src/utils/slugify.js:1-9 | a text already of slug shape is its own slug |
| SlugifyJs.SlugifyIdempotent | backend/src/utils/slugify.js:1-9 | slugifying a slug changes nothing |
| SlugifyJs.TrailingHyphenKept | backend/src/utils/slugify.js:5-8 | a letter followed by " !" slugifies to the letter and a trailing hyphen, which is not stripped |
| CreateJson.SlugifyShape | scripts/createJson.py:5-15 | a slug holds only `[a-z0-9-]`, has no hyphen at either end and none directly after another |
| CreateJson.SlugifyFixed | scripts/createJson.py:5-15 | a text already of slug shape is its own slug |
| CreateJson.SlugifyIdempotent | scripts/createJson.py:5-15 | slugifying a slug changes nothing |
| CreateJson.SlugifyWords | scripts/createJson.py:7-15 | a capitalised three-word name separated by single spaces slugifies to its lower-cased words joined by hyphens, as "Agricultura de subsistencia" → "agricultura-de-subsistencia" |
| CreateJson.FileName | scripts/createJson.py:17-24 | the file name has no '/', ends the URL, and is the whole URL when it has no '/' or else follows the URL's last '/' |
| CreateJson.FileNameIsLastPiece | scripts/createJson.py:17-24 | the file name is the last piece of splitting the URL at '/' (`url.split('/')[-1]`) |
| CreateJson.LastPieceUnique | scripts/createJson.py:17-24 | at most one text is the last piece of a URL |
| CreateJson.FileNameAfterSlash | scripts/createJson.py:17-24 | a name without '/' placed after a directory and a '/' is read back as the file name |
| CreateJson.ConvertSpecialty | scripts/createJson.py:47-63 | the sub-item's slug is its slugified name; `pdf` is "/main/sub/file" exactly when the file name ends with ".pdf", else null; `img` is always "/main/sub/imgfile" |
| CreateJson.ConvertSpecialties | scripts/createJson.py:47-63 | every sub-item is converted, in order |
| CreateJson.ConvertArea | scripts/createJson.py:31-65 | an area fails exactly when it has no `subespecialidades` (`KeyError: 'subespecialidades'`) or one of them has no `caption` (`KeyError: 'caption'`); otherwise its slug is its slugified name, its image is "/main/file" and its items are its converted sub-items |
| CreateJson.ConvertAll | scripts/createJson.py:26-65 | the conversion succeeds exactly when every area has `subespecialidades` whose items all carry `caption`, and then converts each area in order; otherwise it stops with the `KeyError` of the first failing area |
| CreateJson.SpecialtyPathsKeepFileNames | scripts/createJson.py:52-61 | the local paths keep the original file names and sit under "/main/" |
| CreateJson.LocalPathsKeepFileNames | scripts/createJson.py:39-61 | the area image and each sub-item image keep their original file names, and sub-item images sit under the area's slug |
| DownloadSlug.SlugifyShape | scripts/antes/donwload.py:9-15 | a folder slug holds only `[a-z0-9_-]`, no white space, no hyphen directly after another, and neither end is '-' or '_' |
| DownloadSlug.SlugifyFixed | scripts/antes/donwload.py:9-15 | a text already of folder-slug shape is its own slug |
| DownloadSlug.SlugifyIdempotent | scripts/antes/donwload.py:9-15 | slugifying a slug changes nothing |
| DownloadSlug.SlugifyExample | scripts/antes/donwload.py:13-15 | a character without an ASCII decomposition (such as '€') is dropped, a capital lowered, a tab made a hyphen and a dot removed |
| CliArgs.ParseArgs | scripts/cep-thumbs/remove-bg.js:5-17 | each "--key" takes the argument after it, which is consumed; other arguments are skipped; a later duplicate key overrides an earlier one; a key is set exactly when some key position names it |
| CliArgs.LastKeyPos | scripts/cep-thumbs/remove-bg.js:8-14 | the last position below the bound where the parser sets that key, or -1 when there is none |
| CliArgs.ParsedMembership | scripts/cep-thumbs/remove-bg.js:5-17 | the parsed keys are exactly the keys some key position names |
| CliArgs.ParsedUnique | scripts/cep-thumbs/remove-bg.js:5-17 | the parse of an argument list is determined by it |
| RemoveBg.ParseRgb | scripts/cep-thumbs/remove-bg.js:19-24 | null for a falsy value or unless there are exactly three integer parts; otherwise r, g, b in order, unclamped |
| RemoveBg.ParsePairShowInt | scripts/cep-thumbs/remove-bg.js:26-31 | two printed integers joined by a comma parse back to that point (round trip) |
| RemoveBg.ParseRgbShowInt | scripts/cep-thumbs/remove-bg.js:19-24 | three printed integers joined by commas parse back to those integers (round trip) |
| RemoveBg.ParsePair | scripts/cep-thumbs/remove-bg.js:26-31 | null for a falsy value or unless there are exactly two numeric parts; otherwise x, y in order |
| RemoveBg.ParseBool | scripts/cep-thumbs/remove-bg.js:33-36 | the default for an absent value; otherwise true exactly when the value lower-cased is "true" |
| RemoveBg.ParseBoolIgnoresDefault | scripts/cep-thumbs/remove-bg.js:33-36 | for a present value the default plays no part; "TRUE" is true and "" is false |
| RemoveBg.ClampChannel | scripts/cep-thumbs/remove-bg.js:38 | the result lies in [0, 255], is the identity inside it, and is 0 below and 255 above |
| RemoveBg.ClampChannelMonotone | scripts/cep-thumbs/remove-bg.js:38 | clamping keeps order and is idempotent |
| RemoveBg.ReadOptions | scripts/cep-thumbs/remove-bg.js:101-115 | the options fail exactly when `--in` or `--out` is missing or empty; otherwise each option is read from its flag with its default |
| RemoveBg.CropFlagCases | scripts/cep-thumbs/remove-bg.js:106 | cropping is on when `--crop` is absent, empty or "true", and off for "false" in any case |
| RemoveBg.CropByDefault | scripts/cep-thumbs/remove-bg.js:106 | without `--crop` the image is cropped |
| RemoveBg.ByteAt | scripts/cep-thumbs/remove-bg.js:61-64 | reading a byte inside the buffer gives that byte, and outside it gives `undefined` |
| RemoveBg.SetAlpha | scripts/cep-thumbs/remove-bg.js:66-69 | only byte `(y*width+x)*4+3` changes, to the new alpha; the length is kept |
| RemoveBg.GetPixelAfterSetAlpha | scripts/cep-thumbs/remove-bg.js:61-69 | reading a pixel after setting its alpha gives the old colour with the new alpha |
| RemoveBg.SetAlphaOtherPixel | scripts/cep-thumbs/remove-bg.js:61-69 | setting one pixel's alpha leaves every other pixel whose x lies within the width unchanged |
| RemoveBg.PixelIndexInjective | scripts/cep-thumbs/remove-bg.js:62 | distinct in-row coordinates have distinct pixel offsets |
| RemoveBg.BoundingBoxUnique | scripts/cep-thumbs/remove-bg.js:71-98 | at most one box is the tight bounding box of the visible pixels |
| RemoveBg.FindBounds | scripts/cep-thumbs/remove-bg.js:71-99 | null exactly when no pixel has alpha above 0; otherwise a box inside the image, at least 1×1, containing every such pixel and touching one on each edge |
| ExtractLogo.Clamp01 | scripts/cep-thumbs/extract-logo.js:27-30 | the value held into [0, 1], unchanged inside it |
| ExtractLogo.ClampCrop | scripts/cep-thumbs/extract-logo.js:26-31 | every field lies in [0, 1]; a crop already in range is unchanged |
| ExtractLogo.ClampCropIdempotent | scripts/cep-thumbs/extract-logo.js:26-31 | clamping twice is clamping once, and a field moves only when it was out of range |
| ExtractLogo.ParseCrop | scripts/cep-thumbs/extract-logo.js:33-45 | the default crop for a falsy value or unless there are exactly four numeric parts; otherwise the parts as x, y, width, height, clamped |
| ExtractLogo.ParseCropShowInt | scripts/cep-thumbs/extract-logo.js:33-45 | four printed integers joined by commas give that crop, clamped, in the order x, y, width, height |
| ExtractLogo.ParseCropWholePage | scripts/cep-thumbs/extract-logo.js:33-45 | "0,0,1,1" selects the whole page |
| BatchRemoveBg.ToBool | scripts/cep-thumbs/batch-remove-bg.js:34 | false for an absent value; otherwise true exactly when the value lower-cased is "true" |
| BatchRemoveBg.ToBoolIsParseBool | scripts/cep-thumbs/batch-remove-bg.js:34 | `toBool` agrees with the other script's `parseBool` with default false |
| BatchRemoveBg.Targets | scripts/cep-thumbs/batch-remove-bg.js:63-64 | the targets are exactly the files ending ".png" in any case that do not end "-no-bg.png" |
| BatchRemoveBg.KeptMembership | scripts/cep-thumbs/batch-remove-bg.js:38-42 | an entry is kept exactly when its value is defined |
| BatchRemoveBg.FlagPairs | scripts/cep-thumbs/batch-remove-bg.js:38-42 | each kept entry becomes "--key" followed by its value, in entry order, so the length is twice the number kept |
| BatchRemoveBg.BuildArgsRoundTrip | scripts/cep-thumbs/batch-remove-bg.js:36-44 | parsing the built arguments gives back exactly the kept entries as a configuration |
| BatchRemoveBg.LookupBuiltArgs | scripts/cep-thumbs/batch-remove-bg.js:36-44 | with distinct keys, a defined entry is read back with its value and an undefined one is absent |
| BatchRemoveBg.ReadBatchOptions | scripts/cep-thumbs/batch-remove-bg.js:47-55 | the root and padding are never empty, the flags are read case-insensitively, and the pass-through options are copied as given |
| BatchRemoveBg.CommandLookups | scripts/cep-thumbs/batch-remove-bg.js:78-87 | the spawned script reads the file and output paths, and sees `ellipse` and `padding` only when ellipse is on; the other options pass through unchanged |
| BatchRemoveBg.CommandAccepted | scripts/cep-thumbs/batch-remove-bg.js:78-94 | the spawned script accepts its options exactly when the file and output paths are non-empty |
| BatchRemoveBg.CommandEllipse | scripts/cep-thumbs/batch-remove-bg.js:78-94 | the spawned script draws the ellipse exactly when the batch asked for it |
| ViteConfig.ParsePort | frontend/vite.config.js:6-13 | the fallback for a falsy value or one without a leading integer; otherwise that integer, so never NaN |
| ViteConfig.DefaultPorts | frontend/vite.config.js:15-18 | without `APP_PORT` the dev server uses 5173 and the preview server 23500 |
| ViteConfig.PortsFromNumber | frontend/vite.config.js:15-18 | a printed integer port moves both servers to it |
| ViteConfig.PortsFromWord | frontend/vite.config.js:6-18 | a value starting with a letter leaves each server on its own default |
| JsNumbers.ParseIntShowInt | backend/src/controllers/integrationController.js:10-11 | `parseInt` reads a printed integer back, whatever non-digit text follows it |
| JsNumbers.ParseFloatShowInt | scripts/cep-thumbs/extract-logo.js:35 | `parseFloat` reads a printed integer back as that number |
| JsNumbers.ParseFloatDefaultScore | backend/src/controllers/integrationController.js:9-12 | "0.6" parses to 0.6 |

## Left out

- File, network and process I/O is out of the model:
  - the reading and writing of files (`readJsonFile`/`writeJsonFile`, `readAreasFile`), `fs.promises.stat`, `getJson` with its 10 s timeout;
  - `walk`, `spawnSync`, `download_file`, the `json.load`/`json.dump` of the conversion script;
  - canvas and PDF rendering.

  Their results are parameters. For the integration service a file read is one of three outcomes: the file is missing, it cannot be read or parsed (with the error), or its document. Elsewhere a read is a parsed document or `None`, an mtime, a fetched document or a failure.
- The environment helpers are parameters: `cepFilesBaseUrl`, `areasFilesBaseUrl`, `CEP_MODE`, `CEP_MANIFEST_URL` and `CEP_CACHE_TTL_MS` (integrationService.js:14-23, cepService.js:13-16). `CEP_REMOTE_FALLBACK` is a boolean parameter.
- Concurrency is not modelled. Two concurrent `upsertIntegrationLink` calls can lose an update, since each reads, modifies and writes across `await`. Upsert is one atomic transition on a ledger value.
- Wall-clock time (`new Date().toISOString()`, `Date.now()`) is a parameter.
- Unicode is handled in ASCII only:
  - `normalize('NFD')` and `unicodedata.normalize('NFKD')` are taken as already applied to the input, and `unidecode` is left out (see `CreateJson.Slugify` below);
  - normalizeText still removes U+0300–U+036F, and the download slugifier still drops every non-ASCII character;
  - `toLowerCase`/`lower()` change only ASCII letters;
  - JavaScript `\s` is the JavaScript white-space set.
- The slugifiers' shape lemmas hold for all input under the ASCII `Lower`. Characters whose JavaScript lower-case form is ASCII, such as the Kelvin sign, are not covered.
- JavaScript numbers are exact:
  - scores, tolerances and crops are `real`;
  - `Number.parseInt`/`parseFloat` read decimal text only, with no hexadecimal prefix, no `Infinity` and no rounding to double precision.
- JavaScript values are typed. A non-string JSON field, a `cepId` that is a number, and a manifest or document that is not an object are not modelled. `Array.isArray` tests are `Option<seq<…>>`. The other keys of a link and of the ledger document are kept as a `map<string, string>`, so their values are taken to be strings.
- CreateJson.ConvertArea, CreateJson.ConvertAll: a missing `name`, `img` or `url` key also raises `KeyError` in the script; the model's records always carry these keys, so only a missing `subespecialidades` or `caption` is modelled as that error. The `print` of each item is left out.
- CreateJson.Slugify: takes text that `unidecode` leaves unchanged (ASCII). The script lower-cases before transliterating (`unidecode(text.lower())`), so a character that transliterates to capitals ('€' to "EUR") yields separators there: "precio €" gives "precio". Applying `unidecode` first and then this model would give "precio-eur".
- `CliArgs.ParseArgs` does not model JavaScript object keys such as `__proto__`, which `config[key] = value` treats specially.
- The pixel arithmetic of remove-bg.js is left out: `colorDistance` (square root), `averageColor` (rounded division), the ellipse mask, the background removal loop (remove-bg.js:125-160) and the crop drawing. extract-logo.js's `Math.round` of the crop rectangle and its `scale` option are left out too.
- `RemoveBg.FindBounds` takes the image width and height as natural numbers, as canvas dimensions are.
- `BatchRemoveBg`: the printing of the dry run, the exit codes and the output path (`path.join(dir, base + ".png")`) are left out.
- The Vite plugins, alias, `define` and allowed hosts are constants and are left out.
- The Express route wiring, `server.js`, `batch-extract.js` and `script.py` are not part of this model.
- The remaining controller handlers are left out. `getAreaBySlug`, `getSpecialtyBySlug` and the CEP endpoints only call the modelled service functions and send the result, or 404/500.
- Suggestions.GetSuggestions: when several of its three reads fail, the model reports the manifest's error, then the areas file's, then the ledger's. `Promise.all` rejects with whichever failure settles first, which depends on timing.
- AreasController.GetAllAreas: an `items` that is present, not null and not an array is not told apart from a missing one, so the model answers 500 for it. The handler answers 200 there: a string's `length` is its length, and a number's or an object's is `undefined`. The model's error message is the one for a missing `items`; a `null` one says "of null".
- Catalog.CepItemAt: an item without `codigo` gets the id "cep:" here, because a missing field is the empty string. The template literal prints "cep:undefined" (or "cep:null"), so a ledger entry "cep:undefined" links such an item in the code and not in the model, and "cep:" the other way round.
- Catalog.SpecialtyAt: likewise, a specialty or area without `slug` gets "esp:a:" or "esp::s" here, where the code prints "undefined" or "null" in its place.
- Suggestions.PageWindow: assumes page ≥ 1 and limit ≥ 0. The controller never checks a lower bound. The functions themselves model JavaScript `slice` for any page and limit, negative starts included.
- AreasController.SpecialtiesPageWindow: assumes page ≥ 1 and limit ≥ 0. The controller never checks a lower bound. The functions themselves model JavaScript `slice` for any page and limit, negative starts included.

=== FILE: areas_controller.dfy ===
/** The areas endpoints: the summary of every area, and the searchable,
    paged list of every specialty. Express and the JSON encoding are left
    out. */
module AreasController {
  import opened Common
  import opened Strings
  import opened Seqs
  import opened JsNumbers
  import opened CatalogData
  import opened AreasService

  /** One line of `GET /api/areas`. */
  datatype AreaSummary = AreaSummary(area: string, slug: string, img: string, specialties: nat)

  function Summarize(area: Area): AreaSummary
    requires area.items.Some?
  {
    AreaSummary(area.name, area.slug, area.img, |area.items.value|)
  }

  /** `getAllAreas`: one summary per area, in order, counting the area's
      specialties. An area whose `items` is missing or `null` makes
      `items.length` throw, and the handler answers 500. */
  function GetAllAreas(areas: seq<Area>): (r: Result<seq<AreaSummary>>)
    ensures r.Ok? <==> forall i :: 0 <= i < |areas| ==> areas[i].items.Some?
    ensures r.Ok? ==> |r.value| == |areas|
    ensures r.Ok? ==> forall i :: 0 <= i < |areas| ==>
              && r.value[i].area == areas[i].name
              && r.value[i].slug == areas[i].slug
              && r.value[i].img == areas[i].img
              && r.value[i].specialties == |areas[i].items.value|
  {
    if forall i :: 0 <= i < |areas| ==> areas[i].items.Some? then
      Ok(seq(|areas|, i requires 0 <= i < |areas| && areas[i].items.Some? => Summarize(areas[i])))
    else Err("Cannot read properties of undefined (reading 'length')")
  }

  /** The summaries' counts add up to the number of specialties
      `getAllSpecialties` lists. */
  lemma {:induction false} SummaryCountsAddUp(areas: seq<Area>)
    requires GetAllAreas(areas).Ok?
    ensures SummaryTotal(GetAllAreas(areas).value) == |GetAllSpecialties(areas)|
  {
    GetAllSpecialtiesLength(areas);
    SummaryTotalIsItems(areas);
  }

  function SummaryTotal(summaries: seq<AreaSummary>): nat
  {
    if summaries == [] then 0 else summaries[0].specialties + SummaryTotal(summaries[1..])
  }

  lemma {:induction false} SummaryTotalIsItems(areas: seq<Area>)
    requires GetAllAreas(areas).Ok?
    ensures SummaryTotal(GetAllAreas(areas).value) == TotalItems(areas)
  {
    if areas != [] {
      var rest := areas[1..];
      assert forall i :: 0 <= i < |rest| ==> rest[i] == areas[i + 1];
      SummaryTotalIsItems(rest);
      assert GetAllAreas(areas).value[1..] == GetAllAreas(rest).value;
    }
  }

  /** The raw query of `GET /api/areas/specialties`. */
  datatype SpecialtiesQuery = SpecialtiesQuery(page: Option<string>, limit: Option<string>, search: Option<string>)

  /** The response: the parsed page and limit (`None` for `NaN`), the
      number of matching specialties and the requested page of them. */
  datatype SpecialtiesPage = SpecialtiesPage(
    page: Option<int>,
    limit: Option<int>,
    total: nat,
    specialties: seq<TaggedSpecialty>)

  /** The search test: the lower-cased name, area name or slug contains the
      lower-cased term. */
  function MatchesTerm(term: string): TaggedSpecialty -> bool
  {
    (s: TaggedSpecialty) =>
      Contains(Lower(s.name), Lower(term)) || Contains(Lower(s.area), Lower(term)) || Contains(Lower(s.slug), Lower(term))
  }

  /** Every specialty for an empty search, otherwise those that match
      it. */
  function SearchSpecialties(all: seq<TaggedSpecialty>, search: string): seq<TaggedSpecialty>
  {
    if search == [] then all else Filter(all, MatchesTerm(search))
  }

  /** `getAllSpecialtiesPaginated`: `page` and `limit` are read with
      `parseInt` (defaults 1 and 10); the list is searched, counted and
      sliced at `(page - 1) * limit`. A page or limit that is `NaN` makes
      both slice positions `NaN`, which `slice` reads as 0: the page is
      empty. */
  function GetAllSpecialtiesPaginated(areas: seq<Area>, q: SpecialtiesQuery): (r: SpecialtiesPage)
    ensures r.page == ParseInt(FieldOr(q.page, "1")) && r.limit == ParseInt(FieldOr(q.limit, "10"))
    ensures r.total == |SearchSpecialties(GetAllSpecialties(areas), FieldOr(q.search, ""))|
    ensures r.page.None? || r.limit.None? ==> r.specialties == []
  {
    var page := ParseInt(FieldOr(q.page, "1"));
    var limit := ParseInt(FieldOr(q.limit, "10"));
    var filtered := SearchSpecialties(GetAllSpecialties(areas), FieldOr(q.search, ""));
    var window := if page.Some? && limit.Some? then PageOf(filtered, page.value, limit.value) else [];
    SpecialtiesPage(page, limit, |filtered|, window)
  }

  /** A specialty is listed for a search exactly when it is one of the
      flattened specialties and the search is empty or it matches. */
  lemma SearchMembership(areas: seq<Area>, search: string, s: TaggedSpecialty)
    ensures s in SearchSpecialties(GetAllSpecialties(areas), search) <==>
              s in GetAllSpecialties(areas) && (search == [] || MatchesTerm(search)(s))
  {
    FilterMembership(GetAllSpecialties(areas), MatchesTerm(search));
  }

  /** For a page of at least 1 and a non-negative limit, the answer holds
      the matching specialties from position `(page - 1) * limit` on, at
      most `limit` of them. */
  lemma SpecialtiesPageWindow(areas: seq<Area>, q: SpecialtiesQuery, page: int, limit: int)
    requires ParseInt(FieldOr(q.page, "1")) == Some(page) && ParseInt(FieldOr(q.limit, "10")) == Some(limit)
    requires page >= 1 && limit >= 0
    ensures var r := GetAllSpecialtiesPaginated(areas, q);
            var filtered := SearchSpecialties(GetAllSpecialties(areas), FieldOr(q.search, ""));
            var start := StartIndex(page, limit);
            && |r.specialties| <= limit
            && |r.specialties| == Max(0, Min(limit, r.total - start))
            && forall i :: 0 <= i < |r.specialties| ==> 0 <= start + i < |filtered| && r.specialties[i] == filtered[start + i]
  {
    var filtered := SearchSpecialties(GetAllSpecialties(areas), FieldOr(q.search, ""));
    PageOfWindow(filtered, page, limit);
  }

  /** Without `page` and `limit` the first ten specialties are listed. */
  lemma DefaultPaging(areas: seq<Area>, search: Option<string>)
    ensures var r := GetAllSpecialtiesPaginated(areas, SpecialtiesQuery(None, None, search));
            var filtered := SearchSpecialties(GetAllSpecialties(areas), FieldOr(search, ""));
            r.page == Some(1) && r.limit == Some(10)
            && r.specialties == filtered[..Min(10, |filtered|)]
  {
    assert ParseInt("1") == Some(1) by {
      ParseIntShowInt(1, []);
      assert ShowInt(1) + [] == "1";
    }
    assert ParseInt("10") == Some(10) by {
      ParseIntShowInt(10, []);
      assert ShowInt(10) + [] == "10";
    }
    var filtered := SearchSpecialties(GetAllSpecialties(areas), FieldOr(search, ""));
    FirstPage(filtered, 10);
  }
}

=== FILE: areas_service.dfy ===
/** The areas service over the areas document: lookups by slug and the
    flattened list of every specialty tagged with its area. Reading the
    file is left out; a document that cannot be read or parsed reads as
    no areas at all. */
module AreasService {
  import opened Common
  import opened Seqs
  import opened CatalogData

  /** `readAreasFile`: the parsed areas, or none when the read or the
      parse fails. */
  function ReadAreas(file: Option<seq<Area>>): (r: seq<Area>)
    ensures file.None? ==> r == []
    ensures file.Some? ==> r == file.value
  {
    match file
    case None => []
    case Some(areas) => areas
  }

  function AreaWithSlug(slug: string): Area -> bool
  {
    (area: Area) => area.slug == slug
  }

  function AreaEntryWithSlug(slug: string): AreaEntry -> bool
  {
    (item: AreaEntry) => item.slug == slug
  }

  /** `getAreaBySlug`: the first area with that slug, if any. */
  function GetAreaBySlug(areas: seq<Area>, slug: string): (r: Option<Area>)
    ensures r.None? <==> forall i :: 0 <= i < |areas| ==> areas[i].slug != slug
    ensures r.Some? ==> exists k :: 0 <= k < |areas| && areas[k] == r.value && r.value.slug == slug
                                   && forall i :: 0 <= i < k ==> areas[i].slug != slug
  {
    Find(areas, AreaWithSlug(slug))
  }

  /** `getSpecialtyBySlugs`: nothing when no area has the area slug; the
      first item of that area with the item slug, if any. The matching
      area's `items` is used without a check: when it is not an array the
      call throws, which is an `Err` here. */
  function GetSpecialtyBySlugs(areas: seq<Area>, areaSlug: string, itemSlug: string): (r: Result<Option<AreaEntry>>)
    ensures GetAreaBySlug(areas, areaSlug).None? ==> r == Ok(None)
    ensures r.Err? <==> GetAreaBySlug(areas, areaSlug).Some? && GetAreaBySlug(areas, areaSlug).value.items.None?
    ensures r.Ok? && r.value.Some? ==>
              && r.value.value.slug == itemSlug
              && r.value.value in GetAreaBySlug(areas, areaSlug).value.items.value
    ensures GetAreaBySlug(areas, areaSlug).Some? && GetAreaBySlug(areas, areaSlug).value.items.Some? ==>
              var items := GetAreaBySlug(areas, areaSlug).value.items.value;
              (r == Ok(None) <==> forall i :: 0 <= i < |items| ==> items[i].slug != itemSlug)
  {
    match GetAreaBySlug(areas, areaSlug)
    case None => Ok(None)
    case Some(area) =>
      match area.items
      case None => Err("area.items is not an array")
      case Some(items) => Ok(Find(items, AreaEntryWithSlug(itemSlug)))
  }

  /** A specialty with the name of its area and the area's slug attached,
      as `getAllSpecialties` returns it. */
  datatype TaggedSpecialty = TaggedSpecialty(
    name: string,
    slug: string,
    img: string,
    pdf: string,
    area: string,
    areaSlug: string)

  /** `{ ...item, area: area.name, areaSlug: area.slug }`. */
  function Tag(area: Area): AreaEntry -> TaggedSpecialty
  {
    (item: AreaEntry) => TaggedSpecialty(item.name, item.slug, item.img, item.pdf, area.name, area.slug)
  }

  /** The tagged items of one area; nothing when `items` is not an
      array. */
  function TaggedItems(area: Area): seq<TaggedSpecialty>
  {
    Map(ArrayOrEmpty(area.items), Tag(area))
  }

  /** `getAllSpecialties`: the tagged items of every area, area after area,
      each area's items in their order. */
  function GetAllSpecialties(areas: seq<Area>): seq<TaggedSpecialty>
  {
    FlatMap(areas, TaggedItems)
  }

  /** The number of specialties in the array `items` of an area, and the
      sum over a list of areas. */
  function ItemCount(area: Area): nat
  {
    |ArrayOrEmpty(area.items)|
  }

  function TotalItems(areas: seq<Area>): nat
  {
    if areas == [] then 0 else ItemCount(areas[0]) + TotalItems(areas[1..])
  }

  /** As many specialties as the array `items` hold altogether; an area
      without one contributes nothing. */
  lemma {:induction false} GetAllSpecialtiesLength(areas: seq<Area>)
    ensures |GetAllSpecialties(areas)| == TotalItems(areas)
  {
    if areas != [] {
      GetAllSpecialtiesLength(areas[1..]);
      FlatMapAppend([areas[0]], areas[1..], TaggedItems);
      assert [areas[0]] + areas[1..] == areas;
      assert FlatMap([areas[0]], TaggedItems) == TaggedItems(areas[0]) + FlatMap([], TaggedItems);
    }
  }

  /** Item `j` of area `k` appears, tagged with its area, after the items
      of the areas before it. */
  lemma GetAllSpecialtiesAt(areas: seq<Area>, k: nat, j: nat)
    requires k < |areas| && areas[k].items.Some? && j < |areas[k].items.value|
    ensures var all := GetAllSpecialties(areas);
            var at := TotalItems(areas[..k]) + j;
            var item := areas[k].items.value[j];
            && at < |all|
            && all[at] == TaggedSpecialty(item.name, item.slug, item.img, item.pdf, areas[k].name, areas[k].slug)
  {
    FlatMapIndex(areas, TaggedItems, k, j);
    FlatMapLength(areas[..k], TaggedItems);
    GetAllSpecialtiesLength(areas[..k]);
  }

  /** Every specialty of the flattened list is an item of an area of the
      list, tagged with that area. */
  lemma GetAllSpecialtiesOrigin(areas: seq<Area>, s: TaggedSpecialty)
    requires s in GetAllSpecialties(areas)
    ensures exists k :: 0 <= k < |areas| && areas[k].items.Some? && s.area == areas[k].name && s.areaSlug == areas[k].slug
                        && AreaEntry(s.name, s.slug, s.img, s.pdf) in areas[k].items.value
  {
    FlatMapOrigin(areas, TaggedItems, s);
    var k :| 0 <= k < |areas| && s in TaggedItems(areas[k]);
    var items := ArrayOrEmpty(areas[k].items);
    var j :| 0 <= j < |items| && TaggedItems(areas[k])[j] == s;
    assert items[j] == AreaEntry(s.name, s.slug, s.img, s.pdf);
  }
}

=== FILE: batch_remove_bg.dfy ===
/** The batch driver of the background remover: which files it picks,
    and the arguments it passes to the remover for each one. Walking the
    directory tree, the output path, the dry-run listing and spawning the
    remover are left out. */
module BatchRemoveBg {
  import opened Common
  import opened Strings
  import opened Seqs
  import opened CliArgs
  import opened RemoveBg

  /** `toBool`: false for an absent value, otherwise whether the value is
      "true" in any letter case. */
  function ToBool(value: Option<string>): (r: bool)
    ensures value.None? ==> !r
    ensures value.Some? ==> (r <==> Lower(value.value) == "true")
  {
    value.Some? && Lower(value.value) == "true"
  }

  /** The driver reads a flag the way the remover does with a default of
      false, so a flag means the same to both. */
  lemma ToBoolIsParseBool(value: Option<string>)
    ensures ToBool(value) == ParseBool(value, false)
  {
  }

  // ---------------------------------------------------------------------
  // Target selection.

  /** The file name ends with ".png" in any letter case. */
  predicate IsPng(file: string)
  {
    EndsWith(Lower(file), ".png")
  }

  /** The file is an earlier output of the remover. */
  predicate IsNoBg(file: string)
  {
    EndsWith(Lower(file), "-no-bg.png")
  }

  predicate IsNotNoBg(file: string)
  {
    !IsNoBg(file)
  }

  /** An output of the remover is itself a PNG. */
  lemma NoBgIsPng(file: string)
    requires IsNoBg(file)
    ensures IsPng(file)
  {
    var low := Lower(file);
    assert low[|low| - 4..] == low[|low| - 10..][6..];
  }

  /** `files.filter(.png).filter(not -no-bg.png)`: the PNG files that are
      not outputs, in the order of the walk. */
  function Targets(files: seq<string>): (r: seq<string>)
    ensures forall f :: f in r <==> f in files && IsPng(f) && !IsNoBg(f)
  {
    FilterMembership(files, IsPng);
    FilterMembership(Filter(files, IsPng), IsNotNoBg);
    Filter(Filter(files, IsPng), IsNotNoBg)
  }

  // ---------------------------------------------------------------------
  // Building the remover's arguments.

  /** A value of the options object: only strings are passed on. */
  datatype ArgValue = Undefined | Null | Text(text: string)

  /** A property read from the parsed arguments: `undefined` when the key
      was not given. */
  function ValueOf(value: Option<string>): (r: ArgValue)
    ensures r.Text? <==> value.Some?
    ensures value.Some? ==> r.text == value.value
  {
    match value
    case None => Undefined
    case Some(s) => Text(s)
  }

  /** The entries `buildArgs` passes on, in order: those whose value is
      neither `undefined` nor `null`. */
  function Kept(entries: seq<(string, ArgValue)>): (r: seq<(string, string)>)
    ensures |r| <= |entries|
  {
    if entries == [] then []
    else
      (match entries[0].1
       case Text(s) => [(entries[0].0, s)]
       case _ => []) + Kept(entries[1..])
  }

  /** A kept entry is an entry of the options with a string value, and
      every such entry is kept. */
  lemma {:induction false} KeptMembership(entries: seq<(string, ArgValue)>, key: string, value: string)
    ensures (key, value) in Kept(entries) <==> (key, Text(value)) in entries
  {
    if entries != [] {
      KeptMembership(entries[1..], key, value);
      assert entries == [entries[0]] + entries[1..];
    }
  }

  /** `--key` followed by the value, for every kept entry in order. */
  function FlagPairs(kept: seq<(string, string)>): (r: seq<string>)
    ensures |r| == 2 * |kept|
    ensures forall i :: 0 <= i < |kept| ==> r[2 * i] == "--" + kept[i].0 && r[2 * i + 1] == kept[i].1
  {
    if kept == [] then []
    else
      var rest := FlagPairs(kept[1..]);
      var r := ["--" + kept[0].0, kept[0].1] + rest;
      assert forall i :: 0 <= i < |kept| ==> r[2 * i] == "--" + kept[i].0 && r[2 * i + 1] == kept[i].1 by {
        forall i | 1 <= i < |kept|
          ensures r[2 * i] == "--" + kept[i].0 && r[2 * i + 1] == kept[i].1
        {
          assert kept[i] == kept[1..][i - 1];
          assert r[2 * i] == rest[2 * (i - 1)];
          assert r[2 * i + 1] == rest[2 * (i - 1) + 1];
        }
      }
      r
  }

  /** `buildArgs`: the flag and the value of every entry that is set, as
      many arguments as twice the entries kept. */
  function BuildArgs(entries: seq<(string, ArgValue)>): (r: seq<string>)
    ensures |r| == 2 * |Kept(entries)|
  {
    FlagPairs(Kept(entries))
  }

  /** The configuration the first `n` kept entries stand for: each key
      with the value of its last entry among them. */
  function ConfigUpTo(kept: seq<(string, string)>, n: nat): Config
    requires n <= |kept|
  {
    if n == 0 then map[] else ConfigUpTo(kept, n - 1)[kept[n - 1].0 := Some(kept[n - 1].1)]
  }

  /** The configuration all the kept entries stand for. */
  function ConfigOf(kept: seq<(string, string)>): Config
  {
    ConfigUpTo(kept, |kept|)
  }

  /** `"--" + key` is a flag whose key is `key`. */
  lemma FlagOfKey(key: string)
    ensures IsFlag("--" + key) && KeyOf("--" + key) == key
  {
    assert ("--" + key)[..2] == "--";
    assert ("--" + key)[2..] == key;
  }

  /** In the built arguments the flags sit exactly at the even positions,
      even when a value itself starts with "--": the flag of pair `i` is
      read as a key and its value is not. */
  lemma {:induction false} FlagPairsKeyPos(kept: seq<(string, string)>, i: nat)
    requires i < |kept|
    ensures IsKeyPos(FlagPairs(kept), 2 * i) && !IsKeyPos(FlagPairs(kept), 2 * i + 1)
  {
    FlagOfKey(kept[i].0);
    if i > 0 {
      FlagPairsKeyPos(kept, i - 1);
      assert 2 * (i - 1) + 1 == 2 * i - 1;
    }
  }

  /** Reading one `--key value` pair at `k` sets the key to the value;
      the parser then stands at `next`, two further on. */
  lemma {:induction false} PairStep(args: seq<string>, config: Config, k: nat, key: string, value: string, after: Config, next: nat)
    requires k + 1 < |args| && args[k] == "--" + key && args[k + 1] == value
    requires IsKeyPos(args, k) && !IsKeyPos(args, k + 1)
    requires ParsedBelow(args, config, k)
    requires after == config[key := Some(value)] && next == k + 2
    ensures ParsedBelow(args, after, next)
  {
    FlagOfKey(key);
    TakeStep(args, config, k);
    SkipStep(args, after, k + 1);
  }

  /** After the first `n` pairs, the parser holds the configuration of the
      first `n` kept entries. */
  lemma {:induction false} FlagPairsParsedBelow(kept: seq<(string, string)>, n: nat)
    requires n <= |kept|
    ensures ParsedBelow(FlagPairs(kept), ConfigUpTo(kept, n), 2 * n)
  {
    if n > 0 {
      FlagPairsParsedBelow(kept, n - 1);
      FlagPairsKeyPos(kept, n - 1);
      PairStep(FlagPairs(kept), ConfigUpTo(kept, n - 1), 2 * (n - 1), kept[n - 1].0, kept[n - 1].1, ConfigUpTo(kept, n), 2 * n);
    }
  }

  /** The remover parses the built arguments back into exactly the
      configuration of the kept entries. */
  lemma BuildArgsRoundTrip(entries: seq<(string, ArgValue)>, config: Config)
    requires Parsed(BuildArgs(entries), config)
    ensures config == ConfigOf(Kept(entries))
  {
    var kept := Kept(entries);
    FlagPairsParsedBelow(kept, |kept|);
    ParsedUnique(BuildArgs(entries), config, ConfigOf(kept));
  }

  // ---------------------------------------------------------------------
  // What the remover reads back.

  /** No key occurs twice. */
  predicate DistinctKeys<V>(xs: seq<(string, V)>)
  {
    forall i, j :: 0 <= i < j < |xs| ==> xs[i].0 != xs[j].0
  }

  /** A key is set exactly when some kept entry carries it. */
  lemma {:induction false} ConfigUpToMembership(kept: seq<(string, string)>, n: nat, key: string)
    requires n <= |kept|
    ensures key in ConfigUpTo(kept, n) <==> exists i :: 0 <= i < n && kept[i].0 == key
  {
    if n > 0 {
      ConfigUpToMembership(kept, n - 1, key);
    }
  }

  lemma ConfigOfMembership(kept: seq<(string, string)>, key: string)
    ensures key in ConfigOf(kept) <==> exists i :: 0 <= i < |kept| && kept[i].0 == key
  {
    ConfigUpToMembership(kept, |kept|, key);
  }

  /** With every key given once, each key holds the value of its entry. */
  lemma {:induction false} ConfigUpToDistinct(kept: seq<(string, string)>, n: nat, i: nat)
    requires DistinctKeys(kept) && i < n <= |kept|
    ensures Lookup(ConfigUpTo(kept, n), kept[i].0) == Some(kept[i].1)
  {
    if i < n - 1 {
      ConfigUpToDistinct(kept, n - 1, i);
      assert kept[n - 1].0 != kept[i].0;
    }
  }

  lemma ConfigOfDistinct(kept: seq<(string, string)>, key: string, value: string)
    requires DistinctKeys(kept) && (key, value) in kept
    ensures Lookup(ConfigOf(kept), key) == Some(value)
  {
    var i :| 0 <= i < |kept| && kept[i] == (key, value);
    ConfigUpToDistinct(kept, |kept|, i);
  }

  /** Dropping entries keeps the keys distinct. */
  lemma {:induction false} KeptDistinct(entries: seq<(string, ArgValue)>)
    requires DistinctKeys(entries)
    ensures DistinctKeys(Kept(entries))
  {
    if entries != [] {
      var rest := entries[1..];
      KeptDistinct(rest);
      forall j | 0 <= j < |Kept(rest)|
        ensures Kept(rest)[j].0 != entries[0].0
      {
        var (key, value) := Kept(rest)[j];
        KeptMembership(rest, key, value);
        var i :| 0 <= i < |rest| && rest[i] == (key, Text(value));
        assert entries[i + 1] == rest[i];
      }
    }
  }

  /** With every key given once, the remover reads for each key the
      string given for it, and nothing for a key never given a string. */
  lemma LookupBuiltArgs(entries: seq<(string, ArgValue)>, config: Config, key: string, value: ArgValue)
    requires DistinctKeys(entries) && (key, value) in entries
    requires Parsed(BuildArgs(entries), config)
    ensures Lookup(config, key) == if value.Text? then Some(value.text) else None
  {
    BuildArgsRoundTrip(entries, config);
    KeptDistinct(entries);
    if value.Text? {
      KeptMembership(entries, key, value.text);
      ConfigOfDistinct(Kept(entries), key, value.text);
    } else {
      ConfigOfMembership(Kept(entries), key);
      if key in config {
        var i :| 0 <= i < |Kept(entries)| && Kept(entries)[i].0 == key;
        var (k, v) := Kept(entries)[i];
        KeptMembership(entries, k, v);
      }
    }
  }

  /** The driver's own options: the directory to walk (`backend/files/cep`
      unless given), whether to cut an ellipse, its padding ("0" unless
      given), the settings passed through as given, and the dry-run flag. */
  datatype BatchOptions = BatchOptions(
    root: string,
    ellipse: bool,
    padding: string,
    tolerance: Option<string>,
    bg: Option<string>,
    crop: Option<string>,
    center: Option<string>,
    dryRun: bool)

  const DefaultRoot: string := "backend/files/cep"

  function ReadBatchOptions(config: Config): (o: BatchOptions)
    ensures o.root != [] && o.padding != []
    ensures o.ellipse == ParseBool(Lookup(config, "ellipse"), false)
    ensures o.dryRun == ParseBool(Lookup(config, "dry-run"), false)
    ensures !IsFalsy(Lookup(config, "padding")) ==> o.padding == Lookup(config, "padding").value
    ensures o.tolerance == Lookup(config, "tolerance") && o.bg == Lookup(config, "bg")
    ensures o.crop == Lookup(config, "crop") && o.center == Lookup(config, "center")
  {
    BatchOptions(
      OrElse(Lookup(config, "root"), DefaultRoot),
      ToBool(Lookup(config, "ellipse")),
      OrElse(Lookup(config, "padding"), "0"),
      Lookup(config, "tolerance"),
      Lookup(config, "bg"),
      Lookup(config, "crop"),
      Lookup(config, "center"),
      ToBool(Lookup(config, "dry-run")))
  }

  /** The options object handed to `buildArgs` for one file: the ellipse
      and its padding only when the ellipse is on. */
  function CommandEntries(o: BatchOptions, filePath: string, outPath: string): (r: seq<(string, ArgValue)>)
    ensures DistinctKeys(r)
  {
    var r := [
      ("in", Text(filePath)),
      ("out", Text(outPath)),
      ("ellipse", if o.ellipse then Text("true") else Undefined),
      ("padding", if o.ellipse then Text(o.padding) else Undefined),
      ("tolerance", ValueOf(o.tolerance)),
      ("bg", ValueOf(o.bg)),
      ("crop", ValueOf(o.crop)),
      ("center", ValueOf(o.center))];
    KeysDiffer();
    r
  }

  /** The eight option names are different from each other. */
  lemma KeysDiffer()
    ensures var keys := ["in", "out", "ellipse", "padding", "tolerance", "bg", "crop", "center"];
            forall i, j :: 0 <= i < j < |keys| ==> keys[i] != keys[j]
  {
    var keys := ["in", "out", "ellipse", "padding", "tolerance", "bg", "crop", "center"];
    assert keys[0][0] == 'i' && keys[1][0] == 'o' && keys[2][0] == 'e' && keys[3][0] == 'p';
    assert keys[4][0] == 't' && keys[5][0] == 'b' && keys[6][0] == 'c' && keys[7][0] == 'c';
    assert keys[6][1] == 'r' && keys[7][1] == 'e';
  }

  /** The remover, parsing what the driver passes for a file, reads that
      file and output path, the ellipse and its padding exactly when the
      driver's ellipse is on, and the other settings as the driver was
      given them. */
  lemma CommandLookups(o: BatchOptions, filePath: string, outPath: string, config: Config)
    requires Parsed(BuildArgs(CommandEntries(o, filePath, outPath)), config)
    ensures Lookup(config, "in") == Some(filePath) && Lookup(config, "out") == Some(outPath)
    ensures Lookup(config, "ellipse") == (if o.ellipse then Some("true") else None)
    ensures Lookup(config, "padding") == (if o.ellipse then Some(o.padding) else None)
    ensures Lookup(config, "tolerance") == o.tolerance && Lookup(config, "bg") == o.bg
    ensures Lookup(config, "crop") == o.crop && Lookup(config, "center") == o.center
  {
    var entries := CommandEntries(o, filePath, outPath);
    LookupBuiltArgs(entries, config, "in", entries[0].1);
    LookupBuiltArgs(entries, config, "out", entries[1].1);
    LookupBuiltArgs(entries, config, "ellipse", entries[2].1);
    LookupBuiltArgs(entries, config, "padding", entries[3].1);
    LookupBuiltArgs(entries, config, "tolerance", entries[4].1);
    LookupBuiltArgs(entries, config, "bg", entries[5].1);
    LookupBuiltArgs(entries, config, "crop", entries[6].1);
    LookupBuiltArgs(entries, config, "center", entries[7].1);
  }

  /** The remover accepts the call exactly when the file and output paths
      are not empty. */
  lemma CommandAccepted(o: BatchOptions, filePath: string, outPath: string, config: Config)
    requires Parsed(BuildArgs(CommandEntries(o, filePath, outPath)), config)
    ensures ReadOptions(config).Ok? <==> filePath != [] && outPath != []
  {
    CommandLookups(o, filePath, outPath, config);
  }

  /** An accepted call cuts an ellipse exactly when the driver's ellipse
      is on. */
  lemma CommandEllipse(o: BatchOptions, filePath: string, outPath: string, config: Config)
    requires Parsed(BuildArgs(CommandEntries(o, filePath, outPath)), config)
    requires ReadOptions(config).Ok?
    ensures ReadOptions(config).value.ellipse == o.ellipse
  {
    CommandLookups(o, filePath, outPath, config);
    var ellipse := Lookup(config, "ellipse");
    assert ReadOptions(config).value.ellipse == ParseBool(ellipse, false);
    if o.ellipse {
      ParseBoolTrue();
      assert ellipse == Some("true");
    } else {
      assert ellipse == None;
    }
  }

  /** The driver passes "true", which the remover reads as true. */
  lemma ParseBoolTrue()
    ensures ParseBool(Some("true"), false)
  {
    assert Lower("true") == "true";
  }
}

=== FILE: catalog.dfy ===
/** Flattening of the two catalogs into the records the linkage engine
    compares: CEP items (the first catalog) and specialties (the second).
    Models `buildCepItems` and `buildSpecialties` of the integration
    service. The files base URLs come from the environment and are
    parameters here. */
module Catalog {
  import opened Common
  import opened Seqs
  import opened CatalogData

  datatype CategoryRef = CategoryRef(slug: string, name: string)

  /** A CEP item tagged with its category. */
  datatype CepItem = CepItem(
    id: string,
    codigo: string,
    nombre: string,
    slug: string,
    pdf: string,
    filesBaseUrl: string,
    category: CategoryRef)

  /** A specialty tagged with its area. */
  datatype Specialty = Specialty(
    id: string,
    name: string,
    slug: string,
    areaSlug: string,
    areaName: string,
    img: string,
    pdf: string,
    filesBaseUrl: string)

  /** The identity of a CEP item: "cep:" followed by its code. */
  function CepId(codigo: string): string { "cep:" + codigo }

  /** The identity of a specialty: "esp:", the area slug, ":" and its slug. */
  function SpecialtyId(areaSlug: string, slug: string): string
  {
    "esp:" + areaSlug + ":" + slug
  }

  function CepItemOf(category: CepCategory, e: CepEntry, baseUrl: string): CepItem
  {
    CepItem(CepId(e.codigo), e.codigo, e.nombre, e.slug, e.pdf, baseUrl,
            CategoryRef(category.slug, category.nombreCategoria))
  }

  function SpecialtyOf(area: Area, e: AreaEntry, baseUrl: string): Specialty
  {
    Specialty(SpecialtyId(area.slug, e.slug), e.name, e.slug, area.slug, area.name,
              e.img, e.pdf, baseUrl)
  }

  /** The items one category contributes: its array `items`, or nothing. */
  function CategoryItems(baseUrl: string): CepCategory -> seq<CepItem>
  {
    (c: CepCategory) => Map(ArrayOrEmpty(c.items), (e: CepEntry) => CepItemOf(c, e, baseUrl))
  }

  /** The specialties one area contributes: its array `items`, or nothing. */
  function AreaSpecialties(baseUrl: string): Area -> seq<Specialty>
  {
    (a: Area) => Map(ArrayOrEmpty(a.items), (e: AreaEntry) => SpecialtyOf(a, e, baseUrl))
  }

  /** `buildCepItems`: nothing for a missing manifest or a non-array
      `categorias`, otherwise every category's items in order. */
  function BuildCepItems(manifest: Option<CepManifest>, baseUrl: string): seq<CepItem>
  {
    match manifest
    case None => []
    case Some(m) =>
      match m.categorias
      case None => []
      case Some(cats) => FlatMap(cats, CategoryItems(baseUrl))
  }

  /** `buildSpecialties`: nothing when the areas document is not an array,
      otherwise every area's specialties in order. */
  function BuildSpecialties(areas: Option<seq<Area>>, baseUrl: string): seq<Specialty>
  {
    match areas
    case None => []
    case Some(xs) => FlatMap(xs, AreaSpecialties(baseUrl))
  }

  /** Number of items in the array `items` of the given categories. */
  function CepItemCount(cats: seq<CepCategory>): nat
  {
    if cats == [] then 0 else |ArrayOrEmpty(cats[0].items)| + CepItemCount(cats[1..])
  }

  /** Number of specialties in the array `items` of the given areas. */
  function SpecialtyCount(areas: seq<Area>): nat
  {
    if areas == [] then 0 else |ArrayOrEmpty(areas[0].items)| + SpecialtyCount(areas[1..])
  }

  lemma {:induction false} CepItemCountIsTotal(cats: seq<CepCategory>, baseUrl: string)
    ensures CepItemCount(cats) == TotalLength(cats, CategoryItems(baseUrl))
  {
    if cats != [] {
      CepItemCountIsTotal(cats[1..], baseUrl);
    }
  }

  lemma {:induction false} SpecialtyCountIsTotal(areas: seq<Area>, baseUrl: string)
    ensures SpecialtyCount(areas) == TotalLength(areas, AreaSpecialties(baseUrl))
  {
    if areas != [] {
      SpecialtyCountIsTotal(areas[1..], baseUrl);
    }
  }

  /** Item `j` of category `k` is record `CepItemCount(cats[..k]) + j`: it
      carries the id "cep:" + code, the entry's fields and the category's
      slug and name. */
  lemma CepItemAt(cats: seq<CepCategory>, baseUrl: string, k: nat, j: nat)
    requires k < |cats| && j < |ArrayOrEmpty(cats[k].items)|
    ensures CepItemCount(cats[..k]) + j < |BuildCepItems(Some(CepManifest(Some(cats))), baseUrl)|
    ensures var r := BuildCepItems(Some(CepManifest(Some(cats))), baseUrl)[CepItemCount(cats[..k]) + j];
            var e := ArrayOrEmpty(cats[k].items)[j];
            && r == CepItemOf(cats[k], e, baseUrl)
            && r.id == CepId(e.codigo)
            && r.codigo == e.codigo && r.nombre == e.nombre && r.slug == e.slug && r.pdf == e.pdf
            && r.category == CategoryRef(cats[k].slug, cats[k].nombreCategoria)
  {
    CepItemCountIsTotal(cats[..k], baseUrl);
    FlatMapIndex(cats, CategoryItems(baseUrl), k, j);
  }

  /** One record per category item: a category whose `items` is not an
      array contributes nothing (`CepItemAt` places each record). */
  lemma BuildCepItemsLength(cats: seq<CepCategory>, baseUrl: string)
    ensures |BuildCepItems(Some(CepManifest(Some(cats))), baseUrl)| == CepItemCount(cats)
  {
    FlatMapLength(cats, CategoryItems(baseUrl));
    CepItemCountIsTotal(cats, baseUrl);
  }

  /** Specialty `j` of area `k` is record `SpecialtyCount(areas[..k]) + j`:
      it carries the id "esp:" + area slug + ":" + slug, the entry's
      fields and the area's slug and name. */
  lemma SpecialtyAt(areas: seq<Area>, baseUrl: string, k: nat, j: nat)
    requires k < |areas| && j < |ArrayOrEmpty(areas[k].items)|
    ensures SpecialtyCount(areas[..k]) + j < |BuildSpecialties(Some(areas), baseUrl)|
    ensures var r := BuildSpecialties(Some(areas), baseUrl)[SpecialtyCount(areas[..k]) + j];
            var e := ArrayOrEmpty(areas[k].items)[j];
            && r == SpecialtyOf(areas[k], e, baseUrl)
            && r.id == SpecialtyId(areas[k].slug, e.slug)
            && r.name == e.name && r.slug == e.slug
            && r.areaSlug == areas[k].slug && r.areaName == areas[k].name
  {
    SpecialtyCountIsTotal(areas[..k], baseUrl);
    FlatMapIndex(areas, AreaSpecialties(baseUrl), k, j);
  }

  /** One record per area specialty: an area whose `items` is not an array
      contributes nothing (`SpecialtyAt` places each record). */
  lemma BuildSpecialtiesLength(areas: seq<Area>, baseUrl: string)
    ensures |BuildSpecialties(Some(areas), baseUrl)| == SpecialtyCount(areas)
  {
    FlatMapLength(areas, AreaSpecialties(baseUrl));
    SpecialtyCountIsTotal(areas, baseUrl);
  }
}

=== FILE: catalog_data.dfy ===
/** The shapes of the two JSON catalogs as the code reads them: the CEP
    manifest (categories of items) and the areas file (areas of
    specialties). A field that is missing, `null` or empty is the empty
    string (the ids the code builds would print it as "undefined" or
    "null"); an `items` or `categorias` value that is not an array is
    `None`. */
module CatalogData {
  import opened Common

  /** One item of a CEP category. */
  datatype CepEntry = CepEntry(codigo: string, nombre: string, slug: string, pdf: string, img: string)

  /** A CEP category and its items. */
  datatype CepCategory = CepCategory(
    slug: string,
    nombreCategoria: string,
    img: string,
    items: Option<seq<CepEntry>>)

  /** The CEP manifest document. */
  datatype CepManifest = CepManifest(categorias: Option<seq<CepCategory>>)

  /** One specialty of an area. */
  datatype AreaEntry = AreaEntry(name: string, slug: string, img: string, pdf: string)

  /** An area and its specialties. */
  datatype Area = Area(name: string, slug: string, img: string, items: Option<seq<AreaEntry>>)

  /** The array behind an `items` field, or nothing when it is not one. */
  function ArrayOrEmpty<T>(items: Option<seq<T>>): seq<T>
  {
    match items
    case Some(xs) => xs
    case None => []
  }
}

=== FILE: cep_controller.dfy ===
/** The image paths the CEP endpoints add to the manifest before answering:
    an item without an image gets its PDF path with the `.pdf` extension
    turned into `.png`, a category without an image gets
    `<slug>/<slug>.png`. The Express handlers around them are left out. */
module CepController {
  import opened Common
  import opened Strings
  import opened Seqs
  import opened CatalogData

  /** `/\.pdf$/i`: the path ends with ".pdf" in any letter case. */
  predicate EndsWithPdf(path: string)
  {
    |path| >= 4 && Lower(path[|path| - 4..]) == ".pdf"
  }

  /** `buildImagePath`: the same path with a final ".pdf" (in any case)
      replaced by ".png"; "" stays "". */
  function BuildImagePath(pdfPath: string): (r: string)
    ensures pdfPath == [] ==> r == []
    ensures |r| == |pdfPath|
    ensures EndsWithPdf(pdfPath) ==> r[..|r| - 4] == pdfPath[..|pdfPath| - 4] && EndsWith(r, ".png")
    ensures !EndsWithPdf(pdfPath) ==> r == pdfPath
    ensures !EndsWithPdf(r)
  {
    if pdfPath == [] then []
    else if EndsWithPdf(pdfPath) then
      var r := pdfPath[..|pdfPath| - 4] + ".png";
      assert r[|r| - 4..] == ".png";
      assert Lower(".png")[2] == 'n';
      r
    else pdfPath
  }

  /** Deriving the image path twice gives the same path as deriving it
      once. */
  lemma BuildImagePathIdempotent(pdfPath: string)
    ensures BuildImagePath(BuildImagePath(pdfPath)) == BuildImagePath(pdfPath)
  {
  }

  /** `buildCategoryImagePath`: `<slug>/<slug>.png`, or "" for no slug. */
  function BuildCategoryImagePath(slug: string): (r: string)
    ensures r == [] <==> slug == []
    ensures slug != [] ==> StartsWith(r, slug + "/") && EndsWith(r, slug + ".png")
  {
    if slug == [] then [] else slug + "/" + slug + ".png"
  }

  /** A slug without '/' can be read back from its category image path:
      the path is that slug, a '/', and the slug with ".png" after it. */
  lemma CategoryImagePathParts(slug: string)
    requires slug != [] && '/' !in slug
    ensures SplitOn(BuildCategoryImagePath(slug), '/') == [slug, slug + ".png"]
  {
    var r := BuildCategoryImagePath(slug);
    var rest := slug + ".png";
    assert '/' !in ".png";
    assert '/' !in rest;
    assert r == slug + ['/'] + rest;
    SplitOnNoSep(rest, '/');
    SplitOnFirst(slug, rest, '/');
  }

  /** `withImages`: an item that already has an image, or has no PDF, is
      returned as it is; otherwise only `img` is set, to the derived
      path. */
  function WithImages(item: CepEntry): (r: CepEntry)
    ensures r.(img := item.img) == item
    ensures item.img != [] || item.pdf == [] ==> r == item
    ensures item.img == [] && item.pdf != [] ==> r.img == BuildImagePath(item.pdf)
    ensures r.img != [] <==> item.img != [] || item.pdf != []
  {
    if item.img != [] then item
    else if item.pdf == [] then item
    else item.(img := BuildImagePath(item.pdf))
  }

  /** A second application changes nothing. */
  lemma WithImagesIdempotent(item: CepEntry)
    ensures WithImages(WithImages(item)) == WithImages(item)
  {
  }

  /** `withCategoryImage`: a category that already has an image, or has no
      slug, is returned as it is; otherwise only `img` is set, to
      `<slug>/<slug>.png`. */
  function WithCategoryImage(category: CepCategory): (r: CepCategory)
    ensures r.(img := category.img) == category
    ensures category.img != [] || category.slug == [] ==> r == category
    ensures category.img == [] && category.slug != [] ==> r.img == BuildCategoryImagePath(category.slug)
    ensures r.img != [] <==> category.img != [] || category.slug != []
  {
    if category.img != [] then category
    else if category.slug == [] then category
    else category.(img := BuildCategoryImagePath(category.slug))
  }

  /** `Array.isArray(xs) ? xs.map(f) : xs`. */
  function MapIfArray<T>(xs: Option<seq<T>>, f: T -> T): (r: Option<seq<T>>)
    ensures r.None? <==> xs.None?
    ensures xs.Some? ==> |r.value| == |xs.value| && forall i :: 0 <= i < |xs.value| ==> r.value[i] == f(xs.value[i])
  {
    match xs
    case None => None
    case Some(s) => Some(Map(s, f))
  }

  /** `withImagesForCategory`: the category image added, and every item of
      an `items` array given its image, in order; a non-array `items` is
      kept. */
  function WithImagesForCategory(category: CepCategory): (r: CepCategory)
    ensures r.slug == category.slug && r.nombreCategoria == category.nombreCategoria
    ensures r.img == WithCategoryImage(category).img
    ensures r.items.None? <==> category.items.None?
    ensures category.items.Some? ==>
              |r.items.value| == |category.items.value|
              && forall i :: 0 <= i < |category.items.value| ==> r.items.value[i] == WithImages(category.items.value[i])
  {
    WithCategoryImage(category).(items := MapIfArray(category.items, WithImages))
  }

  /** `withImagesForManifest`: every category of a `categorias` array
      given its images, in order; a non-array `categorias` is kept. */
  function WithImagesForManifest(manifest: CepManifest): (r: CepManifest)
    ensures r.categorias.None? <==> manifest.categorias.None?
    ensures manifest.categorias.Some? ==>
              |r.categorias.value| == |manifest.categorias.value|
              && forall i :: 0 <= i < |manifest.categorias.value| ==>
                   r.categorias.value[i] == WithImagesForCategory(manifest.categorias.value[i])
  {
    manifest.(categorias := MapIfArray(manifest.categorias, WithImagesForCategory))
  }

  /** Mapping an idempotent function over an array twice is mapping it
      once. */
  lemma MapIfArrayIdempotent<T>(xs: Option<seq<T>>, f: T -> T)
    requires xs.Some? ==> forall i :: 0 <= i < |xs.value| ==> f(f(xs.value[i])) == f(xs.value[i])
    ensures MapIfArray(MapIfArray(xs, f), f) == MapIfArray(xs, f)
  {
    if xs.Some? {
      assert Map(Map(xs.value, f), f) == Map(xs.value, f);
    }
  }

  lemma WithImagesForCategoryIdempotent(category: CepCategory)
    ensures WithImagesForCategory(WithImagesForCategory(category)) == WithImagesForCategory(category)
  {
    if category.items.Some? {
      forall i | 0 <= i < |category.items.value|
        ensures WithImages(WithImages(category.items.value[i])) == WithImages(category.items.value[i])
      {
        WithImagesIdempotent(category.items.value[i]);
      }
    }
    MapIfArrayIdempotent(category.items, WithImages);
  }

  /** Adding the images to a manifest that already has them changes
      nothing. */
  lemma WithImagesForManifestIdempotent(manifest: CepManifest)
    ensures WithImagesForManifest(WithImagesForManifest(manifest)) == WithImagesForManifest(manifest)
  {
    if manifest.categorias.Some? {
      forall i | 0 <= i < |manifest.categorias.value|
        ensures WithImagesForCategory(WithImagesForCategory(manifest.categorias.value[i]))
             == WithImagesForCategory(manifest.categorias.value[i])
      {
        WithImagesForCategoryIdempotent(manifest.categorias.value[i]);
      }
    }
    MapIfArrayIdempotent(manifest.categorias, WithImagesForCategory);
  }
}

=== FILE: cep_service.dfy ===
/** The CEP manifest service: lookups by slug in the manifest, and the
    module-level cache in front of the manifest file and the remote
    manifest URL. The file system, the HTTP client and the clock are
    inputs: a read is given what `stat`, `readFile`/`JSON.parse` and the
    fetch would have produced, and the time. */
module CepService {
  import opened Common
  import opened Strings
  import opened Seqs
  import opened CatalogData

  // ---------------------------------------------------------------------
  // Lookups.

  function CategoryWithSlug(slug: string): CepCategory -> bool
  {
    (category: CepCategory) => category.slug == slug
  }

  function EntryWithSlug(slug: string): CepEntry -> bool
  {
    (item: CepEntry) => item.slug == slug
  }

  /** `getCepCategoryBySlug` over the manifest the read produced: nothing
      when there is no manifest or `categorias` is not an array, otherwise
      the first category with that slug, if any. */
  function GetCepCategoryBySlug(manifest: Option<CepManifest>, slug: string): (r: Option<CepCategory>)
    ensures manifest.None? || manifest.value.categorias.None? ==> r.None?
    ensures manifest.Some? && manifest.value.categorias.Some? ==>
              var cats := manifest.value.categorias.value;
              && (r.None? <==> forall i :: 0 <= i < |cats| ==> cats[i].slug != slug)
              && (r.Some? ==> exists k :: 0 <= k < |cats| && cats[k] == r.value && r.value.slug == slug
                                          && forall i :: 0 <= i < k ==> cats[i].slug != slug)
  {
    match manifest
    case None => None
    case Some(m) =>
      match m.categorias
      case None => None
      case Some(cats) => Find(cats, CategoryWithSlug(slug))
  }

  /** `getCepSpecialtyBySlugs`: nothing when the category is missing or its
      `items` is not an array, otherwise the first item of the category
      with the item slug, if any. */
  function GetCepSpecialtyBySlugs(manifest: Option<CepManifest>, categorySlug: string, itemSlug: string): (r: Option<CepEntry>)
    ensures var category := GetCepCategoryBySlug(manifest, categorySlug);
            category.None? || category.value.items.None? ==> r.None?
    ensures var category := GetCepCategoryBySlug(manifest, categorySlug);
            category.Some? && category.value.items.Some? ==>
              var items := category.value.items.value;
              && (r.None? <==> forall i :: 0 <= i < |items| ==> items[i].slug != itemSlug)
              && (r.Some? ==> exists k :: 0 <= k < |items| && items[k] == r.value && r.value.slug == itemSlug
                                          && forall i :: 0 <= i < k ==> items[i].slug != itemSlug)
  {
    match GetCepCategoryBySlug(manifest, categorySlug)
    case None => None
    case Some(category) =>
      match category.items
      case None => None
      case Some(items) => Find(items, EntryWithSlug(itemSlug))
  }

  /** An item found by its two slugs belongs to a category of the manifest
      that carries the first slug, and carries the second. */
  lemma SpecialtyFoundInManifest(manifest: Option<CepManifest>, categorySlug: string, itemSlug: string)
    requires GetCepSpecialtyBySlugs(manifest, categorySlug, itemSlug).Some?
    ensures var item := GetCepSpecialtyBySlugs(manifest, categorySlug, itemSlug).value;
            && manifest.Some? && manifest.value.categorias.Some?
            && item.slug == itemSlug
            && exists c :: c in manifest.value.categorias.value && c.slug == categorySlug
                           && c.items.Some? && item in c.items.value
  {
    var category := GetCepCategoryBySlug(manifest, categorySlug).value;
    var item := GetCepSpecialtyBySlugs(manifest, categorySlug, itemSlug).value;
    var cats := manifest.value.categorias.value;
    var k :| 0 <= k < |cats| && cats[k] == category && category.slug == categorySlug;
    var items := category.items.value;
    var j :| 0 <= j < |items| && items[j] == item && item.slug == itemSlug;
    assert category in cats && item in items;
  }

  // ---------------------------------------------------------------------
  // The cache.

  /** `cachedManifest`, `cachedMtimeMs` and `cachedAt`. A cached document
      that is `null` is `None`. */
  datatype ManifestCache = ManifestCache(manifest: Option<CepManifest>, mtimeMs: int, cachedAt: int)

  /** The state when the server starts. */
  const EmptyCache: ManifestCache := ManifestCache(None, 0, 0)

  /** The cache time-to-live when none is configured. */
  const DefaultCacheTtlMs: int := 60000

  /** What the local file system answers: the file's modification time
      (`None` when `stat` fails) and the parsed document (`None` when the
      read or the parse fails; `Some(None)` when the file holds `null`). */
  datatype LocalFile = LocalFile(mtimeMs: Option<int>, contents: Option<Option<CepManifest>>)

  /** The environment and the network for one remote read: the time, the
      configured time-to-live (`None` when it is not a number), the
      manifest URL, what the fetch produced (`None` when it failed) and
      whether `CEP_REMOTE_FALLBACK` asks for the local file. */
  datatype RemoteSource = RemoteSource(
    now: int,
    ttl: Option<int>,
    url: string,
    fetched: Option<Option<CepManifest>>,
    fallbackLocal: bool)

  /** `readLocalManifest`: the file is parsed again only when nothing is
      cached or its modification time differs from the cached one; any
      failure answers `null` and leaves the cache as it was. The result is
      the cache afterwards and the answer. */
  function ReadLocal(cache: ManifestCache, file: LocalFile): (r: (ManifestCache, Option<CepManifest>))
    ensures r.0.cachedAt == cache.cachedAt
    ensures r.1.Some? ==> r.1 == r.0.manifest
    ensures file.mtimeMs.None? ==> r == (cache, None)
    ensures file.mtimeMs == Some(cache.mtimeMs) && cache.manifest.Some? ==> r == (cache, cache.manifest)
    ensures file.mtimeMs.Some? && (cache.manifest.None? || file.mtimeMs.value != cache.mtimeMs) ==>
              if file.contents.None? then r == (cache, None)
              else r.1 == file.contents.value && r.0.mtimeMs == file.mtimeMs.value
  {
    match file.mtimeMs
    case None => (cache, None)
    case Some(mtime) =>
      if cache.manifest.None? || mtime != cache.mtimeMs then
        match file.contents
        case None => (cache, None)
        case Some(parsed) => (cache.(manifest := parsed, mtimeMs := mtime), parsed)
      else (cache, cache.manifest)
  }

  /** After a read that produced a manifest, another read of the unchanged
      file answers the same manifest from the cache, whatever the file
      would now parse to, and leaves the cache alone. */
  lemma ReadLocalTwice(cache: ManifestCache, file: LocalFile, again: Option<Option<CepManifest>>)
    requires ReadLocal(cache, file).1.Some?
    ensures var (after, answer) := ReadLocal(cache, file);
            ReadLocal(after, LocalFile(file.mtimeMs, again)) == (after, answer)
  {
  }

  /** A touched file is parsed again: a new modification time makes the
      read answer the new contents. */
  lemma ReadLocalSeesChange(cache: ManifestCache, mtime: int, contents: Option<CepManifest>)
    requires mtime != cache.mtimeMs
    ensures ReadLocal(cache, LocalFile(Some(mtime), Some(contents))).1 == contents
  {
  }

  /** `now - cachedAt < ttl` with a cached document: a remote read inside
      this window does not fetch. */
  predicate Fresh(cache: ManifestCache, now: int, ttl: Option<int>)
  {
    cache.manifest.Some? && ttl.Some? && now - cache.cachedAt < ttl.value
  }

  /** `readRemoteManifest`: a fresh cache answers without fetching; with
      no URL the answer is `null`; a successful fetch is cached with the
      time of the read; a failed one falls back to the local read when so
      configured and answers `null` otherwise. */
  function ReadRemote(cache: ManifestCache, remote: RemoteSource, file: LocalFile): (r: (ManifestCache, Option<CepManifest>))
    ensures r.1.Some? ==> r.1 == r.0.manifest
    ensures Fresh(cache, remote.now, remote.ttl) ==> r == (cache, cache.manifest)
    ensures !Fresh(cache, remote.now, remote.ttl) && remote.url == [] ==> r == (cache, None)
    ensures !Fresh(cache, remote.now, remote.ttl) && remote.url != [] && remote.fetched.Some? ==>
              r.1 == remote.fetched.value && r.0 == ManifestCache(r.1, cache.mtimeMs, remote.now)
    ensures !Fresh(cache, remote.now, remote.ttl) && remote.url != [] && remote.fetched.None? ==>
              r == (if remote.fallbackLocal then ReadLocal(cache, file) else (cache, None))
  {
    if Fresh(cache, remote.now, remote.ttl) then (cache, cache.manifest)
    else if remote.url == [] then (cache, None)
    else
      match remote.fetched
      case Some(data) => (cache.(manifest := data, cachedAt := remote.now), data)
      case None => if remote.fallbackLocal then ReadLocal(cache, file) else (cache, None)
  }

  /** Once a fetch has produced a manifest, reads within the time-to-live
      answer it without fetching, whatever the network would now say. */
  lemma ReadRemoteWithinTtl(cache: ManifestCache, remote: RemoteSource, file: LocalFile, later: RemoteSource, file2: LocalFile)
    requires !Fresh(cache, remote.now, remote.ttl) && remote.url != []
    requires remote.fetched.Some? && remote.fetched.value.Some?
    requires later.ttl.Some? && later.now - remote.now < later.ttl.value
    ensures var (after, answer) := ReadRemote(cache, remote, file);
            ReadRemote(after, later, file2) == (after, answer)
  {
  }

  /** `(process.env.CEP_MODE || 'local').toLowerCase() === 'remote'`. */
  predicate RemoteMode(cepMode: string)
  {
    Lower(cepMode) == "remote"
  }

  /** `readManifest`: the remote read in remote mode, the local read
      otherwise. The mode is compared after lower-casing. */
  function ReadManifest(cepMode: string, cache: ManifestCache, remote: RemoteSource, file: LocalFile): (r: (ManifestCache, Option<CepManifest>))
    ensures r.1.Some? ==> r.1 == r.0.manifest
    ensures !RemoteMode(cepMode) ==> r.0.cachedAt == cache.cachedAt
    ensures !RemoteMode(cepMode) && file.mtimeMs.None? ==> r == (cache, None)
    ensures !RemoteMode(cepMode) && file.mtimeMs == Some(cache.mtimeMs) && cache.manifest.Some? ==>
              r == (cache, cache.manifest)
    ensures !RemoteMode(cepMode) && file.mtimeMs.Some? && (cache.manifest.None? || file.mtimeMs.value != cache.mtimeMs) ==>
              if file.contents.None? then r == (cache, None)
              else r.1 == file.contents.value && r.0.mtimeMs == file.mtimeMs.value
    ensures RemoteMode(cepMode) && Fresh(cache, remote.now, remote.ttl) ==> r == (cache, cache.manifest)
    ensures RemoteMode(cepMode) && !Fresh(cache, remote.now, remote.ttl) && remote.url == [] ==> r == (cache, None)
    ensures RemoteMode(cepMode) && !Fresh(cache, remote.now, remote.ttl) && remote.url != [] && remote.fetched.Some? ==>
              r.1 == remote.fetched.value && r.0 == ManifestCache(r.1, cache.mtimeMs, remote.now)
    ensures RemoteMode(cepMode) && !Fresh(cache, remote.now, remote.ttl) && remote.url != [] && remote.fetched.None? ==>
              r == (if remote.fallbackLocal then ReadLocal(cache, file) else (cache, None))
  {
    if RemoteMode(cepMode) then ReadRemote(cache, remote, file) else ReadLocal(cache, file)
  }

  /** The mode is read without regard to case: "REMOTE" and "Remote"
      select the remote read, while an unset mode (read as "local") does
      not. */
  lemma RemoteModeIgnoresCase()
    ensures RemoteMode("REMOTE") && RemoteMode("Remote") && RemoteMode("remote")
    ensures !RemoteMode("local") && !RemoteMode("LOCAL")
  {
  }

  /** Two modes that agree after lower-casing read the manifest alike. */
  lemma ReadManifestModeCase(m1: string, m2: string, cache: ManifestCache, remote: RemoteSource, file: LocalFile)
    requires Lower(m1) == Lower(m2)
    ensures ReadManifest(m1, cache, remote, file) == ReadManifest(m2, cache, remote, file)
  {
  }

  /** In local mode, once a read has produced a manifest, reading the
      unchanged file again answers it from the cache. */
  lemma ReadManifestLocalTwice(cepMode: string, cache: ManifestCache, remote: RemoteSource, file: LocalFile, again: Option<Option<CepManifest>>)
    requires !RemoteMode(cepMode)
    requires ReadManifest(cepMode, cache, remote, file).1.Some?
    ensures var (after, answer) := ReadManifest(cepMode, cache, remote, file);
            ReadManifest(cepMode, after, remote, LocalFile(file.mtimeMs, again)) == (after, answer)
  {
  }
}

=== FILE: cli_args.dfy ===
/** The command-line parser the thumbnail scripts share: every argument
    starting with "--" names a key, and the argument right after it is that
    key's value and is not read as a key itself. A key given twice keeps
    the later value. The configuration is a map from key to value; a key
    given last, with no argument after it, maps to `None` (`undefined`). */
module CliArgs {
  import opened Common
  import opened Strings

  type Config = map<string, Option<string>>

  predicate IsFlag(arg: string) { StartsWith(arg, "--") }

  /** `arg.replace(/^--/, '')`. */
  function KeyOf(arg: string): string
  {
    if IsFlag(arg) then arg[2..] else arg
  }

  /** `args[i]`, `undefined` past the end. */
  function ArgAt(args: seq<string>, i: int): (r: Option<string>)
    ensures r.Some? <==> 0 <= i < |args|
  {
    if 0 <= i < |args| then Some(args[i]) else None
  }

  /** The property read `config[key]`: `undefined` for a key never set. */
  function Lookup(config: Config, key: string): (r: Option<string>)
    ensures key !in config ==> r.None?
    ensures key in config ==> r == config[key]
  {
    if key in config then config[key] else None
  }

  /** Position `p` is read as a key: it holds a flag and was not taken as
      the value of a key just before it. */
  predicate IsKeyPos(args: seq<string>, p: int)
    decreases p
  {
    0 <= p < |args| && IsFlag(args[p]) && !(p >= 1 && IsKeyPos(args, p - 1))
  }

  /** Position `p` is a key position for `key`. */
  predicate SetsKey(args: seq<string>, p: int, key: string)
  {
    IsKeyPos(args, p) && KeyOf(args[p]) == key
  }

  /** The last key position for `key` below `bound`, or -1 when there is
      none. */
  function LastKeyPos(args: seq<string>, key: string, bound: nat): (r: int)
    ensures -1 <= r < bound
    ensures r >= 0 ==> SetsKey(args, r, key)
    ensures forall q :: r < q < bound ==> !SetsKey(args, q, key)
    decreases bound
  {
    if bound == 0 then -1
    else if SetsKey(args, bound - 1, key) then bound - 1
    else LastKeyPos(args, key, bound - 1)
  }

  /** What the parser promises: a key is set exactly when some key position
      names it, and it holds the argument after the last such position. */
  ghost predicate Parsed(args: seq<string>, config: Config)
  {
    ParsedBelow(args, config, |args|)
  }

  /** `config` is what the parser holds after reading the arguments below
      `bound`. */
  ghost predicate ParsedBelow(args: seq<string>, config: Config, bound: nat)
  {
    forall key ::
      && (key in config <==> LastKeyPos(args, key, bound) >= 0)
      && (key in config ==> config[key] == ArgAt(args, LastKeyPos(args, key, bound) + 1))
  }

  /** Reading past a position that is not a key position changes
      nothing. */
  lemma {:induction false} SkipStep(args: seq<string>, config: Config, bound: nat)
    requires ParsedBelow(args, config, bound) && !IsKeyPos(args, bound)
    ensures ParsedBelow(args, config, bound + 1)
  {
    assert forall key :: LastKeyPos(args, key, bound + 1) == LastKeyPos(args, key, bound);
  }

  /** The key read at a key position now ends at that position. */
  lemma {:induction false} LastKeyPosAt(args: seq<string>, bound: nat, k: string)
    requires IsKeyPos(args, bound)
    ensures LastKeyPos(args, k, bound + 1) == if k == KeyOf(args[bound]) then bound else LastKeyPos(args, k, bound)
  {
  }

  /** Reading a key position sets its key to the argument after it. */
  lemma {:induction false} TakeStep(args: seq<string>, config: Config, bound: nat)
    requires ParsedBelow(args, config, bound) && IsKeyPos(args, bound)
    ensures ParsedBelow(args, config[KeyOf(args[bound]) := ArgAt(args, bound + 1)], bound + 1)
  {
    var after := config[KeyOf(args[bound]) := ArgAt(args, bound + 1)];
    forall k
      ensures k in after <==> LastKeyPos(args, k, bound + 1) >= 0
      ensures k in after ==> after[k] == ArgAt(args, LastKeyPos(args, k, bound + 1) + 1)
    {
      LastKeyPosAt(args, bound, k);
    }
  }

  /** The loop reaches position `i`: it is not the value of a key, and
      stepping past the end happens only after a final key. */
  ghost predicate Reached(args: seq<string>, i: nat)
  {
    && i <= |args| + 1
    && (i <= |args| ==> !(i >= 1 && IsKeyPos(args, i - 1)))
    && (i == |args| + 1 ==> IsKeyPos(args, |args| - 1))
  }

  /** One turn of the loop at position `i`: a flag sets its key to the
      next argument and skips it, anything else is passed over. The result
      is the configuration and the next position. */
  function ReadAt(args: seq<string>, config: Config, i: nat): (Config, nat)
    requires i < |args|
  {
    if IsFlag(args[i]) then (config[KeyOf(args[i]) := ArgAt(args, i + 1)], i + 2)
    else (config, i + 1)
  }

  /** One turn of the loop keeps the configuration in step with the key
      positions read so far. */
  lemma {:induction false} ReadAtStep(args: seq<string>, config: Config, i: nat)
    requires i < |args| && Reached(args, i) && ParsedBelow(args, config, i)
    ensures var (after, next) := ReadAt(args, config, i);
            && i < next && Reached(args, next) && ParsedBelow(args, after, next)
  {
    assert IsKeyPos(args, i) == IsFlag(args[i]);
    if IsFlag(args[i]) {
      ReadFlag(args, config, i, config[KeyOf(args[i]) := ArgAt(args, i + 1)]);
    } else {
      SkipStep(args, config, i);
    }
  }

  /** A flag the loop reaches is a key position: its key is set and the
      argument after it is skipped. */
  lemma {:induction false} ReadFlag(args: seq<string>, config: Config, i: nat, after: Config)
    requires i < |args| && IsKeyPos(args, i) && ParsedBelow(args, config, i)
    requires after == config[KeyOf(args[i]) := ArgAt(args, i + 1)]
    ensures Reached(args, i + 2) && ParsedBelow(args, after, i + 2)
  {
    TakeStep(args, config, i);
    assert !IsKeyPos(args, i + 1);
    SkipStep(args, after, i + 1);
  }

  /** Nothing is read at the end of the arguments. */
  lemma {:induction false} SkipStepBack(args: seq<string>, config: Config)
    requires ParsedBelow(args, config, |args| + 1)
    ensures ParsedBelow(args, config, |args|)
  {
    assert forall key :: LastKeyPos(args, key, |args| + 1) == LastKeyPos(args, key, |args|);
  }

  /** A key is set exactly when some key position names it. */
  lemma {:induction false} ParsedMembership(args: seq<string>, config: Config)
    requires Parsed(args, config)
    ensures forall key :: key in config <==> exists p :: SetsKey(args, p, key)
  {
    forall key | key in config ensures exists p :: SetsKey(args, p, key) {
      assert SetsKey(args, LastKeyPos(args, key, |args|), key);
    }
  }

  /** The arguments decide the configuration: two configurations that
      both agree with them are the same map. */
  lemma ParsedUnique(args: seq<string>, c1: Config, c2: Config)
    requires Parsed(args, c1) && Parsed(args, c2)
    ensures c1 == c2
  {
    assert c1.Keys == c2.Keys;
  }

  /** `parseArgs` over `process.argv.slice(2)`. */
  method ParseArgs(args: seq<string>) returns (config: Config)
    ensures Parsed(args, config)
    ensures forall key :: key in config <==> exists p :: SetsKey(args, p, key)
  {
    config := map[];
    var i := 0;
    while i < |args|
      invariant Reached(args, i)
      invariant ParsedBelow(args, config, i)
      decreases |args| - i
    {
      ReadAtStep(args, config, i);
      var next := ReadAt(args, config, i);
      config, i := next.0, next.1;
    }
    if i == |args| + 1 {
      SkipStepBack(args, config);
    }
    ParsedMembership(args, config);
  }
}

=== FILE: common.dfy ===
/** Small shared vocabulary: optional values, error results, integer
    helpers and JavaScript's slice index arithmetic. */
module Common {

  /** A JavaScript value that may be absent (`undefined`/`null`), or a
      number that may be `NaN` (then `None`). */
  datatype Option<+T> = None | Some(value: T)

  /** The outcome of an operation that throws or answers with an error. */
  datatype Result<+T> = Ok(value: T) | Err(message: string)

  /** A query field with its destructuring default: an absent field takes
      `default`, which `parseInt` and `parseFloat` then read as text. */
  function FieldOr(field: Option<string>, default: string): (r: string)
    ensures field.None? ==> r == default
    ensures field.Some? ==> r == field.value
  {
    match field
    case None => default
    case Some(s) => s
  }

  /** A string that JavaScript treats as false: absent, or empty. */
  predicate IsFalsy(value: Option<string>)
  {
    value.None? || value.value == []
  }

  /** `value || fallback` on a string that may be absent. */
  function OrElse(value: Option<string>, fallback: string): (r: string)
    ensures IsFalsy(value) ==> r == fallback
    ensures !IsFalsy(value) ==> r == value.value
  {
    if IsFalsy(value) then fallback else value.value
  }

  function Max(a: int, b: int): int { if a < b then b else a }

  function Min(a: int, b: int): int { if a < b then a else b }

  function MaxReal(a: real, b: real): real { if a < b then b else a }

  function MinReal(a: real, b: real): real { if a < b then a else b }

  /** How `Array.prototype.slice` resolves one of its arguments against a
      length: negative positions count back from the end, and every
      position is clamped into `[0, len]`. */
  function RelativeIndex(i: int, len: nat): (r: nat)
    ensures r <= len
    ensures 0 <= i ==> r == Min(i, len)
    ensures i < 0 ==> r == Max(len + i, 0)
  {
    if i < 0 then Max(len + i, 0) else Min(i, len)
  }

  /** `s.slice(start, end)` with JavaScript's semantics for every integer
      argument, negative ones included. */
  function JsSlice<T>(s: seq<T>, start: int, end: int): (r: seq<T>)
    ensures |r| <= |s|
  {
    var from := RelativeIndex(start, |s|);
    var to := RelativeIndex(end, |s|);
    if from < to then s[from..to] else []
  }

  /** For a non-negative start and length, `slice(start, start + len)` is
      the ordinary window of at most `len` elements. */
  lemma JsSliceWindow<T>(s: seq<T>, start: int, len: int)
    requires 0 <= start && 0 <= len
    ensures |JsSlice(s, start, start + len)| <= len
    ensures |JsSlice(s, start, start + len)| == Max(0, Min(len, |s| - start))
    ensures start <= |s| ==>
              JsSlice(s, start, start + len) == s[start..Min(start + len, |s|)]
  {
  }
  /** The first position of page `page` of size `limit`: `(page - 1) *
      limit`. */
  function StartIndex(page: int, limit: int): int
  {
    (page - 1) * limit
  }

  /** The page `page` of size `limit`: `slice(startIndex, startIndex +
      limit)`. */
  function PageOf<T>(xs: seq<T>, page: int, limit: int): seq<T>
  {
    var start := StartIndex(page, limit);
    JsSlice(xs, start, start + limit)
  }

  /** With a page of at least 1 and a non-negative limit, a page holds the
      elements from position `(page - 1) * limit` on, at most `limit` of
      them. */
  lemma PageOfWindow<T>(xs: seq<T>, page: int, limit: int)
    requires page >= 1 && limit >= 0
    ensures var start := StartIndex(page, limit);
            && 0 <= start
            && |PageOf(xs, page, limit)| == Max(0, Min(limit, |xs| - start))
            && forall i :: 0 <= i < |PageOf(xs, page, limit)| ==> PageOf(xs, page, limit)[i] == xs[start + i]
  {
    var start := StartIndex(page, limit);
    assert 0 <= start by {
      assert page - 1 >= 0;
    }
    JsSliceWindow(xs, start, limit);
  }

  /** The first page is the prefix of at most `limit` elements. */
  lemma FirstPage<T>(xs: seq<T>, limit: int)
    requires limit >= 0
    ensures PageOf(xs, 1, limit) == xs[..Min(limit, |xs|)]
  {
    assert StartIndex(1, limit) == 0;
    JsSliceWindow(xs, 0, limit);
  }
}

=== FILE: create_json.dfy ===
/** The catalog conversion script for the areas file: the slug of a name,
    the file name at the end of a URL, and the local paths each area and
    specialty gets. Transliteration to ASCII (`unidecode`) is left out:
    the names are taken to be ASCII text, which it leaves unchanged (the
    script lower-cases before transliterating, so on other text the two
    orders differ). Reading and writing the JSON files is left out. */
module CreateJson {
  import opened Common
  import opened Strings
  import opened Seqs

  /** The characters such a slug is made of: `[a-z0-9-]`. */
  predicate IsCatalogSlugChar(c: char) { IsLowerAlnum(c) || c == '-' }

  /** Slug characters only, no hyphen at either end, no hyphen after
      another. */
  predicate IsCatalogSlug(s: string)
  {
    && (forall i :: 0 <= i < |s| ==> IsCatalogSlugChar(s[i]))
    && (s != [] ==> s[0] != '-' && s[|s| - 1] != '-')
    && (forall i :: 0 <= i < |s| - 1 && s[i] == '-' ==> s[i + 1] != '-')
  }

  /** `slugify`: lower-case, every run of characters outside `[a-z0-9]`
      to one hyphen, hyphens stripped from both ends. */
  function Slugify(text: string): string
  {
    TrimBy(ReplaceRuns(Lower(text), NotLowerAlnum, '-'), IsHyphen)
  }

  /** Slug characters with no hyphen after another; hyphens may still
      open or close the text. */
  predicate IsHyphenated(h: string)
  {
    && (forall i :: 0 <= i < |h| ==> IsCatalogSlugChar(h[i]))
    && (forall i :: 0 <= i < |h| - 1 && h[i] == '-' ==> h[i + 1] != '-')
  }

  /** The run replacement leaves `[a-z0-9-]` with no two hyphens
      together. */
  lemma HyphenatedShape(l: string)
    ensures IsHyphenated(ReplaceRuns(l, NotLowerAlnum, '-'))
  {
    var h := ReplaceRuns(l, NotLowerAlnum, '-');
    ReplaceRunsChars(l, NotLowerAlnum, '-');
    ReplaceRunsSeparated(l, NotLowerAlnum, '-');
    forall i | 0 <= i < |h| ensures IsCatalogSlugChar(h[i]) {
      assert h[i] in h;
    }
  }

  /** Every slug has the slug shape. */
  lemma SlugifyShape(text: string)
    ensures IsCatalogSlug(Slugify(text))
  {
    var h := ReplaceRuns(Lower(text), NotLowerAlnum, '-');
    HyphenatedShape(Lower(text));
    TrimmedShape(h);
  }

  /** Stripping the hyphens from both ends of a hyphenated text gives the
      slug shape. */
  lemma TrimmedShape(h: string)
    requires IsHyphenated(h)
    ensures IsCatalogSlug(TrimBy(h, IsHyphen))
  {
    var a := TrimByShape(h, IsHyphen);
    var r := TrimBy(h, IsHyphen);
    forall i | 0 <= i < |r| ensures IsCatalogSlugChar(r[i]) {
      assert r[i] == h[a + i];
    }
    forall i | 0 <= i < |r| - 1 && r[i] == '-' ensures r[i + 1] != '-' {
      assert r[i] == h[a + i] && r[i + 1] == h[a + i + 1];
    }
  }

  /** A text of the slug shape is its own slug. */
  lemma SlugifyFixed(s: string)
    requires IsCatalogSlug(s)
    ensures Slugify(s) == s
  {
    LowerFixed(s);
    ReplaceRunsFixed(s, NotLowerAlnum, '-');
    TrimByFixed(s, IsHyphen);
  }

  lemma SlugifyIdempotent(text: string)
    ensures Slugify(Slugify(text)) == Slugify(text)
  {
    SlugifyShape(text);
    SlugifyFixed(Slugify(text));
  }

  /** Words separated by single spaces become the same words separated by
      hyphens, with the capital letters lowered: "Agricultura de
      subsistencia" gives "agricultura-de-subsistencia". */
  lemma SlugifyWords(first: char, x: string, y: string, z: string)
    requires IsUpperLetter(first)
    requires forall i :: 0 <= i < |x| ==> IsLowerAlnum(x[i])
    requires y != [] && forall i :: 0 <= i < |y| ==> IsLowerAlnum(y[i])
    requires z != [] && forall i :: 0 <= i < |z| ==> IsLowerAlnum(z[i])
    ensures Slugify([first] + x + " " + y + " " + z) == [LowerChar(first)] + x + "-" + y + "-" + z
  {
    var text := [first] + x + " " + y + " " + z;
    var lowered := [LowerChar(first)] + x + " " + y + " " + z;
    var target := [LowerChar(first)] + x + "-" + y + "-" + z;
    assert Lower(text) == lowered;
    assert ReplaceRuns(lowered, NotLowerAlnum, '-') == target by {
      ReplaceSpaces(lowered, target);
    }
    assert TrimBy(target, IsHyphen) == target by {
      assert IsCatalogSlug(target);
      TrimByFixed(target, IsHyphen);
    }
  }

  /** Replacing each lone space between letters and digits by a hyphen is
      what the run replacement does. */
  lemma ReplaceSpaces(lowered: string, target: string)
    requires |lowered| == |target|
    requires forall i :: 0 <= i < |lowered| ==> IsLowerAlnum(lowered[i]) || lowered[i] == ' '
    requires forall i :: 0 <= i < |lowered| - 1 && lowered[i] == ' ' ==> lowered[i + 1] != ' '
    requires forall i :: 0 <= i < |lowered| ==> target[i] == (if lowered[i] == ' ' then '-' else lowered[i])
    ensures ReplaceRuns(lowered, NotLowerAlnum, '-') == target
    decreases |lowered|
  {
    if lowered != [] {
      ReplaceSpaces(lowered[1..], target[1..]);
      assert lowered == [lowered[0]] + lowered[1..];
      if lowered[0] == ' ' {
        ReplaceRunsSingle(' ', lowered[1..], NotLowerAlnum, '-');
      } else {
        ReplaceRunsCopy(lowered[0], lowered[1..], NotLowerAlnum, '-');
      }
    }
  }

  /** `last` has no '/' and is either the whole text (when the text has
      no '/') or the end of the text right after a '/'. */
  predicate IsLastPiece(url: string, last: string)
  {
    && '/' !in last
    && EndsWith(url, last)
    && ('/' !in url ==> last == url)
    && ('/' in url ==> |last| < |url| && url[|url| - |last| - 1] == '/')
  }

  /** `obtener_nombre_archivo`: the text after the last '/' (the whole
      text when there is none). */
  function FileName(url: string): (r: string)
    ensures IsLastPiece(url, r)
    decreases |url|
  {
    if url == [] || url[|url| - 1] == '/' then []
    else
      var init := url[..|url| - 1];
      var r := FileName(init);
      FileNameStep(url, r);
      r + [url[|url| - 1]]
  }

  /** One more character that is not '/' extends the last piece. */
  lemma FileNameStep(url: string, r: string)
    requires url != [] && url[|url| - 1] != '/'
    requires IsLastPiece(url[..|url| - 1], r)
    ensures IsLastPiece(url, r + [url[|url| - 1]])
  {
    var init := url[..|url| - 1];
    assert init[|init| - |r|..] == url[|url| - 1 - |r|..|url| - 1];
    assert url == init + [url[|url| - 1]];
    assert '/' in url ==> '/' in init by {
      if '/' in url {
        var j :| 0 <= j < |url| && url[j] == '/';
        assert init[j] == '/';
      }
    }
  }

  /** A text has one last piece. */
  lemma LastPieceUnique(url: string, a: string, b: string)
    requires IsLastPiece(url, a) && IsLastPiece(url, b)
    ensures a == b
  {
  }

  /** A name without '/' after a '/' is the file name, whatever comes
      before. */
  lemma FileNameAfterSlash(dir: string, name: string)
    requires '/' !in name
    ensures FileName(dir + "/" + name) == name
  {
    var path := dir + "/" + name;
    assert path[|path| - |name|..] == name;
    assert path[|path| - |name| - 1] == '/';
    LastPieceUnique(path, FileName(path), name);
  }

  /** The position of the first separator in a text that has one. */
  lemma {:induction false} FirstSep(s: string, sep: char) returns (k: nat)
    requires sep in s
    ensures k < |s| && s[k] == sep
    ensures forall i :: 0 <= i < k ==> s[i] != sep
    decreases |s|
  {
    if s[0] == sep {
      k := 0;
    } else {
      assert sep in s[1..] by {
        var j :| 0 <= j < |s| && s[j] == sep;
        assert s[1..][j - 1] == sep;
      }
      var k' := FirstSep(s[1..], sep);
      k := k' + 1;
    }
  }

  /** The last piece of `split('/')` is such a piece. */
  lemma {:induction false} LastPieceShape(url: string)
    ensures var pieces := SplitOn(url, '/'); IsLastPiece(url, pieces[|pieces| - 1])
    decreases |url|
  {
    if '/' !in url {
      SplitOnNoSep(url, '/');
    } else {
      var k := FirstSep(url, '/');
      LastPieceShape(url[k + 1..]);
      LastPieceSplit(url, k);
    }
  }

  /** Splitting at the first '/' keeps the last piece of what follows
      it. */
  lemma LastPieceSplit(url: string, k: nat)
    requires k < |url| && url[k] == '/'
    requires forall i :: 0 <= i < k ==> url[i] != '/'
    requires var pieces := SplitOn(url[k + 1..], '/'); IsLastPiece(url[k + 1..], pieces[|pieces| - 1])
    ensures var pieces := SplitOn(url, '/'); IsLastPiece(url, pieces[|pieces| - 1])
  {
    var tail := SplitOn(url[k + 1..], '/');
    var last := tail[|tail| - 1];
    SplitLast(url, k, last);
    LastPieceStep(url, k, last);
  }

  /** The last piece of the text after the first '/' is the last piece of
      `split('/')` of the whole text. */
  lemma SplitLast(url: string, k: nat, last: string)
    requires k < |url| && url[k] == '/'
    requires forall i :: 0 <= i < k ==> url[i] != '/'
    requires var pieces := SplitOn(url[k + 1..], '/'); last == pieces[|pieces| - 1]
    ensures var pieces := SplitOn(url, '/'); pieces[|pieces| - 1] == last
  {
    var whole := SplitOn(url, '/');
    var tail := SplitOn(url[k + 1..], '/');
    assert whole == [url[..k]] + tail by {
      SplitOnAt(url, k, '/');
    }
    LastOfCons(url[..k], tail, whole);
  }

  /** The last piece of the text after the first '/' is the last piece of
      the whole text. */
  lemma LastPieceStep(url: string, k: nat, last: string)
    requires k < |url| && url[k] == '/'
    requires IsLastPiece(url[k + 1..], last)
    ensures IsLastPiece(url, last)
  {
    var rest := url[k + 1..];
    assert url[|url| - |last|..] == rest[|rest| - |last|..];
    assert '/' in url by { assert url[k] == '/'; }
    if '/' !in rest {
      assert url[|url| - |last| - 1] == url[k];
    } else {
      assert url[|url| - |last| - 1] == rest[|rest| - |last| - 1];
    }
  }

  /** The file name is the last piece of `split('/')`, as the script takes
      it. */
  lemma FileNameIsLastPiece(url: string)
    ensures var pieces := SplitOn(url, '/'); FileName(url) == pieces[|pieces| - 1]
  {
    LastPieceShape(url);
    var pieces := SplitOn(url, '/');
    LastPieceUnique(url, FileName(url), pieces[|pieces| - 1]);
  }

  // ---------------------------------------------------------------------
  // The conversion of the areas file.

  /** A specialty as the scraped file has it; `caption` may be missing,
      and the conversion deletes it. */
  datatype ScrapedSpecialty = ScrapedSpecialty(name: string, url: string, img: string, caption: Option<string>)

  /** An area as the scraped file has it; `subespecialidades` may be
      missing. */
  datatype ScrapedArea = ScrapedArea(name: string, img: string, subespecialidades: Option<seq<ScrapedSpecialty>>)

  /** A converted specialty: its slug, its local PDF path (only for a
      ".pdf" file) and its local image path. */
  datatype LocalSpecialty = LocalSpecialty(name: string, slug: string, pdf: Option<string>, img: string)

  /** A converted area: its local image path, its slug and its items. */
  datatype LocalArea = LocalArea(name: string, img: string, slug: string, items: seq<LocalSpecialty>)

  function ConvertSpecialty(mainSlug: string, sub: ScrapedSpecialty): (r: LocalSpecialty)
    ensures r.slug == Slugify(sub.name)
    ensures r.pdf.Some? <==> EndsWith(FileName(sub.url), ".pdf")
    ensures r.pdf.Some? ==> r.pdf.value == "/" + mainSlug + "/" + r.slug + "/" + FileName(sub.url)
    ensures r.img == "/" + mainSlug + "/" + r.slug + "/" + FileName(sub.img)
  {
    var subSlug := Slugify(sub.name);
    var pdfName := FileName(sub.url);
    var pdf := if EndsWith(pdfName, ".pdf") then Some("/" + mainSlug + "/" + subSlug + "/" + pdfName) else None;
    LocalSpecialty(sub.name, subSlug, pdf, "/" + mainSlug + "/" + subSlug + "/" + FileName(sub.img))
  }

  function ConvertSpecialties(mainSlug: string, subs: seq<ScrapedSpecialty>): (r: seq<LocalSpecialty>)
    ensures |r| == |subs|
    ensures forall i :: 0 <= i < |subs| ==> r[i] == ConvertSpecialty(mainSlug, subs[i])
  {
    seq(|subs|, i requires 0 <= i < |subs| => ConvertSpecialty(mainSlug, subs[i]))
  }

  const MissingSubspecialties: string := "KeyError: 'subespecialidades'"
  const MissingCaption: string := "KeyError: 'caption'"

  /** Every specialty still carries the `caption` that `del sub['caption']`
      removes. */
  predicate AllCaptioned(subs: seq<ScrapedSpecialty>)
  {
    forall j :: 0 <= j < |subs| ==> subs[j].caption.Some?
  }

  /** One area of `main`: the slug of its name, its image moved under that
      slug, its specialties converted in order. A specialty without
      `caption` makes `del` raise inside the loop; an area without
      `subespecialidades` skips the loop and makes `item.pop` raise. */
  function ConvertArea(area: ScrapedArea): (r: Result<LocalArea>)
    ensures r.Err? <==> area.subespecialidades.None? || !AllCaptioned(area.subespecialidades.value)
    ensures area.subespecialidades.None? ==> r == Err(MissingSubspecialties)
    ensures area.subespecialidades.Some? && !AllCaptioned(area.subespecialidades.value) ==> r == Err(MissingCaption)
    ensures r.Ok? ==> r.value.slug == Slugify(area.name)
    ensures r.Ok? ==> r.value.img == "/" + r.value.slug + "/" + FileName(area.img)
    ensures r.Ok? ==> r.value.items == ConvertSpecialties(r.value.slug, area.subespecialidades.value)
  {
    var mainSlug := Slugify(area.name);
    match area.subespecialidades
    case None => Err(MissingSubspecialties)
    case Some(subs) =>
      if !AllCaptioned(subs) then Err(MissingCaption)
      else Ok(LocalArea(area.name, "/" + mainSlug + "/" + FileName(area.img), mainSlug, ConvertSpecialties(mainSlug, subs)))
  }

  /** `main`: every area converted, in order; the first area that raises
      stops the script before anything is written, with its error. */
  function ConvertAll(areas: seq<ScrapedArea>): (r: Result<seq<LocalArea>>)
    ensures r.Ok? <==> forall i :: 0 <= i < |areas| ==>
                          areas[i].subespecialidades.Some? && AllCaptioned(areas[i].subespecialidades.value)
    ensures r.Ok? ==> |r.value| == |areas| && forall i :: 0 <= i < |areas| ==> ConvertArea(areas[i]) == Ok(r.value[i])
    ensures r.Err? ==> exists k :: 0 <= k < |areas| && ConvertArea(areas[k]) == Err(r.message)
                                   && forall j :: 0 <= j < k ==> ConvertArea(areas[j]).Ok?
    ensures r.Err? ==> r.message == MissingSubspecialties || r.message == MissingCaption
  {
    CollectOk(areas, ConvertArea)
  }

  /** A specialty's local image path, and its PDF path when it has one,
      keep the original file name below the folder of the area slug. */
  lemma SpecialtyPathsKeepFileNames(mainSlug: string, sub: ScrapedSpecialty)
    ensures var local := ConvertSpecialty(mainSlug, sub);
            && FileName(local.img) == FileName(sub.img)
            && StartsWith(local.img, "/" + mainSlug + "/")
            && (local.pdf.Some? ==> FileName(local.pdf.value) == FileName(sub.url))
  {
    var slug := Slugify(sub.name);
    LocalPath(mainSlug, slug, FileName(sub.img));
    LocalPath(mainSlug, slug, FileName(sub.url));
  }

  /** A name without '/' placed under `/<area>/<specialty>/` is the file
      name of the path, and the path starts with the area's folder. */
  lemma LocalPath(mainSlug: string, slug: string, name: string)
    requires '/' !in name
    ensures FileName("/" + mainSlug + "/" + slug + "/" + name) == name
    ensures StartsWith("/" + mainSlug + "/" + slug + "/" + name, "/" + mainSlug + "/")
  {
    var dir := "/" + mainSlug + "/" + slug;
    var prefix := "/" + mainSlug + "/";
    assert FileName(dir + "/" + name) == name by {
      FileNameAfterSlash(dir, name);
    }
    assert StartsWith(dir + "/" + name, prefix) by {
      assert (dir + "/" + name)[..|prefix|] == prefix;
    }
  }

  /** An area's local image path keeps the original file name, and so do
      its specialties' paths. */
  lemma LocalPathsKeepFileNames(area: ScrapedArea, i: nat)
    requires ConvertArea(area).Ok? && i < |area.subespecialidades.value|
    ensures var local := ConvertArea(area).value;
            var sub := area.subespecialidades.value[i];
            && FileName(local.img) == FileName(area.img)
            && FileName(local.items[i].img) == FileName(sub.img)
            && StartsWith(local.items[i].img, "/" + local.slug + "/")
  {
    var local := ConvertArea(area).value;
    FileNameAfterSlash("/" + local.slug, FileName(area.img));
    SpecialtyPathsKeepFileNames(local.slug, area.subespecialidades.value[i]);
  }
}

=== FILE: download_slug.dfy ===
/** The folder-name slug of the earlier download script: accents folded to
    ASCII, lower-cased, everything but word characters, white space and
    hyphens dropped, runs of hyphens and white space turned into one hyphen,
    hyphens and underscores stripped from both ends. The Unicode (NFKD)
    decomposition before the ASCII filter is left out: the input is the
    text as it leaves that step, so "É" arrives here already split into
    "E" and a combining accent. */
module DownloadSlug {
  import opened Strings
  import opened Seqs

  /** The characters `encode('ascii', 'ignore')` keeps. */
  predicate IsAscii(c: char) { (c as int) < 128 }

  /** What Python's `\s` matches among ASCII characters: space, tab, line
      feed, vertical tab, form feed, carriage return and the four
      separator controls 0x1C to 0x1F. */
  predicate IsPySpace(c: char)
  {
    var n := c as int;
    n == 0x20 || (0x09 <= n <= 0x0D) || (0x1C <= n <= 0x1F)
  }

  /** `[\w\s-]` among ASCII characters. */
  predicate IsWordSpaceOrHyphen(c: char)
  {
    IsAsciiAlnum(c) || c == '_' || IsPySpace(c) || c == '-'
  }

  /** `[-\s]`. */
  predicate IsHyphenOrSpace(c: char) { c == '-' || IsPySpace(c) }

  /** The characters `strip('-_')` removes. */
  predicate IsHyphenOrUnderscore(c: char) { c == '-' || c == '_' }

  /** `[a-z0-9_-]`. */
  predicate IsFolderChar(c: char) { IsLowerAlnum(c) || c == '_' || c == '-' }

  /** Folder characters with no hyphen after another. */
  predicate IsHyphenated(h: string)
  {
    && (forall i :: 0 <= i < |h| ==> IsFolderChar(h[i]))
    && (forall i :: 0 <= i < |h| - 1 && h[i] == '-' ==> h[i + 1] != '-')
  }

  /** A folder slug: hyphenated, and neither end a hyphen or an
      underscore. */
  predicate IsFolderSlug(s: string)
  {
    && IsHyphenated(s)
    && (s != [] ==> !IsHyphenOrUnderscore(s[0]) && !IsHyphenOrUnderscore(s[|s| - 1]))
  }

  /** `slugify`. */
  function Slugify(value: string): string
  {
    var kept := Filter(Lower(Filter(value, IsAscii)), IsWordSpaceOrHyphen);
    TrimBy(ReplaceRuns(kept, IsHyphenOrSpace, '-'), IsHyphenOrUnderscore)
  }

  /** A lowered text has no capital letter. */
  lemma LowerHasNoCapital(s: string)
    ensures forall c :: c in Lower(s) ==> !IsUpperLetter(c)
  {
    var l := Lower(s);
    forall c | c in l ensures !IsUpperLetter(c) {
      var i :| 0 <= i < |l| && l[i] == c;
      assert c == LowerChar(s[i]);
    }
  }

  /** Filtering the lowered text leaves letters, digits, '_', white space
      and '-', none of them a capital. */
  lemma KeptChars(value: string)
    ensures var kept := Filter(Lower(Filter(value, IsAscii)), IsWordSpaceOrHyphen);
            forall c :: c in kept ==> IsFolderChar(c) || IsPySpace(c)
  {
    var l := Lower(Filter(value, IsAscii));
    LowerHasNoCapital(Filter(value, IsAscii));
    FilterMembership(l, IsWordSpaceOrHyphen);
  }

  /** The run replacement leaves folder characters only, with no hyphen
      after another. */
  lemma HyphenatedShape(kept: string)
    requires forall c :: c in kept ==> IsFolderChar(c) || IsPySpace(c)
    ensures IsHyphenated(ReplaceRuns(kept, IsHyphenOrSpace, '-'))
  {
    var h := ReplaceRuns(kept, IsHyphenOrSpace, '-');
    ReplaceRunsChars(kept, IsHyphenOrSpace, '-');
    ReplaceRunsSeparated(kept, IsHyphenOrSpace, '-');
    forall i | 0 <= i < |h| ensures IsFolderChar(h[i]) {
      assert h[i] in h;
    }
  }

  /** Stripping '-' and '_' from both ends of a hyphenated text gives a
      folder slug. */
  lemma TrimmedShape(h: string)
    requires IsHyphenated(h)
    ensures IsFolderSlug(TrimBy(h, IsHyphenOrUnderscore))
  {
    var a := TrimByShape(h, IsHyphenOrUnderscore);
    var r := TrimBy(h, IsHyphenOrUnderscore);
    forall i | 0 <= i < |r| ensures IsFolderChar(r[i]) {
      assert r[i] == h[a + i];
    }
    forall i | 0 <= i < |r| - 1 && r[i] == '-' ensures r[i + 1] != '-' {
      assert r[i] == h[a + i] && r[i + 1] == h[a + i + 1];
    }
  }

  /** Every slug is a folder slug: only `[a-z0-9_-]`, so no white space, no
      two hyphens together, and no '-' or '_' at either end. */
  lemma SlugifyShape(value: string)
    ensures IsFolderSlug(Slugify(value))
    ensures forall c :: c in Slugify(value) ==> !IsPySpace(c)
  {
    var kept := Filter(Lower(Filter(value, IsAscii)), IsWordSpaceOrHyphen);
    KeptChars(value);
    HyphenatedShape(kept);
    TrimmedShape(ReplaceRuns(kept, IsHyphenOrSpace, '-'));
  }

  /** A folder slug is its own slug. */
  lemma SlugifyFixed(s: string)
    requires IsFolderSlug(s)
    ensures Slugify(s) == s
  {
    FilterAll(s, IsAscii);
    LowerFixed(s);
    FilterAll(s, IsWordSpaceOrHyphen);
    ReplaceRunsFixed(s, IsHyphenOrSpace, '-');
    TrimByFixed(s, IsHyphenOrUnderscore);
  }

  lemma SlugifyIdempotent(value: string)
    ensures Slugify(Slugify(value)) == Slugify(value)
  {
    SlugifyShape(value);
    SlugifyFixed(Slugify(value));
  }

  /** A character that is still outside ASCII after the decomposition
      vanishes, a capital is lowered, a tab between two words becomes a
      hyphen and a dot is dropped: "€A\tb." gives "a-b". */
  lemma SlugifyExample(accent: char, upper: char, x: char)
    requires !IsAscii(accent) && IsUpperLetter(upper) && IsLowerAlnum(x)
    ensures Slugify([accent, upper, '\t', x, '.']) == [LowerChar(upper), '-', x]
  {
    var low := LowerChar(upper);
    AsciiStep(accent, upper, x);
    assert Lower([upper, '\t', x, '.']) == [low, '\t', x, '.'];
    KeepStep(low, x);
    ReplaceStep(low, x);
    TrimByFixed([low, '-', x], IsHyphenOrUnderscore);
  }

  lemma AsciiStep(accent: char, upper: char, x: char)
    requires !IsAscii(accent) && IsUpperLetter(upper) && IsLowerAlnum(x)
    ensures Filter([accent, upper, '\t', x, '.'], IsAscii) == [upper, '\t', x, '.']
  {
    var rest := [upper, '\t', x, '.'];
    assert [accent, upper, '\t', x, '.'][1..] == rest;
    FilterAll(rest, IsAscii);
  }

  lemma KeepStep(low: char, x: char)
    requires IsLowerAlnum(low) && IsLowerAlnum(x)
    ensures Filter([low, '\t', x, '.'], IsWordSpaceOrHyphen) == [low, '\t', x]
  {
    var s := [low, '\t', x, '.'];
    assert s == [low, '\t', x] + ['.'];
    FilterAppend([low, '\t', x], ['.'], IsWordSpaceOrHyphen);
    FilterAll([low, '\t', x], IsWordSpaceOrHyphen);
    assert ['.'][1..] == [];
  }

  lemma ReplaceStep(low: char, x: char)
    requires IsLowerAlnum(low) && IsLowerAlnum(x)
    ensures ReplaceRuns([low, '\t', x], IsHyphenOrSpace, '-') == [low, '-', x]
  {
    assert IsHyphenOrSpace('\t');
    ReplaceRunsMiddle(low, '\t', x, IsHyphenOrSpace, '-');
  }
}

=== FILE: extract_logo.dfy ===
/** The crop rectangle of the logo extractor: a fraction of the rendered
    first page, read from `--crop x,y,w,h` and held into the unit square.
    Rendering the PDF and cutting the canvas are left out; the argument
    parser is the one the thumbnail scripts share. */
module ExtractLogo {
  import opened Common
  import opened Strings
  import opened Seqs
  import opened JsNumbers
  import opened RemoveBg

  /** A crop as fractions of the page's width and height. */
  datatype Crop = Crop(x: real, y: real, width: real, height: real)

  /** `defaultCrop`: the top-left corner of the page, where the logo sits. */
  const DefaultCrop: Crop := Crop(0.055, 0.12, 0.2, 0.2)

  /** Each field of the crop lies in `[0, 1]`. */
  predicate InUnit(c: Crop)
  {
    && 0.0 <= c.x <= 1.0 && 0.0 <= c.y <= 1.0
    && 0.0 <= c.width <= 1.0 && 0.0 <= c.height <= 1.0
  }

  /** `Math.max(0, Math.min(1, v))`. */
  function Clamp01(v: real): (r: real)
    ensures 0.0 <= r <= 1.0
    ensures 0.0 <= v <= 1.0 ==> r == v
    ensures v < 0.0 ==> r == 0.0
    ensures v > 1.0 ==> r == 1.0
  {
    MaxReal(0.0, MinReal(1.0, v))
  }

  /** `clampCrop`: every field held into `[0, 1]`, each on its own. */
  function ClampCrop(c: Crop): (r: Crop)
    ensures InUnit(r)
    ensures InUnit(c) ==> r == c
  {
    Crop(Clamp01(c.x), Clamp01(c.y), Clamp01(c.width), Clamp01(c.height))
  }

  /** Clamping a clamped crop changes nothing, and a field moves only when
      it lay outside the unit interval. */
  lemma ClampCropIdempotent(c: Crop)
    ensures ClampCrop(ClampCrop(c)) == ClampCrop(c)
    ensures ClampCrop(c).x != c.x ==> c.x < 0.0 || c.x > 1.0
    ensures ClampCrop(c).height != c.height ==> c.height < 0.0 || c.height > 1.0
  {
  }

  /** `value.split(',').map(item => Number.parseFloat(item.trim()))`. */
  function CropParts(value: string): (parts: seq<Option<real>>)
    ensures |parts| == |SplitOn(value, ',')|
  {
    Map(SplitOn(value, ','), RealPart)
  }

  /** Exactly four parts, none of them `NaN`. */
  predicate FourNumbers(parts: seq<Option<real>>)
  {
    |parts| == 4 && parts[0].Some? && parts[1].Some? && parts[2].Some? && parts[3].Some?
  }

  /** `parseCrop`: the default crop for a falsy value, and for one whose
      comma-separated parts are not four numbers; otherwise the four parts,
      read as decimals in the order x, y, width, height, and clamped. */
  function ParseCrop(value: Option<string>): (r: Crop)
    ensures InUnit(r)
    ensures IsFalsy(value) || !FourNumbers(CropParts(value.value)) ==> r == DefaultCrop
    ensures !IsFalsy(value) && FourNumbers(CropParts(value.value)) ==>
              var parts := CropParts(value.value);
              r == ClampCrop(Crop(parts[0].value, parts[1].value, parts[2].value, parts[3].value))
  {
    if IsFalsy(value) || !FourNumbers(CropParts(value.value)) then DefaultCrop
    else
      var parts := CropParts(value.value);
      ClampCrop(Crop(parts[0].value, parts[1].value, parts[2].value, parts[3].value))
  }

  /** Four pieces without commas, joined by commas, split back into the
      four pieces. */
  lemma SplitFour(a: string, b: string, c: string, d: string)
    requires ',' !in a && ',' !in b && ',' !in c && ',' !in d
    ensures SplitOn(a + "," + b + "," + c + "," + d, ',') == [a, b, c, d]
  {
    var tail := b + "," + c + "," + d;
    assert a + "," + b + "," + c + "," + d == a + [','] + tail;
    SplitThree(b, c, d);
    SplitOnFirst(a, tail, ',');
  }

  /** Four printed integers joined by commas give that crop, clamped: the
      parts are taken in the order x, y, width, height. */
  lemma {:induction false} ParseCropShowInt(x: int, y: int, w: int, h: int)
    ensures ParseCrop(Some(ShowInt(x) + "," + ShowInt(y) + "," + ShowInt(w) + "," + ShowInt(h)))
         == ClampCrop(Crop(x as real, y as real, w as real, h as real))
  {
    RealPartShowInt(x);
    RealPartShowInt(y);
    RealPartShowInt(w);
    RealPartShowInt(h);
    SplitFour(ShowInt(x), ShowInt(y), ShowInt(w), ShowInt(h));
    var text := ShowInt(x) + "," + ShowInt(y) + "," + ShowInt(w) + "," + ShowInt(h);
    var pieces := SplitOn(text, ',');
    var parts := CropParts(text);
    assert pieces[0] == ShowInt(x) && pieces[1] == ShowInt(y) && pieces[2] == ShowInt(w) && pieces[3] == ShowInt(h);
    assert parts[0] == Some(x as real) && parts[1] == Some(y as real);
    assert parts[2] == Some(w as real) && parts[3] == Some(h as real);
    assert !IsFalsy(Some(text));
  }

  /** "0,0,1,1" selects the whole page. */
  lemma ParseCropWholePage()
    ensures ParseCrop(Some("0,0,1,1")) == Crop(0.0, 0.0, 1.0, 1.0)
  {
    assert ShowInt(0) == "0" && ShowInt(1) == "1";
    assert "0,0,1,1" == ShowInt(0) + "," + ShowInt(0) + "," + ShowInt(1) + "," + ShowInt(1);
    ParseCropShowInt(0, 0, 1, 1);
  }
}

=== FILE: integration_controller.dfy ===
/** The HTTP layer of the integration endpoints: defensive parsing of the
    suggestions query and the `cepId` guard in front of the upsert.
    Express itself and the JSON encoding are left out; a response is its
    status code and body. */
module IntegrationController {
  import opened Common
  import opened Strings
  import opened JsNumbers
  import opened Ledger
  import opened Suggestions

  /** The query string fields; `None` when a field is absent. */
  datatype RawQuery = RawQuery(
    search: Option<string>,
    minScore: Option<string>,
    page: Option<string>,
    limit: Option<string>)

  const DefaultPage: int := 1
  const DefaultLimit: int := 20
  const MaxLimit: int := 100
  const DefaultMinScore: real := 0.6

  /** `getPendingSuggestions`: a page that parses to NaN becomes 1, a
      limit that parses to NaN becomes 20 and any other limit is capped at
      100, a minimum score that parses to NaN becomes 0.6. */
  function ParseSuggestionQuery(raw: RawQuery): (q: SuggestionQuery)
    ensures q.limit <= MaxLimit
    ensures q.search == FieldOr(raw.search, "")
    ensures ParseInt(FieldOr(raw.page, "1")).None? ==> q.page == DefaultPage
    ensures ParseInt(FieldOr(raw.page, "1")).Some? ==> q.page == ParseInt(FieldOr(raw.page, "1")).value
    ensures ParseInt(FieldOr(raw.limit, "20")).None? ==> q.limit == DefaultLimit
    ensures ParseInt(FieldOr(raw.limit, "20")).Some? ==> q.limit == Min(ParseInt(FieldOr(raw.limit, "20")).value, MaxLimit)
    ensures ParseFloat(FieldOr(raw.minScore, "0.6")).None? ==> q.minScore == DefaultMinScore
    ensures ParseFloat(FieldOr(raw.minScore, "0.6")).Some? ==> q.minScore == ParseFloat(FieldOr(raw.minScore, "0.6")).value
  {
    var page := match ParseInt(FieldOr(raw.page, "1"))
      case None => DefaultPage
      case Some(n) => n;
    var limit := match ParseInt(FieldOr(raw.limit, "20"))
      case None => DefaultLimit
      case Some(n) => Min(n, MaxLimit);
    var minScore := match ParseFloat(FieldOr(raw.minScore, "0.6"))
      case None => DefaultMinScore
      case Some(v) => v;
    SuggestionQuery(FieldOr(raw.search, ""), minScore, page, limit)
  }

  /** An empty query asks for page 1 of 20 at minimum score 0.6. */
  lemma ParseEmptyQuery()
    ensures ParseSuggestionQuery(RawQuery(None, None, None, None)) == SuggestionQuery("", 0.6, 1, 20)
  {
    ParseIntShowInt(1, []);
    ParseIntShowInt(20, []);
    assert ShowInt(1) + [] == "1";
    assert ShowInt(20) + [] == "20";
    ParseFloatDefaultScore();
  }

  /** A printed integer page is passed through unchanged, and a printed
      integer limit arrives capped at 100. */
  lemma ParsePrintedNumbers(search: Option<string>, minScore: Option<string>, page: int, limit: int)
    ensures var q := ParseSuggestionQuery(RawQuery(search, minScore, Some(ShowInt(page)), Some(ShowInt(limit))));
            q.page == page && q.limit == Min(limit, MaxLimit)
  {
    ParseIntShowInt(page, []);
    ParseIntShowInt(limit, []);
    assert ShowInt(page) + [] == ShowInt(page);
    assert ShowInt(limit) + [] == ShowInt(limit);
  }

  /** The answers of `upsertLink`. */
  datatype UpsertResponse =
    | BadRequest(message: string)
    | Saved(link: Link)
    | ServerError(error: string)

  function StatusOf(r: UpsertResponse): int
  {
    match r
    case BadRequest(_) => 400
    case Saved(_) => 200
    case ServerError(_) => 500
  }

  /** `upsertLink` over the ledger file: a missing or empty `cepId` is
      answered with 400 before the file is read; every failure of the
      service (a ledger file that cannot be read, a `cepId` of white space
      only, a write that fails) is answered with 500 and its message;
      otherwise the upsert is applied and its payload returned. The first
      component is the ledger written back, `None` when nothing is
      written. */
  function UpsertLink(
    file: JsonFile<Option<StoredLedger>>, req: UpsertRequest, now: string, writeError: Option<string>): (r: (Option<LinkLedger>, UpsertResponse))
    ensures req.cepId == [] ==> r == (None, BadRequest(CepIdRequired))
    ensures r.0.Some? <==> StatusOf(r.1) == 200
    ensures StatusOf(r.1) == 200 <==>
              GetIntegrationLinks(file, now).Ok? && TrimBy(req.cepId, IsJsSpace) != [] && writeError.None?
    ensures req.cepId != [] && GetIntegrationLinks(file, now).Err? ==>
              r.1 == ServerError(GetIntegrationLinks(file, now).message)
    ensures req.cepId != [] && GetIntegrationLinks(file, now).Ok? && TrimBy(req.cepId, IsJsSpace) == [] ==>
              r.1 == ServerError(CepIdRequired)
    ensures GetIntegrationLinks(file, now).Ok? && TrimBy(req.cepId, IsJsSpace) != [] && writeError.Some? ==>
              r == (None, ServerError(writeError.value))
    ensures StatusOf(r.1) == 200 ==>
              var (after, payload) := UpsertIntegrationLink(file, req, now, writeError).value;
              r == (Some(after), Saved(payload))
  {
    if req.cepId == [] then (None, BadRequest(CepIdRequired))
    else
      match UpsertIntegrationLink(file, req, now, writeError)
      case Err(m) => (None, ServerError(m))
      case Ok((after, payload)) => (Some(after), Saved(payload))
  }

  /** The answers of `getLinks`. */
  datatype LinksResponse = LinksFound(ledger: LinkLedger) | LinksFailed(error: string)

  /** `getLinks`: the ledger read from the file, sent whole with its
      other top-level keys, or 500 with the error when the file cannot be
      read. */
  function GetLinks(file: JsonFile<Option<StoredLedger>>, now: string): (r: LinksResponse)
    ensures r.LinksFailed? <==> file.Unreadable? || file == Parsed(None)
    ensures file.Unreadable? ==> r == LinksFailed(file.error)
    ensures file.Missing? ==> r == LinksFound(DefaultLedger(now))
    ensures file.Parsed? && file.doc.Some? && file.doc.value.links.Some? ==>
              r == LinksFound(LinkLedger(file.doc.value.updatedAt, file.doc.value.links.value, file.doc.value.extra))
    ensures r.LinksFound? ==> GetIntegrationLinks(file, now) == Ok(r.ledger)
  {
    match GetIntegrationLinks(file, now)
    case Err(m) => LinksFailed(m)
    case Ok(ledger) => LinksFound(ledger)
  }

  /** After a saved upsert, `getLinks` on the written file lists the new
      link under its id. */
  lemma SavedLinkListed(file: JsonFile<Option<StoredLedger>>, req: UpsertRequest, now: string, later: string)
    requires StatusOf(UpsertLink(file, req, now, None).1) == 200
    ensures var (written, response) := UpsertLink(file, req, now, None);
            && GetLinks(Written(written.value), later) == LinksFound(written.value)
            && LinkFor(written.value, response.link.cepId).Some?
            && LinkFor(written.value, response.link.cepId).value.(extra := map[]) == response.link
  {
    UpsertWrittenThenRead(file, req, now, later);
  }
}

=== FILE: ledger.dfy ===
/** The link ledger: the stored decisions that tie a CEP item to a
    specialty. Models `getIntegrationLinks` and `upsertIntegrationLink` of
    the integration service. Reading and writing the ledger file and the
    clock are left to the caller: the stored document and the current
    timestamp are parameters, the new ledger is a result. */
module Ledger {
  import opened Common
  import opened Strings
  import opened Seqs

  /** One decision. `extra` holds whatever other fields a stored link
      carries; the upsert keeps them. */
  datatype Link = Link(
    cepId: string,
    specialtyId: Option<string>,
    status: string,
    source: string,
    note: Option<string>,
    updatedAt: string,
    extra: map<string, string>)

  /** The ledger document. `extra` holds its other top-level keys: the
      service reads, changes and writes back the whole object, so they
      survive every upsert. */
  datatype LinkLedger = LinkLedger(updatedAt: string, links: seq<Link>, extra: map<string, string>)

  /** The ledger document as read from disk: `links` is `None` when it is
      missing or not an array. A document that is not an object (a number,
      a string, an array) has no `links` either. */
  datatype StoredLedger = StoredLedger(updatedAt: string, links: Option<seq<Link>>, extra: map<string, string>)

  /** What reading a JSON file produced: the file does not exist, it
      exists but could not be read or parsed (with the error's message), or
      the parsed document. */
  datatype JsonFile<+T> = Missing | Unreadable(error: string) | Parsed(doc: T)

  /** The request body fields; the empty string stands for a missing or
      falsy value. */
  datatype UpsertRequest = UpsertRequest(
    cepId: string,
    specialtyId: string,
    status: string,
    source: string,
    note: string)

  const DefaultStatus: string := "confirmed"
  const DefaultSource: string := "manual"
  const CepIdRequired: string := "cepId requerido"

  /** `defaultLinks()`: an empty ledger stamped now. */
  function DefaultLedger(now: string): LinkLedger
  {
    LinkLedger(now, [], map[])
  }

  /** `readJsonFile`: only a missing file falls back to the default;
      any other failure to read or parse is thrown again. */
  function ReadJsonFile<T>(file: JsonFile<T>, fallback: T): (r: Result<T>)
    ensures r.Err? <==> file.Unreadable?
    ensures file.Unreadable? ==> r.message == file.error
    ensures file.Missing? ==> r.value == fallback
    ensures file.Parsed? ==> r.value == file.doc
  {
    match file
    case Missing => Ok(fallback)
    case Unreadable(e) => Err(e)
    case Parsed(doc) => Ok(doc)
  }

  /** The error `data.links` throws when the ledger file holds `null`. */
  const NullLedgerError: string := "Cannot read properties of null (reading 'links')"

  /** `getIntegrationLinks` over the ledger file, whose document is `None`
      when it is `null`: a missing file and a document without a `links`
      array read as the empty ledger stamped now; a file that cannot be
      read or parsed, and a `null` document, make it throw. */
  function GetIntegrationLinks(file: JsonFile<Option<StoredLedger>>, now: string): (r: Result<LinkLedger>)
    ensures r.Err? <==> file.Unreadable? || file == Parsed(None)
    ensures file.Unreadable? ==> r == Err(file.error)
    ensures file.Missing? ==> r == Ok(DefaultLedger(now))
    ensures file.Parsed? && file.doc.Some? && file.doc.value.links.None? ==> r == Ok(DefaultLedger(now))
    ensures file.Parsed? && file.doc.Some? && file.doc.value.links.Some? ==>
              r == Ok(LinkLedger(file.doc.value.updatedAt, file.doc.value.links.value, file.doc.value.extra))
  {
    var read: Result<Option<StoredLedger>> := ReadJsonFile(file, Some(StoredLedger(now, Some([]), map[])));
    match read
    case Err(e) => Err(e)
    case Ok(None) => Err(NullLedgerError)
    case Ok(Some(stored)) =>
      match stored.links
      case None => Ok(DefaultLedger(now))
      case Some(links) => Ok(LinkLedger(stored.updatedAt, links, stored.extra))
  }

  /** `writeJsonFile` of a ledger: the document it leaves on disk. */
  function Written(ledger: LinkLedger): JsonFile<Option<StoredLedger>>
  {
    Parsed(Some(StoredLedger(ledger.updatedAt, Some(ledger.links), ledger.extra)))
  }

  /** A written ledger reads back as itself, whatever the time of the
      read. */
  lemma ReadBackWritten(ledger: LinkLedger, now: string)
    ensures GetIntegrationLinks(Written(ledger), now) == Ok(ledger)
  {
  }

  function HasCepId(cepId: string): Link -> bool
  {
    (link: Link) => link.cepId == cepId
  }

  /** `links.findIndex(link => link.cepId === cepId)`: the first position
      holding `cepId`, or -1. */
  function FindLink(links: seq<Link>, cepId: string): (r: int)
    ensures -1 <= r < |links|
    ensures r >= 0 ==> links[r].cepId == cepId && forall i :: 0 <= i < r ==> links[i].cepId != cepId
    ensures r == -1 <==> forall i :: 0 <= i < |links| ==> links[i].cepId != cepId
  {
    FindIndex(links, HasCepId(cepId))
  }

  /** The link the ledger holds for `cepId`: the first one, as every lookup
      in the code takes it. */
  function LinkFor(ledger: LinkLedger, cepId: string): Option<Link>
  {
    var k := FindLink(ledger.links, cepId);
    if k == -1 then None else Some(ledger.links[k])
  }

  /** The payload of an upsert: the trimmed `cepId`, `null` for a missing
      specialty or note, the default status and source. */
  function Payload(cepId: string, req: UpsertRequest, now: string): (p: Link)
    ensures p.cepId == cepId && p.updatedAt == now && p.extra == map[]
    ensures p.specialtyId.None? <==> req.specialtyId == []
    ensures p.specialtyId.Some? ==> p.specialtyId.value == req.specialtyId
    ensures p.note.None? <==> req.note == []
    ensures p.note.Some? ==> p.note.value == req.note
    ensures p.status == (if req.status == [] then DefaultStatus else req.status)
    ensures p.source == (if req.source == [] then DefaultSource else req.source)
  {
    Link(cepId,
         if req.specialtyId == [] then None else Some(req.specialtyId),
         if req.status == [] then DefaultStatus else req.status,
         if req.source == [] then DefaultSource else req.source,
         if req.note == [] then None else Some(req.note),
         now,
         map[])
  }

  /** `{ ...existing, ...payload }`: every field the payload names is taken
      from the payload, the stored link's other fields are kept. */
  function Merge(existing: Link, payload: Link): (m: Link)
    ensures m.extra == existing.extra
    ensures m.cepId == payload.cepId && m.specialtyId == payload.specialtyId && m.note == payload.note
    ensures m.status == payload.status && m.source == payload.source && m.updatedAt == payload.updatedAt
  {
    payload.(extra := existing.extra)
  }

  /** `upsertIntegrationLink`: reject a `cepId` that is blank after trimming;
      otherwise overwrite the first link with that `cepId` (keeping its
      other fields) or append the payload, and stamp the ledger with the
      payload's time. The result is the new ledger and the payload. */
  function Upsert(ledger: LinkLedger, req: UpsertRequest, now: string): (r: Result<(LinkLedger, Link)>)
    ensures r.Err? <==> TrimBy(req.cepId, IsJsSpace) == []
    ensures r.Err? ==> r.message == CepIdRequired
    ensures r.Ok? ==> r.value.0.updatedAt == now && r.value.1.updatedAt == now
    ensures r.Ok? ==> r.value.1.cepId == TrimBy(req.cepId, IsJsSpace)
    ensures r.Ok? ==> r.value.0.extra == ledger.extra
  {
    var cepId := TrimBy(req.cepId, IsJsSpace);
    if cepId == [] then Err(CepIdRequired)
    else
      var payload := Payload(cepId, req, now);
      var k := FindLink(ledger.links, cepId);
      var links :=
        if k >= 0 then ledger.links[k := Merge(ledger.links[k], payload)]
        else ledger.links + [payload];
      Ok((LinkLedger(now, links, ledger.extra), payload))
  }

  /** `upsertIntegrationLink` with the read and the write of the ledger
      file. The read comes first, so a file that cannot be read fails the
      call even for a blank `cepId`; then the upsert of the ledger read;
      then `writeJsonFile`, whose failure (`writeError`, the message of the
      rejected `mkdir` or `writeFile`) fails the call too. The ledger in
      the result is what is written back. */
  function UpsertIntegrationLink(
    file: JsonFile<Option<StoredLedger>>, req: UpsertRequest, now: string, writeError: Option<string>): (r: Result<(LinkLedger, Link)>)
    ensures r.Err? <==> GetIntegrationLinks(file, now).Err? || TrimBy(req.cepId, IsJsSpace) == [] || writeError.Some?
    ensures GetIntegrationLinks(file, now).Err? ==> r.message == GetIntegrationLinks(file, now).message
    ensures GetIntegrationLinks(file, now).Ok? && TrimBy(req.cepId, IsJsSpace) == [] ==> r == Err(CepIdRequired)
    ensures GetIntegrationLinks(file, now).Ok? && TrimBy(req.cepId, IsJsSpace) != [] && writeError.Some? ==>
              r == Err(writeError.value)
    ensures r.Ok? ==> r == Upsert(GetIntegrationLinks(file, now).value, req, now)
  {
    match GetIntegrationLinks(file, now)
    case Err(e) => Err(e)
    case Ok(ledger) =>
      match Upsert(ledger, req, now)
      case Err(e) => Err(e)
      case Ok(result) => if writeError.Some? then Err(writeError.value) else Ok(result)
  }

  /** After a successful upsert, the written file reads back with the
      payload stored for its id, and the document's other top-level keys
      are those of the file read. */
  lemma UpsertWrittenThenRead(file: JsonFile<Option<StoredLedger>>, req: UpsertRequest, now: string, later: string)
    requires UpsertIntegrationLink(file, req, now, None).Ok?
    ensures var (after, payload) := UpsertIntegrationLink(file, req, now, None).value;
            && GetIntegrationLinks(Written(after), later) == Ok(after)
            && LinkFor(after, payload.cepId).Some?
            && LinkFor(after, payload.cepId).value.(extra := map[]) == payload
            && (file.Parsed? && file.doc.Some? && file.doc.value.links.Some? ==> after.extra == file.doc.value.extra)
  {
    var (after, payload) := UpsertIntegrationLink(file, req, now, None).value;
    ReadBackWritten(after, later);
    UpsertThenLookup(GetIntegrationLinks(file, now).value, req, now, payload.cepId);
  }

  /** The set of CEP ids a ledger has decided (`linkMap.has`). */
  function LinkedIds(ledger: LinkLedger): set<string>
  {
    CepIds(ledger.links)
  }

  function CepIds(links: seq<Link>): set<string>
  {
    set l | l in links :: l.cepId
  }

  predicate UniqueCepIds(links: seq<Link>)
  {
    forall i, j :: 0 <= i < j < |links| ==> links[i].cepId != links[j].cepId
  }

  // ---------------------------------------------------------------------
  // Properties of the upsert.

  /** The upsert either overwrites the first link with the trimmed id, in
      place, merged with the payload, or appends the payload; no other link
      changes. */
  lemma UpsertPlacement(ledger: LinkLedger, req: UpsertRequest, now: string)
    requires Upsert(ledger, req, now).Ok?
    ensures var (after, payload) := Upsert(ledger, req, now).value;
            var k := FindLink(ledger.links, payload.cepId);
            && (k >= 0 ==>
                  && |after.links| == |ledger.links|
                  && after.links[k] == Merge(ledger.links[k], payload)
                  && forall i :: 0 <= i < |after.links| && i != k ==> after.links[i] == ledger.links[i])
            && (k < 0 ==> after.links == ledger.links + [payload])
  {
  }

  /** Read after write: the ledger then holds the payload for the trimmed
      id (with the stored link's other fields), and every other id reads as
      before. */
  lemma UpsertThenLookup(ledger: LinkLedger, req: UpsertRequest, now: string, other: string)
    requires Upsert(ledger, req, now).Ok?
    ensures var (after, payload) := Upsert(ledger, req, now).value;
            && LinkFor(after, payload.cepId).Some?
            && LinkFor(after, payload.cepId).value.(extra := map[]) == payload
            && (other != payload.cepId ==> LinkFor(after, other) == LinkFor(ledger, other))
  {
    var (after, payload) := Upsert(ledger, req, now).value;
    var k := FindLink(ledger.links, payload.cepId);
    if k < 0 {
      FindAppended(ledger.links, payload);
    } else {
      FindReplaced(ledger.links, k, Merge(ledger.links[k], payload));
    }
    if other != payload.cepId {
      if k < 0 {
        FindAppendedOther(ledger.links, payload, other);
      } else {
        FindReplacedOther(ledger.links, k, Merge(ledger.links[k], payload), other);
      }
    }
  }

  lemma FindAppended(links: seq<Link>, x: Link)
    requires FindLink(links, x.cepId) == -1
    ensures FindLink(links + [x], x.cepId) == |links|
  {
    assert (links + [x])[|links|] == x;
    assert forall i :: 0 <= i < |links| ==> (links + [x])[i] == links[i];
  }

  lemma FindAppendedOther(links: seq<Link>, x: Link, other: string)
    requires x.cepId != other
    ensures FindLink(links + [x], other) == FindLink(links, other)
  {
    assert (links + [x])[|links|] == x;
    assert forall i :: 0 <= i < |links| ==> (links + [x])[i] == links[i];
  }

  lemma FindReplaced(links: seq<Link>, k: nat, m: Link)
    requires k < |links| && FindLink(links, m.cepId) == k
    ensures FindLink(links[k := m], m.cepId) == k
  {
    var after := links[k := m];
    assert after[k].cepId == m.cepId;
    assert forall i :: 0 <= i < k ==> after[i].cepId != m.cepId;
  }

  lemma FindReplacedOther(links: seq<Link>, k: nat, m: Link, other: string)
    requires k < |links| && links[k].cepId == m.cepId && m.cepId != other
    ensures FindLink(links[k := m], other) == FindLink(links, other)
  {
    assert forall i :: 0 <= i < |links| ==> (links[k := m][i].cepId == other <==> links[i].cepId == other);
  }

  /** A ledger with one link per CEP id keeps that shape. */
  lemma UpsertKeepsUnique(ledger: LinkLedger, req: UpsertRequest, now: string)
    requires UniqueCepIds(ledger.links)
    requires Upsert(ledger, req, now).Ok?
    ensures UniqueCepIds(Upsert(ledger, req, now).value.0.links)
  {
    var (after, payload) := Upsert(ledger, req, now).value;
    var k := FindLink(ledger.links, payload.cepId);
    if k < 0 {
      forall i, j | 0 <= i < j < |after.links| ensures after.links[i].cepId != after.links[j].cepId {
        if j == |ledger.links| {
          assert after.links[i] == ledger.links[i];
        } else {
          assert after.links[i] == ledger.links[i] && after.links[j] == ledger.links[j];
        }
      }
    }
  }

  /** The decided ids after an upsert are those before plus the trimmed
      id. */
  lemma UpsertLinkedIds(ledger: LinkLedger, req: UpsertRequest, now: string)
    requires Upsert(ledger, req, now).Ok?
    ensures var (after, payload) := Upsert(ledger, req, now).value;
            LinkedIds(after) == LinkedIds(ledger) + {payload.cepId}
  {
    var (after, payload) := Upsert(ledger, req, now).value;
    var k := FindLink(ledger.links, payload.cepId);
    if k >= 0 {
      var m := Merge(ledger.links[k], payload);
      assert after.links == ledger.links[k := m];
      CepIdsReplaced(ledger.links, k, m);
    } else {
      assert after.links == ledger.links + [payload];
      CepIdsAppended(ledger.links, payload);
    }
  }

  /** Overwriting a link with one of the same CEP id keeps the ids. */
  lemma CepIdsReplaced(links: seq<Link>, k: nat, m: Link)
    requires k < |links| && links[k].cepId == m.cepId
    ensures CepIds(links[k := m]) == CepIds(links)
  {
    var after := links[k := m];
    forall id | id in CepIds(links) ensures id in CepIds(after) {
      var i :| 0 <= i < |links| && links[i].cepId == id;
      assert after[i].cepId == id;
    }
    forall id | id in CepIds(after) ensures id in CepIds(links) {
      var i :| 0 <= i < |after| && after[i].cepId == id;
      assert links[i].cepId == id;
    }
  }

  /** Appending a link adds its id. */
  lemma CepIdsAppended(links: seq<Link>, x: Link)
    ensures CepIds(links + [x]) == CepIds(links) + {x.cepId}
  {
    var after := links + [x];
    assert after[|links|] == x;
    forall id | id in CepIds(links) ensures id in CepIds(after) {
      var i :| 0 <= i < |links| && links[i].cepId == id;
      assert after[i] == links[i];
    }
  }

  /** Repeating an upsert is the same as doing it once, at the later
      time. */
  lemma UpsertIdempotent(ledger: LinkLedger, req: UpsertRequest, t1: string, t2: string)
    requires Upsert(ledger, req, t1).Ok?
    ensures Upsert(Upsert(ledger, req, t1).value.0, req, t2) == Upsert(ledger, req, t2)
  {
    var cepId := TrimBy(req.cepId, IsJsSpace);
    var p1 := Payload(cepId, req, t1);
    var p2 := Payload(cepId, req, t2);
    var k := FindLink(ledger.links, cepId);
    var after := Upsert(ledger, req, t1).value.0;
    if k < 0 {
      assert after.links == ledger.links + [p1];
      FindAppended(ledger.links, p1);
      assert after.links[|ledger.links| := Merge(p1, p2)] == ledger.links + [p2];
      assert Upsert(after, req, t2) == Ok((LinkLedger(t2, ledger.links + [p2], ledger.extra), p2));
      assert Upsert(ledger, req, t2) == Ok((LinkLedger(t2, ledger.links + [p2], ledger.extra), p2));
    } else {
      var m := Merge(ledger.links[k], p1);
      var links := ledger.links[k := Merge(ledger.links[k], p2)];
      assert after.links == ledger.links[k := m];
      FindReplaced(ledger.links, k, m);
      assert Merge(m, p2) == Merge(ledger.links[k], p2);
      assert after.links[k := Merge(m, p2)] == links;
      assert Upsert(after, req, t2) == Ok((LinkLedger(t2, links, ledger.extra), p2));
      assert Upsert(ledger, req, t2) == Ok((LinkLedger(t2, links, ledger.extra), p2));
    }
  }

  /** An upsert that omits the specialty or the note clears the stored one:
      the merge takes `null` from the payload rather than keeping the old
      value. */
  lemma UpsertClearsOmittedFields(ledger: LinkLedger, req: UpsertRequest, now: string)
    requires Upsert(ledger, req, now).Ok?
    requires req.specialtyId == [] && req.note == []
    ensures var (after, payload) := Upsert(ledger, req, now).value;
            LinkFor(after, payload.cepId).Some?
            && LinkFor(after, payload.cepId).value.specialtyId.None?
            && LinkFor(after, payload.cepId).value.note.None?
  {
    UpsertThenLookup(ledger, req, now, []);
  }
}

=== FILE: numbers.dfy ===
/** JavaScript's `Number.parseInt(s, 10)` and `Number.parseFloat(s)` over
    exact integers and rationals. `None` stands for `NaN`. */
module JsNumbers {
  import opened Common
  import opened Strings

  predicate AllDigits(d: string)
  {
    forall i :: 0 <= i < |d| ==> IsDigit(d[i])
  }

  function DigitValue(c: char): nat
    requires IsDigit(c)
  {
    c as int - '0' as int
  }

  /** The value of a string of decimal digits, most significant first. */
  function DigitsValue(d: string): nat
    requires AllDigits(d)
  {
    if d == [] then 0 else 10 * DigitsValue(d[..|d| - 1]) + DigitValue(d[|d| - 1])
  }

  function Pow10(k: nat): (r: nat)
    ensures r >= 1
  {
    if k == 0 then 1 else 10 * Pow10(k - 1)
  }

  /** Both parsers first skip leading white space and read one optional
      sign: the result is (negative?, what follows the sign). */
  function SignAndBody(s: string): (bool, string)
  {
    var t := DropWhile(s, IsJsSpace);
    if t != [] && (t[0] == '-' || t[0] == '+') then (t[0] == '-', t[1..]) else (false, t)
  }

  /** `Number.parseInt(s, 10)`: the longest run of decimal digits after the
      white space and sign; `NaN` when that run is empty. Whatever follows
      the digits is ignored. */
  function ParseInt(s: string): (r: Option<int>)
    ensures r.None? <==> SpanLength(SignAndBody(s).1, IsDigit) == 0
  {
    var (negative, body) := SignAndBody(s);
    var n := SpanLength(body, IsDigit);
    if n == 0 then None
    else
      var v: int := DigitsValue(body[..n]);
      Some(if negative then -v else v)
  }

  /** The factor an exponent part `e[+-]digits` at the front of `s`
      contributes; 1 when there is no complete exponent part. */
  function ExponentFactor(s: string): (r: real)
    ensures r > 0.0
  {
    if s != [] && (s[0] == 'e' || s[0] == 'E') then
      var (negative, body) :=
        if |s| > 1 && (s[1] == '+' || s[1] == '-') then (s[1] == '-', s[2..]) else (false, s[1..]);
      var k := SpanLength(body, IsDigit);
      if k == 0 then 1.0
      else
        var e := DigitsValue(body[..k]);
        if negative then 1.0 / (Pow10(e) as real) else Pow10(e) as real
    else 1.0
  }

  /** The value of `whole.frac`. */
  function DecimalValue(whole: string, frac: string): real
    requires AllDigits(whole) && AllDigits(frac)
  {
    DigitsValue(whole) as real + (DigitsValue(frac) as real) / (Pow10(|frac|) as real)
  }

  function Scaled(mantissa: real, factor: real): real
  {
    mantissa * factor
  }

  /** The longest unsigned decimal literal `digits[.digits][e[+-]digits]`
      (or `.digits...`) at the front of `body`, as an exact rational;
      `None` when there is no digit before the exponent. */
  function UnsignedDecimal(body: string): (r: Option<real>)
  {
    var n := SpanLength(body, IsDigit);
    var rest := body[n..];
    var hasDot := rest != [] && rest[0] == '.';
    var f := if hasDot then SpanLength(rest[1..], IsDigit) else 0;
    if n == 0 && f == 0 then None
    else
      var frac := if hasDot then rest[1..][..f] else [];
      var after := if hasDot then rest[1..][f..] else rest;
      Some(Scaled(DecimalValue(body[..n], frac), ExponentFactor(after)))
  }

  /** `Number.parseFloat(s)`: the unsigned decimal literal after the white
      space and sign, negated after a minus sign. */
  function ParseFloat(s: string): (r: Option<real>)
    ensures r.None? <==> UnsignedDecimal(SignAndBody(s).1).None?
  {
    var (negative, body) := SignAndBody(s);
    match UnsignedDecimal(body)
    case None => None
    case Some(v) => Some(if negative then -v else v)
  }

  /** A literal made of digits alone is read as their value. */
  lemma UnsignedDecimalDigits(d: string)
    requires d != [] && AllDigits(d)
    ensures UnsignedDecimal(d) == Some(DigitsValue(d) as real)
  {
    SpanOfDigitsThenStop(d, []);
    assert d + [] == d;
    assert d[|d|..] == [];
    assert d[..|d|] == d;
    assert ExponentFactor([]) == 1.0;
    assert DecimalValue(d, []) == DigitsValue(d) as real;
  }

  // ---------------------------------------------------------------------
  // A decimal printer, the partner the parsers are checked against.

  function DigitChar(d: nat): (c: char)
    requires d < 10
    ensures IsDigit(c) && DigitValue(c) == d
  {
    ('0' as int + d) as char
  }

  /** `String(n)` for a natural number. */
  function ShowNat(n: nat): (s: string)
    ensures s != [] && AllDigits(s)
  {
    if n < 10 then [DigitChar(n)] else ShowNat(n / 10) + [DigitChar(n % 10)]
  }

  /** `String(n)` for an integer. */
  function ShowInt(n: int): string
  {
    if n < 0 then "-" + ShowNat(-n) else ShowNat(n)
  }

  /** A printed integer is a minus sign at most, then digits: it has no
      white space to trim and no separator. */
  lemma ShowIntShape(n: int)
    ensures var s := ShowInt(n);
            && s != [] && IsDigit(s[|s| - 1]) && (IsDigit(s[0]) || s[0] == '-')
            && forall i :: 0 <= i < |s| ==> IsDigit(s[i]) || s[i] == '-'
  {
    if n < 0 {
      var d := ShowNat(-n);
      assert ShowInt(n) == ['-'] + d;
      assert forall i :: 1 <= i < |d| + 1 ==> ShowInt(n)[i] == d[i - 1];
    }
  }

  lemma {:induction false} ShowNatValue(n: nat)
    ensures DigitsValue(ShowNat(n)) == n
  {
    if n >= 10 {
      var s := ShowNat(n);
      ShowNatValue(n / 10);
      assert s[..|s| - 1] == ShowNat(n / 10);
    }
  }

  lemma {:induction false} SpanOfDigitsThenStop(d: string, tail: string)
    requires AllDigits(d)
    requires tail == [] || !IsDigit(tail[0])
    ensures SpanLength(d + tail, IsDigit) == |d|
    decreases |d|
  {
    if d != [] {
      assert (d + tail)[1..] == d[1..] + tail;
      SpanOfDigitsThenStop(d[1..], tail);
    } else {
      assert d + tail == tail;
    }
  }

  /** A leading minus sign is read as the sign. */
  lemma SignOfMinus(x: string)
    ensures SignAndBody(['-'] + x) == (true, x)
  {
    assert DropWhile(['-'] + x, IsJsSpace) == ['-'] + x;
    assert (['-'] + x)[1..] == x;
  }

  /** A text that starts with a digit has no sign. */
  lemma SignOfDigits(x: string)
    requires x != [] && IsDigit(x[0])
    ensures SignAndBody(x) == (false, x)
  {
    assert DropWhile(x, IsJsSpace) == x;
  }

  /** `parseInt` of digits followed by a non-digit reads the digits. */
  lemma ParseIntDigits(digits: string, tail: string)
    requires digits != [] && AllDigits(digits)
    requires tail == [] || !IsDigit(tail[0])
    ensures ParseInt(digits + tail) == Some(DigitsValue(digits) as int)
  {
    var s := digits + tail;
    SpanOfDigitsThenStop(digits, tail);
    assert s[..|digits|] == digits;
    SignOfDigits(s);
  }

  /** The same after a minus sign, negated. */
  lemma ParseIntNegativeDigits(digits: string, tail: string)
    requires digits != [] && AllDigits(digits)
    requires tail == [] || !IsDigit(tail[0])
    ensures ParseInt(['-'] + (digits + tail)) == Some(-(DigitsValue(digits) as int))
  {
    var s := digits + tail;
    SpanOfDigitsThenStop(digits, tail);
    assert s[..|digits|] == digits;
    SignOfMinus(s);
  }

  /** `parseInt` reads back what `String` printed, whatever non-digit text
      follows it. */
  lemma ParseIntShowInt(n: int, tail: string)
    requires tail == [] || !IsDigit(tail[0])
    ensures ParseInt(ShowInt(n) + tail) == Some(n)
  {
    var m := if n < 0 then -n else n;
    var digits := ShowNat(m);
    ShowNatValue(m);
    if n < 0 {
      assert ShowInt(n) + tail == ['-'] + (digits + tail);
      ParseIntNegativeDigits(digits, tail);
    } else {
      ParseIntDigits(digits, tail);
    }
  }

  /** `parseFloat` of a printed integer is that integer. */
  lemma ParseFloatShowInt(n: int)
    ensures ParseFloat(ShowInt(n)) == Some(n as real)
  {
    var m := if n < 0 then -n else n;
    var digits := ShowNat(m);
    ShowNatValue(m);
    UnsignedDecimalDigits(digits);
    var v := m as real;
    assert UnsignedDecimal(digits) == Some(v);
    if n < 0 {
      assert ShowInt(n) == ['-'] + digits;
      SignOfMinus(digits);
    } else {
      SignOfDigits(digits);
    }
  }

  /** `parseFloat` reads a decimal fraction exactly: "0.6" is 3/5. */
  lemma ParseFloatDefaultScore()
    ensures ParseFloat("0.6") == Some(0.6)
  {
    SignOfDigits("0.6");
    DefaultScoreLiteral();
  }

  lemma DefaultScoreLiteral()
    ensures UnsignedDecimal("0.6") == Some(0.6)
  {
    var body := "0.6";
    DefaultScoreSpans();
    assert body[..1] == "0" && body[1..] == ".6" && body[1..][1..] == "6";
    assert "6"[..1] == "6" && "6"[1..] == [];
    assert DecimalValue("0", "6") == 0.6 by {
      assert DigitsValue("0") == 0;
      assert DigitsValue("6") == 6;
    }
    assert ExponentFactor([]) == 1.0;
  }

  lemma DefaultScoreSpans()
    ensures SpanLength("0.6", IsDigit) == 1
    ensures SpanLength("6", IsDigit) == 1
  {
    assert "6"[1..] == [];
    assert "0.6"[1] == '.';
  }
}

=== FILE: offline_suggestions.dfy ===
/** The offline suggestions generator: its own copies of the catalog
    flattening and of the scorer over slimmer records, and the loop that
    ranks candidates for every CEP item with the fixed minimum score 0.6.
    Reading the two JSON files, writing the output and the clock are left
    to the caller. */
module OfflineSuggestions {
  import opened Common
  import opened Seqs
  import opened CatalogData
  import opened Catalog
  import opened TextMatch
  import opened Ranking

  /** A CEP item as the generator builds it: no pdf and no base URL. */
  datatype OfflineCepItem = OfflineCepItem(
    id: string,
    codigo: string,
    nombre: string,
    slug: string,
    category: CategoryRef)

  /** A specialty as the generator builds it: no img, pdf or base URL. */
  datatype OfflineSpecialty = OfflineSpecialty(
    id: string,
    name: string,
    slug: string,
    areaSlug: string,
    areaName: string)

  datatype OfflineSuggestion = OfflineSuggestion(cep: OfflineCepItem, candidates: seq<Candidate<OfflineSpecialty>>)

  datatype OfflinePayload = OfflinePayload(generatedAt: string, total: nat, items: seq<OfflineSuggestion>)

  /** The generator's fixed minimum score. */
  const OfflineMinScore: real := 0.6

  function OfflineCategoryItems(): CepCategory -> seq<OfflineCepItem>
  {
    (c: CepCategory) => Map(ArrayOrEmpty(c.items), (e: CepEntry) =>
      OfflineCepItem(CepId(e.codigo), e.codigo, e.nombre, e.slug, CategoryRef(c.slug, c.nombreCategoria)))
  }

  function OfflineAreaSpecialties(): Area -> seq<OfflineSpecialty>
  {
    (a: Area) => Map(ArrayOrEmpty(a.items), (e: AreaEntry) =>
      OfflineSpecialty(SpecialtyId(a.slug, e.slug), e.name, e.slug, a.slug, a.name))
  }

  /** The generator's `buildCepItems`. */
  function BuildOfflineCepItems(manifest: Option<CepManifest>): seq<OfflineCepItem>
  {
    match manifest
    case None => []
    case Some(m) =>
      match m.categorias
      case None => []
      case Some(cats) => FlatMap(cats, OfflineCategoryItems())
  }

  /** The generator's `buildSpecialties`. */
  function BuildOfflineSpecialties(areas: Option<seq<Area>>): seq<OfflineSpecialty>
  {
    match areas
    case None => []
    case Some(xs) => FlatMap(xs, OfflineAreaSpecialties())
  }

  /** The generator's `scoreMatch`, over its own records. */
  function OfflineScoreMatch(cep: OfflineCepItem, spec: OfflineSpecialty): real
  {
    if cep.slug != [] && spec.slug != [] && cep.slug == spec.slug then SlugMatchScore
    else
      var cepName := NormalizeText(cep.nombre);
      var specName := NormalizeText(spec.name);
      if cepName != [] && specName != [] && cepName == specName then NameMatchScore
      else
        var nameScore := TokenScore(Tokenize(cep.nombre), Tokenize(spec.name));
        var slugScore := TokenScore(Tokenize(cep.slug), Tokenize(spec.slug));
        MaxReal(nameScore, slugScore)
  }

  function OfflineScoreAgainst(cep: OfflineCepItem): OfflineSpecialty -> real
  {
    (spec: OfflineSpecialty) => OfflineScoreMatch(cep, spec)
  }

  function OfflineSuggestFor(specs: seq<OfflineSpecialty>): OfflineCepItem -> OfflineSuggestion
  {
    (cep: OfflineCepItem) => OfflineSuggestion(cep, Rank(specs, OfflineScoreAgainst(cep), OfflineMinScore))
  }

  /** `main`: one suggestion per CEP item, in catalog order, and their
      count. */
  function GenerateSuggestions(manifest: Option<CepManifest>, areas: Option<seq<Area>>, generatedAt: string): OfflinePayload
  {
    var cepItems := BuildOfflineCepItems(manifest);
    var suggestions := Map(cepItems, OfflineSuggestFor(BuildOfflineSpecialties(areas)));
    OfflinePayload(generatedAt, |suggestions|, suggestions)
  }

  // ---------------------------------------------------------------------
  // Agreement with the service.

  /** What the generator keeps of a service CEP item. */
  function ToOfflineCep(c: CepItem): OfflineCepItem
  {
    OfflineCepItem(c.id, c.codigo, c.nombre, c.slug, c.category)
  }

  /** What the generator keeps of a service specialty. */
  function ToOfflineSpecialty(s: Specialty): OfflineSpecialty
  {
    OfflineSpecialty(s.id, s.name, s.slug, s.areaSlug, s.areaName)
  }

  /** The generator scores every pair exactly as the service does. The
      two scorers are the same text, so the model shares one definition
      and this lemma only records that. */
  lemma OfflineScoreAgrees(cep: CepItem, spec: Specialty)
    ensures OfflineScoreMatch(ToOfflineCep(cep), ToOfflineSpecialty(spec)) == ScoreMatch(cep, spec)
  {
  }

  /** The generator's CEP items are the service's, record for record, less
      the pdf and base URL: same order, same ids, same category tags. */
  lemma OfflineCepItemsAgree(manifest: Option<CepManifest>, baseUrl: string)
    ensures BuildOfflineCepItems(manifest) == Map(BuildCepItems(manifest, baseUrl), ToOfflineCep)
  {
    if manifest.Some? && manifest.value.categorias.Some? {
      var cats := manifest.value.categorias.value;
      forall i | 0 <= i < |cats|
        ensures OfflineCategoryItems()(cats[i]) == Map(CategoryItems(baseUrl)(cats[i]), ToOfflineCep)
      {
      }
      FlatMapMapped(cats, CategoryItems(baseUrl), OfflineCategoryItems(), ToOfflineCep);
    }
  }

  /** The generator's specialties are the service's, record for record,
      less the img, pdf and base URL. */
  lemma OfflineSpecialtiesAgree(areas: Option<seq<Area>>, baseUrl: string)
    ensures BuildOfflineSpecialties(areas) == Map(BuildSpecialties(areas, baseUrl), ToOfflineSpecialty)
  {
    if areas.Some? {
      var xs := areas.value;
      forall i | 0 <= i < |xs|
        ensures OfflineAreaSpecialties()(xs[i]) == Map(AreaSpecialties(baseUrl)(xs[i]), ToOfflineSpecialty)
      {
      }
      FlatMapMapped(xs, AreaSpecialties(baseUrl), OfflineAreaSpecialties(), ToOfflineSpecialty);
    }
  }

  /** For every CEP item the generator offers the same candidates, in the
      same order with the same scores, as the service ranks for that item
      at minimum score 0.6. */
  lemma OfflineCandidatesAgree(areas: Option<seq<Area>>, baseUrl: string, cep: CepItem)
    ensures OfflineSuggestFor(BuildOfflineSpecialties(areas))(ToOfflineCep(cep)).candidates
         == Map(Rank(BuildSpecialties(areas, baseUrl), ScoreAgainst(cep), OfflineMinScore),
                ProjectCandidate(ToOfflineSpecialty))
  {
    var specs := BuildSpecialties(areas, baseUrl);
    OfflineSpecialtiesAgree(areas, baseUrl);
    forall i | 0 <= i < |specs|
      ensures OfflineScoreAgainst(ToOfflineCep(cep))(ToOfflineSpecialty(specs[i])) == ScoreAgainst(cep)(specs[i])
    {
      OfflineScoreAgrees(cep, specs[i]);
    }
    RankProjected(specs, ScoreAgainst(cep), ToOfflineSpecialty, OfflineScoreAgainst(ToOfflineCep(cep)), OfflineMinScore);
  }

  /** Every CEP item gets exactly one entry, in catalog order; `total` is
      the number of CEP items; each candidate list has at most five
      entries, best first, every one scoring at least 0.6. */
  lemma GenerateSuggestionsShape(manifest: Option<CepManifest>, areas: Option<seq<Area>>, generatedAt: string, i: nat, j: nat)
    ensures var p := GenerateSuggestions(manifest, areas, generatedAt);
            && p.total == |p.items| == |BuildOfflineCepItems(manifest)|
            && (i < |p.items| ==>
                  && p.items[i].cep == BuildOfflineCepItems(manifest)[i]
                  && |p.items[i].candidates| <= MaxCandidates
                  && SortedDesc(p.items[i].candidates)
                  && (j < |p.items[i].candidates| ==> p.items[i].candidates[j].score >= OfflineMinScore))
  {
    var p := GenerateSuggestions(manifest, areas, generatedAt);
    if i < |p.items| {
      var cep := BuildOfflineCepItems(manifest)[i];
      var specs := BuildOfflineSpecialties(areas);
      assert p.items[i] == OfflineSuggestFor(specs)(cep);
      RankShape(specs, OfflineScoreAgainst(cep), OfflineMinScore);
      if j < |p.items[i].candidates| {
        RankMember(specs, OfflineScoreAgainst(cep), OfflineMinScore, j);
      }
    }
  }
}

=== FILE: ranking.dfy ===
/** Candidate ranking for one CEP item: score every specialty, keep the
    candidates at or above the minimum score, sort them by descending score
    (a stable sort, as `Array.prototype.sort` is) and keep the first five.
    Generic in the specialty type and the scorer, so the service and the
    offline generator share it. */
module Ranking {
  import opened Common
  import opened Seqs

  datatype Candidate<S> = Candidate(score: real, specialty: S)

  /** At most this many candidates are kept per item. */
  const MaxCandidates: nat := 5

  /** Every specialty with its score, in catalog order. */
  function ScoreAll<S>(specs: seq<S>, score: S -> real): (r: seq<Candidate<S>>)
    ensures |r| == |specs|
    ensures forall i :: 0 <= i < |r| ==> r[i] == Candidate(score(specs[i]), specs[i])
  {
    Map(specs, (s: S) => Candidate(score(s), s))
  }

  /** `candidate.score >= minScore`. */
  function AtLeast<S>(minScore: real): Candidate<S> -> bool
  {
    (c: Candidate<S>) => c.score >= minScore
  }

  /** Candidates scoring exactly `v`. */
  function HasScore<S>(v: real): Candidate<S> -> bool
  {
    (c: Candidate<S>) => c.score == v
  }

  predicate SortedDesc<S>(cs: seq<Candidate<S>>)
  {
    forall i, j :: 0 <= i < j < |cs| ==> cs[i].score >= cs[j].score
  }

  /** Places `x` before the first candidate whose score does not exceed
      its own: only strictly better candidates stay ahead of it. */
  function Insert<S>(x: Candidate<S>, sorted: seq<Candidate<S>>): (r: seq<Candidate<S>>)
    ensures |r| == |sorted| + 1
    ensures multiset(r) == multiset{x} + multiset(sorted)
  {
    if sorted == [] || x.score >= sorted[0].score then [x] + sorted
    else
      assert sorted == [sorted[0]] + sorted[1..];
      [sorted[0]] + Insert(x, sorted[1..])
  }

  /** `sort((a, b) => b.score - a.score)`: a stable sort by descending
      score. */
  function SortDesc<S>(cs: seq<Candidate<S>>): (r: seq<Candidate<S>>)
    ensures multiset(r) == multiset(cs)
    ensures SortedDesc(r)
  {
    if cs == [] then []
    else
      assert cs == [cs[0]] + cs[1..];
      var rest := SortDesc(cs[1..]);
      InsertSorted(cs[0], rest);
      Insert(cs[0], rest)
  }

  /** The candidates of one item, best first, at most five of them. */
  function Rank<S>(specs: seq<S>, score: S -> real, minScore: real): seq<Candidate<S>>
  {
    var ranked := SortDesc(Qualifying(specs, score, minScore));
    ranked[..Min(MaxCandidates, |ranked|)]
  }

  // ---------------------------------------------------------------------
  // The sort.

  lemma {:induction false} InsertSorted<S>(x: Candidate<S>, sorted: seq<Candidate<S>>)
    requires SortedDesc(sorted)
    ensures SortedDesc(Insert(x, sorted))
  {
    if sorted != [] && x.score < sorted[0].score {
      var rest := Insert(x, sorted[1..]);
      InsertSorted(x, sorted[1..]);
      var r := Insert(x, sorted);
      assert r == [sorted[0]] + rest;
      forall j | 1 <= j < |r| ensures r[0].score >= r[j].score {
        assert r[j] in multiset(rest);
        assert r[j] == x || r[j] in multiset(sorted[1..]);
        if r[j] != x {
          var k :| 0 <= k < |sorted[1..]| && sorted[1..][k] == r[j];
          assert r[j] == sorted[k + 1];
        }
      }
    }
  }

  /** The insertion only moves `x` past candidates that score strictly
      more, so among candidates of any one score the order is that of
      `[x] + sorted`. */
  lemma {:induction false} InsertStable<S>(x: Candidate<S>, sorted: seq<Candidate<S>>, v: real)
    ensures Filter(Insert(x, sorted), HasScore(v)) == Filter([x] + sorted, HasScore(v))
  {
    if sorted != [] && x.score < sorted[0].score {
      var p := HasScore<S>(v);
      var head := sorted[0];
      InsertStable(x, sorted[1..], v);
      FilterAppend([head], Insert(x, sorted[1..]), p);
      FilterAppend([x], sorted[1..], p);
      FilterAppend([head], sorted[1..], p);
      FilterAppend([x], sorted, p);
      assert sorted == [head] + sorted[1..];
      assert Filter([x], p) == [] || Filter([head], p) == [];
    }
  }

  /** The sort is stable: the candidates of any one score come out in the
      order they went in. */
  lemma {:induction false} SortDescStable<S>(cs: seq<Candidate<S>>, v: real)
    ensures Filter(SortDesc(cs), HasScore(v)) == Filter(cs, HasScore(v))
  {
    if cs != [] {
      var p := HasScore<S>(v);
      SortDescStable(cs[1..], v);
      InsertStable(cs[0], SortDesc(cs[1..]), v);
      FilterCons(cs[0], SortDesc(cs[1..]), p);
      FilterCons(cs[0], cs[1..], p);
      assert cs == [cs[0]] + cs[1..];
    }
  }

  // ---------------------------------------------------------------------
  // The ranking.

  /** The qualifying candidates: every specialty scored, those scoring at
      least `minScore` kept. */
  function Qualifying<S>(specs: seq<S>, score: S -> real, minScore: real): seq<Candidate<S>>
  {
    Filter(ScoreAll(specs, score), AtLeast(minScore))
  }

  lemma RankIsPrefix<S>(specs: seq<S>, score: S -> real, minScore: real)
    ensures var ranked := SortDesc(Qualifying(specs, score, minScore));
            && |ranked| == |Qualifying(specs, score, minScore)|
            && Rank(specs, score, minScore) == ranked[..Min(MaxCandidates, |ranked|)]
  {
    var q := Qualifying(specs, score, minScore);
    assert |SortDesc(q)| == |multiset(SortDesc(q))| == |multiset(q)| == |q|;
  }

  /** No more than five candidates, all five when that many qualify, best
      first, and each one of the qualifying candidates. */
  lemma RankShape<S>(specs: seq<S>, score: S -> real, minScore: real)
    ensures var r := Rank(specs, score, minScore);
            var q := Qualifying(specs, score, minScore);
            && |r| == Min(MaxCandidates, |q|)
            && SortedDesc(r)
            && multiset(r) <= multiset(q)
  {
    RankIsPrefix(specs, score, minScore);
    var ranked := SortDesc(Qualifying(specs, score, minScore));
    PrefixOfSorted(ranked, Min(MaxCandidates, |ranked|));
  }

  /** A prefix of a sorted list is sorted and holds some of its
      elements. */
  lemma PrefixOfSorted<S>(cs: seq<Candidate<S>>, k: nat)
    requires SortedDesc(cs) && k <= |cs|
    ensures SortedDesc(cs[..k])
    ensures multiset(cs[..k]) <= multiset(cs)
  {
    assert cs == cs[..k] + cs[k..];
    assert multiset(cs) == multiset(cs[..k]) + multiset(cs[k..]);
  }

  /** Every kept candidate is a specialty of the catalog with its own score,
      and that score reaches `minScore`. */
  lemma RankMember<S>(specs: seq<S>, score: S -> real, minScore: real, i: nat)
    requires i < |Rank(specs, score, minScore)|
    ensures var c := Rank(specs, score, minScore)[i];
            c.score >= minScore && c.specialty in specs && c.score == score(c.specialty)
  {
    RankShape(specs, score, minScore);
    var r := Rank(specs, score, minScore);
    var scored := ScoreAll(specs, score);
    assert r[i] in multiset(r);
    assert r[i] in multiset(Qualifying(specs, score, minScore));
    FilterMember(scored, AtLeast(minScore), r[i]);
    var j :| 0 <= j < |scored| && scored[j] == r[i];
  }

  /** No qualifying candidate left out scores more than one that was
      kept. */
  lemma RankTopK<S>(specs: seq<S>, score: S -> real, minScore: real, c: Candidate<S>, i: nat)
    requires var r := Rank(specs, score, minScore);
             c in multiset(Qualifying(specs, score, minScore)) - multiset(r) && i < |r|
    ensures c.score <= Rank(specs, score, minScore)[i].score
  {
    RankIsPrefix(specs, score, minScore);
    var ranked := SortDesc(Qualifying(specs, score, minScore));
    SortedTail(ranked, Min(MaxCandidates, |ranked|), c, i);
  }

  /** In a sorted list, what lies past position `k` scores no more than
      anything before it. */
  lemma SortedTail<S>(cs: seq<Candidate<S>>, k: nat, c: Candidate<S>, i: nat)
    requires SortedDesc(cs) && i < k <= |cs|
    requires c in multiset(cs) - multiset(cs[..k])
    ensures c.score <= cs[i].score
  {
    assert cs == cs[..k] + cs[k..];
    assert multiset(cs) == multiset(cs[..k]) + multiset(cs[k..]);
    assert c in multiset(cs[k..]);
    var j :| 0 <= j < |cs[k..]| && cs[k..][j] == c;
    assert cs[k + j] == c;
  }

  // ---------------------------------------------------------------------
  // Ranking commutes with a change of record type.

  /** The same candidate with its specialty record replaced by `proj` of
      it. */
  function ProjectCandidate<S, T>(proj: S -> T): Candidate<S> -> Candidate<T>
  {
    (c: Candidate<S>) => Candidate(c.score, proj(c.specialty))
  }

  lemma {:induction false} FilterProjected<S, T>(xs: seq<Candidate<S>>, proj: S -> T, minScore: real)
    ensures Filter(Map(xs, ProjectCandidate(proj)), AtLeast(minScore))
         == Map(Filter(xs, AtLeast(minScore)), ProjectCandidate(proj))
  {
    var pc := ProjectCandidate(proj);
    if xs != [] {
      FilterProjected(xs[1..], proj, minScore);
      assert Map(xs, pc) == [pc(xs[0])] + Map(xs[1..], pc);
      var rest := Filter(xs[1..], AtLeast(minScore));
      if xs[0].score >= minScore {
        assert Map([xs[0]] + rest, pc) == [pc(xs[0])] + Map(rest, pc);
      }
    }
  }

  lemma {:induction false} InsertProjected<S, T>(x: Candidate<S>, l: seq<Candidate<S>>, proj: S -> T)
    ensures Insert(ProjectCandidate(proj)(x), Map(l, ProjectCandidate(proj)))
         == Map(Insert(x, l), ProjectCandidate(proj))
  {
    var pc := ProjectCandidate(proj);
    if l == [] {
      MapCons(x, [], pc);
    } else {
      assert l == [l[0]] + l[1..];
      MapCons(l[0], l[1..], pc);
      if x.score >= l[0].score {
        MapCons(x, l, pc);
      } else {
        InsertProjected(x, l[1..], proj);
        MapCons(l[0], Insert(x, l[1..]), pc);
      }
    }
  }

  lemma {:induction false} SortProjected<S, T>(xs: seq<Candidate<S>>, proj: S -> T)
    ensures SortDesc(Map(xs, ProjectCandidate(proj))) == Map(SortDesc(xs), ProjectCandidate(proj))
  {
    var pc := ProjectCandidate(proj);
    if xs != [] {
      var m := Map(xs, pc);
      assert m[0] == pc(xs[0]);
      assert m[1..] == Map(xs[1..], pc);
      SortProjected(xs[1..], proj);
      InsertProjected(xs[0], SortDesc(xs[1..]), proj);
      assert SortDesc(m) == Insert(m[0], SortDesc(m[1..]));
    }
  }

  /** Ranking records of another type that carry the same scores gives the
      same ranking, record for record: the ranking depends on the scores
      and the catalog order alone. */
  lemma RankProjected<S, T>(specs: seq<S>, score: S -> real, proj: S -> T, score': T -> real, minScore: real)
    requires forall i :: 0 <= i < |specs| ==> score'(proj(specs[i])) == score(specs[i])
    ensures Rank(Map(specs, proj), score', minScore) == Map(Rank(specs, score, minScore), ProjectCandidate(proj))
  {
    var pc := ProjectCandidate(proj);
    var scored := ScoreAll(specs, score);
    assert ScoreAll(Map(specs, proj), score') == Map(scored, pc);
    FilterProjected(scored, proj, minScore);
    var q := Filter(scored, AtLeast(minScore));
    SortProjected(q, proj);
    var ranked := SortDesc(q);
    var k := Min(MaxCandidates, |ranked|);
    assert Map(ranked, pc)[..k] == Map(ranked[..k], pc);
  }
}

=== FILE: remove_bg.dfy ===
/** The background remover for the CEP thumbnails: its option parsing, its
    pixel access on the RGBA byte array of the canvas, and the search for
    the smallest box holding every visible pixel, used to crop. The colour
    distance, the averaged corner colour, the ellipse mask and the canvas
    itself are left out. */
module RemoveBg {
  import opened Common
  import opened Strings
  import opened Seqs
  import opened JsNumbers
  import opened CliArgs

  // ---------------------------------------------------------------------
  // Options.

  datatype Rgb = Rgb(r: int, g: int, b: int)

  datatype Point = Point(x: real, y: real)

  /** `Number.parseInt(item.trim(), 10)`. */
  function IntPart(item: string): Option<int>
  {
    ParseInt(TrimBy(item, IsJsSpace))
  }

  /** `Number.parseFloat(item.trim())`. */
  function RealPart(item: string): Option<real>
  {
    ParseFloat(TrimBy(item, IsJsSpace))
  }

  /** `parseRgb`: nothing for a falsy value; otherwise the comma-separated
      parts read as integers, which must be exactly three and none `NaN`
      (with three parts, `parts.some(Number.isNaN)` is a test of each);
      the channels are not clamped. */
  function ParseRgb(value: Option<string>): (r: Option<Rgb>)
    ensures IsFalsy(value) ==> r.None?
    ensures !IsFalsy(value) ==>
              var parts := Map(SplitOn(value.value, ','), IntPart);
              && (r.Some? <==> |parts| == 3 && parts[0].Some? && parts[1].Some? && parts[2].Some?)
              && (r.Some? ==> r.value == Rgb(parts[0].value, parts[1].value, parts[2].value))
  {
    if IsFalsy(value) then None
    else
      var parts := Map(SplitOn(value.value, ','), IntPart);
      if |parts| != 3 || parts[0].None? || parts[1].None? || parts[2].None? then None
      else Some(Rgb(parts[0].value, parts[1].value, parts[2].value))
  }

  /** `parsePair`: the same over two decimal numbers. */
  function ParsePair(value: Option<string>): (r: Option<Point>)
    ensures IsFalsy(value) ==> r.None?
    ensures !IsFalsy(value) ==>
              var parts := Map(SplitOn(value.value, ','), RealPart);
              && (r.Some? <==> |parts| == 2 && parts[0].Some? && parts[1].Some?)
              && (r.Some? ==> r.value == Point(parts[0].value, parts[1].value))
  {
    if IsFalsy(value) then None
    else
      var parts := Map(SplitOn(value.value, ','), RealPart);
      if |parts| != 2 || parts[0].None? || parts[1].None? then None
      else Some(Point(parts[0].value, parts[1].value))
  }

  /** A printed integer is its own trimmed, comma-free part. */
  lemma IntPartShowInt(n: int)
    ensures IntPart(ShowInt(n)) == Some(n)
    ensures ',' !in ShowInt(n)
  {
    ShowIntShape(n);
    TrimByFixed(ShowInt(n), IsJsSpace);
    ParseIntShowInt(n, []);
    assert ShowInt(n) + [] == ShowInt(n);
  }

  /** Three pieces without commas, joined by commas, split back into the
      three pieces. */
  lemma SplitThree(a: string, b: string, c: string)
    requires ',' !in a && ',' !in b && ',' !in c
    ensures SplitOn(a + "," + b + "," + c, ',') == [a, b, c]
  {
    var tail := b + "," + c;
    assert a + "," + b + "," + c == a + [','] + tail;
    assert tail == b + [','] + c;
    SplitOnNoSep(c, ',');
    SplitOnFirst(b, c, ',');
    SplitOnFirst(a, tail, ',');
  }

  /** Three printed integers joined by commas read back as that colour,
      whatever their range: `parseRgb` does not clamp. */
  lemma {:induction false} ParseRgbShowInt(r: int, g: int, b: int)
    ensures ParseRgb(Some(ShowInt(r) + "," + ShowInt(g) + "," + ShowInt(b))) == Some(Rgb(r, g, b))
  {
    IntPartShowInt(r);
    IntPartShowInt(g);
    IntPartShowInt(b);
    SplitThree(ShowInt(r), ShowInt(g), ShowInt(b));
    var text := ShowInt(r) + "," + ShowInt(g) + "," + ShowInt(b);
    var pieces := SplitOn(text, ',');
    var parts := Map(pieces, IntPart);
    assert pieces[0] == ShowInt(r) && pieces[1] == ShowInt(g) && pieces[2] == ShowInt(b);
    assert parts[0] == Some(r) && parts[1] == Some(g) && parts[2] == Some(b);
    assert !IsFalsy(Some(text));
  }

  /** A printed integer is its own trimmed, comma-free decimal part. */
  lemma RealPartShowInt(n: int)
    ensures RealPart(ShowInt(n)) == Some(n as real)
    ensures ',' !in ShowInt(n)
  {
    ShowIntShape(n);
    TrimByFixed(ShowInt(n), IsJsSpace);
    ParseFloatShowInt(n);
  }

  /** Two pieces without commas, joined by a comma, split back into the
      two pieces. */
  lemma SplitTwo(a: string, b: string)
    requires ',' !in a && ',' !in b
    ensures SplitOn(a + "," + b, ',') == [a, b]
  {
    assert a + "," + b == a + [','] + b;
    SplitOnNoSep(b, ',');
    SplitOnFirst(a, b, ',');
  }

  /** Two printed integers joined by a comma read back as that point. */
  lemma {:induction false} ParsePairShowInt(x: int, y: int)
    ensures ParsePair(Some(ShowInt(x) + "," + ShowInt(y))) == Some(Point(x as real, y as real))
  {
    RealPartShowInt(x);
    RealPartShowInt(y);
    SplitTwo(ShowInt(x), ShowInt(y));
    var text := ShowInt(x) + "," + ShowInt(y);
    var pieces := SplitOn(text, ',');
    var parts := Map(pieces, RealPart);
    assert pieces[0] == ShowInt(x) && pieces[1] == ShowInt(y);
    assert parts[0] == Some(x as real) && parts[1] == Some(y as real);
    assert !IsFalsy(Some(text));
  }

  /** `parseBool`: the default for an absent value, otherwise whether the
      value is "true" in any letter case. */
  function ParseBool(value: Option<string>, defaultValue: bool): (r: bool)
    ensures value.None? ==> r == defaultValue
    ensures value.Some? ==> (r <==> Lower(value.value) == "true")
  {
    match value
    case None => defaultValue
    case Some(s) => Lower(s) == "true"
  }

  /** A given value decides alone: the default only stands in for an
      absent one, and "TRUE" reads as true. */
  lemma ParseBoolIgnoresDefault(s: string)
    ensures ParseBool(Some(s), false) == ParseBool(Some(s), true)
    ensures ParseBool(Some("TRUE"), false)
    ensures !ParseBool(Some(""), true)
  {
    assert Lower("TRUE") == "true";
  }

  /** `clampChannel`: the value held into `[0, 255]`. */
  function ClampChannel(value: int): (r: int)
    ensures 0 <= r <= 255
    ensures 0 <= value <= 255 ==> r == value
    ensures value < 0 ==> r == 0
    ensures value > 255 ==> r == 255
  {
    Max(0, Min(255, value))
  }

  /** Clamping keeps the order of values and clamping twice is clamping
      once. */
  lemma ClampChannelMonotone(a: int, b: int)
    requires a <= b
    ensures ClampChannel(a) <= ClampChannel(b)
    ensures ClampChannel(ClampChannel(a)) == ClampChannel(a)
  {
  }

  /** The options `run` reads: `--in` and `--out` are required (the script
      exits with 1 when either is falsy); the rest have defaults. The
      tolerance and the padding stay as the numbers parsed (`None` for
      `NaN`). */
  datatype Options = Options(
    input: string,
    output: string,
    tolerance: Option<real>,
    crop: bool,
    bg: Option<Rgb>,
    ellipse: bool,
    padding: Option<real>,
    center: Option<Point>)

  /** `(args.crop || 'true').toLowerCase() !== 'false'`. */
  predicate CropFlag(value: Option<string>)
  {
    Lower(OrElse(value, "true")) != "false"
  }

  function ReadOptions(config: Config): (r: Result<Options>)
    ensures r.Err? <==> IsFalsy(Lookup(config, "in")) || IsFalsy(Lookup(config, "out"))
    ensures r.Ok? ==> r.value.input == Lookup(config, "in").value && r.value.output == Lookup(config, "out").value
    ensures r.Ok? ==> r.value.ellipse == ParseBool(Lookup(config, "ellipse"), false)
    ensures r.Ok? ==> r.value.crop == CropFlag(Lookup(config, "crop"))
    ensures r.Ok? ==> r.value.bg == ParseRgb(Lookup(config, "bg")) && r.value.center == ParsePair(Lookup(config, "center"))
    ensures r.Ok? ==> r.value.tolerance == ParseFloat(OrElse(Lookup(config, "tolerance"), "30"))
    ensures r.Ok? ==> r.value.padding == ParseFloat(OrElse(Lookup(config, "padding"), "0"))
  {
    var input := Lookup(config, "in");
    var output := Lookup(config, "out");
    if IsFalsy(input) || IsFalsy(output) then Err("Uso: node remove-bg.js --in <ruta.png> --out <ruta.png>")
    else
      Ok(Options(
        input.value,
        output.value,
        ParseFloat(OrElse(Lookup(config, "tolerance"), "30")),
        CropFlag(Lookup(config, "crop")),
        ParseRgb(Lookup(config, "bg")),
        ParseBool(Lookup(config, "ellipse"), false),
        ParseFloat(OrElse(Lookup(config, "padding"), "0")),
        ParsePair(Lookup(config, "center"))))
  }

  /** Without `--crop`, the output is cropped. */
  lemma CropByDefault(config: Config)
    requires ReadOptions(config).Ok? && Lookup(config, "crop").None?
    ensures ReadOptions(config).value.crop
  {
    CropFlagCases();
  }

  /** `--crop` is off only for "false" in any letter case: absent, empty
      or "true" leave it on, "FALSE" turns it off as "false" does. */
  lemma CropFlagCases()
    ensures CropFlag(None) && CropFlag(Some("")) && CropFlag(Some("true"))
    ensures !CropFlag(Some("false")) && !CropFlag(Some("FALSE"))
  {
    assert Lower("true") == "true";
    assert Lower("false") == "false";
    assert Lower("FALSE") == "false";
  }

  // ---------------------------------------------------------------------
  // Pixels.

  /** A byte of the canvas's `Uint8ClampedArray`. */
  newtype byte = x: int | 0 <= x < 256

  /** Four channels read from the array; a read past its end is
      `undefined`. */
  datatype Pixel = Pixel(r: Option<byte>, g: Option<byte>, b: Option<byte>, a: Option<byte>)

  /** `data[k]`: `undefined` outside the array. */
  function ByteAt(data: seq<byte>, k: int): (r: Option<byte>)
    ensures r.Some? <==> 0 <= k < |data|
    ensures r.Some? ==> r.value == data[k]
  {
    if 0 <= k < |data| then Some(data[k]) else None
  }

  /** The first byte of pixel `(x, y)`: `(y * width + x) * 4`. */
  function PixelIndex(width: int, x: int, y: int): int
  {
    (y * width + x) * 4
  }

  /** `getPixel`: the four bytes from the pixel's first byte on, in the
      order red, green, blue, alpha. */
  function GetPixel(data: seq<byte>, width: int, x: int, y: int): Pixel
  {
    var idx := PixelIndex(width, x, y);
    Pixel(ByteAt(data, idx), ByteAt(data, idx + 1), ByteAt(data, idx + 2), ByteAt(data, idx + 3))
  }

  /** `setAlpha`: the byte `idx + 3` of the pixel set to `alpha`. A typed
      array ignores a write outside its bounds. */
  function SetAlpha(data: seq<byte>, width: int, x: int, y: int, alpha: byte): (r: seq<byte>)
    ensures |r| == |data|
    ensures forall k :: 0 <= k < |data| && k != PixelIndex(width, x, y) + 3 ==> r[k] == data[k]
    ensures 0 <= PixelIndex(width, x, y) + 3 < |data| ==> r[PixelIndex(width, x, y) + 3] == alpha
  {
    var k := PixelIndex(width, x, y) + 3;
    if 0 <= k < |data| then data[k := alpha] else data
  }

  /** Reading the pixel back after setting its alpha gives the same colour
      and the new alpha, when the pixel lies in the array. */
  lemma GetPixelAfterSetAlpha(data: seq<byte>, width: int, x: int, y: int, alpha: byte)
    requires 0 <= PixelIndex(width, x, y) && PixelIndex(width, x, y) + 3 < |data|
    ensures GetPixel(SetAlpha(data, width, x, y, alpha), width, x, y) == GetPixel(data, width, x, y).(a := Some(alpha))
  {
  }

  /** Two different pixels of a row-major image of width `width` start at
      different bytes. */
  lemma {:induction false} PixelIndexInjective(width: int, x: int, y: int, x2: int, y2: int)
    requires 0 <= x < width && 0 <= x2 < width
    requires PixelIndex(width, x, y) == PixelIndex(width, x2, y2)
    ensures x == x2 && y == y2
  {
    assert y * width + x == y2 * width + x2;
    assert (y - y2) * width == x2 - x;
    MulGap(y - y2, width);
  }

  /** A non-zero multiple of a positive number is at least that number
      away from zero. */
  lemma {:induction false} MulGap(d: int, w: int)
    requires w > 0
    ensures d >= 1 ==> d * w >= w
    ensures d <= -1 ==> d * w <= -w
  {
    if d >= 1 {
      assert d * w == (d - 1) * w + w;
      assert (d - 1) * w >= 0;
    } else if d <= -1 {
      assert d * w == (d + 1) * w - w;
      assert (-d - 1) * w >= 0;
    }
  }

  /** Setting the alpha of one pixel leaves every other pixel of the image
      as it was. */
  lemma SetAlphaOtherPixel(data: seq<byte>, width: int, x: int, y: int, alpha: byte, x2: int, y2: int)
    requires 0 <= x < width && 0 <= x2 < width && (x, y) != (x2, y2)
    ensures GetPixel(SetAlpha(data, width, x, y, alpha), width, x2, y2) == GetPixel(data, width, x2, y2)
  {
    if PixelIndex(width, x, y) == PixelIndex(width, x2, y2) {
      PixelIndexInjective(width, x, y, x2, y2);
    }
    var i := PixelIndex(width, x, y);
    var j := PixelIndex(width, x2, y2);
    assert i != j;
    assert i % 4 == 0 && j % 4 == 0;
  }

  // ---------------------------------------------------------------------
  // The crop box.

  /** The alpha byte of pixel `(x, y)` is in the array and above zero; a
      read past the array gives `undefined`, which is not above zero. */
  predicate Opaque(data: seq<byte>, width: int, x: int, y: int)
  {
    var alpha := ByteAt(data, PixelIndex(width, x, y) + 3);
    alpha.Some? && alpha.value > 0
  }

  /** A pixel of the image that is not fully transparent. */
  predicate Visible(data: seq<byte>, width: nat, height: nat, x: int, y: int)
  {
    0 <= x < width && 0 <= y < height && Opaque(data, width, x, y)
  }

  /** The crop rectangle: its top-left pixel and its size. */
  datatype Box = Box(x: int, y: int, width: int, height: int)

  /** The last column and the last row of a box. */
  function Right(b: Box): int
  {
    b.x + b.width - 1
  }

  function Bottom(b: Box): int
  {
    b.y + b.height - 1
  }

  predicate InBox(b: Box, x: int, y: int)
  {
    b.x <= x < b.x + b.width && b.y <= y < b.y + b.height
  }

  ghost predicate AnyVisible(data: seq<byte>, width: nat, height: nat)
  {
    exists x, y :: Visible(data, width, height, x, y)
  }

  /** The smallest box around the visible pixels: it lies inside the
      image, is at least one pixel wide and high, holds every visible
      pixel, and each of its four edges passes through a visible pixel. */
  ghost predicate IsBoundingBox(data: seq<byte>, width: nat, height: nat, b: Box)
  {
    && 0 <= b.x && 1 <= b.width && b.x + b.width <= width
    && 0 <= b.y && 1 <= b.height && b.y + b.height <= height
    && (forall x, y :: Visible(data, width, height, x, y) ==> InBox(b, x, y))
    && (exists y :: Visible(data, width, height, b.x, y))
    && (exists y :: Visible(data, width, height, Right(b), y))
    && (exists x :: Visible(data, width, height, x, b.y))
    && (exists x :: Visible(data, width, height, x, Bottom(b)))
  }

  /** Only one box is the bounding box of an image. */
  lemma BoundingBoxUnique(data: seq<byte>, width: nat, height: nat, b1: Box, b2: Box)
    requires IsBoundingBox(data, width, height, b1) && IsBoundingBox(data, width, height, b2)
    ensures b1 == b2
  {
    var y1 :| Visible(data, width, height, b1.x, y1);
    var y2 :| Visible(data, width, height, b2.x, y2);
    assert InBox(b2, b1.x, y1) && InBox(b1, b2.x, y2);
    var y3 :| Visible(data, width, height, Right(b1), y3);
    var y4 :| Visible(data, width, height, Right(b2), y4);
    assert InBox(b2, Right(b1), y3) && InBox(b1, Right(b2), y4);
    var x1 :| Visible(data, width, height, x1, b1.y);
    var x2 :| Visible(data, width, height, x2, b2.y);
    assert InBox(b2, x1, b1.y) && InBox(b1, x2, b2.y);
    var x3 :| Visible(data, width, height, x3, Bottom(b1));
    var x4 :| Visible(data, width, height, x4, Bottom(b2));
    assert InBox(b2, x3, Bottom(b1)) && InBox(b1, x4, Bottom(b2));
  }

  /** `minX`, `minY`, `maxX` and `maxY` of the scan. */
  datatype Extent = Extent(minX: int, minY: int, maxX: int, maxY: int)

  /** The values before the scan: nothing seen yet. */
  function Unseen(width: nat, height: nat): Extent
  {
    Extent(width, height, -1, -1)
  }

  /** Pixel `(x, y)` comes before pixel `(px, py)` in row-major order. */
  predicate Before(x: int, y: int, px: int, py: int)
  {
    y < py || (y == py && x < px)
  }

  /** What the scan knows once it has visited every pixel before
      `(px, py)`: nothing seen and the initial values, or the extremes
      of the visible pixels visited so far, each reached by one of them. */
  ghost predicate Covers(data: seq<byte>, width: nat, height: nat, e: Extent, px: int, py: int)
  {
    if e.maxX < 0 then
      && e == Unseen(width, height)
      && forall x, y :: Visible(data, width, height, x, y) ==> !Before(x, y, px, py)
    else
      && 0 <= e.minX <= e.maxX < width
      && 0 <= e.minY <= e.maxY < height && e.maxY <= py
      && (forall x, y :: Visible(data, width, height, x, y) && Before(x, y, px, py) ==>
            e.minX <= x <= e.maxX && e.minY <= y <= e.maxY)
      && (exists y :: Visible(data, width, height, e.minX, y))
      && (exists y :: Visible(data, width, height, e.maxX, y))
      && (exists x :: Visible(data, width, height, x, e.minY))
      && (exists x :: Visible(data, width, height, x, e.maxY))
  }

  /** One turn of the inner loop of `findBounds`: a pixel whose alpha is
      above zero widens the extremes to take it in. */
  function Visit(data: seq<byte>, width: nat, e: Extent, x: int, y: int): Extent
  {
    if Opaque(data, width, x, y) then
      Extent(Min(e.minX, x), Min(e.minY, y), Max(e.maxX, x), Max(e.maxY, y))
    else e
  }

  lemma VisitCovers(data: seq<byte>, width: nat, height: nat, e: Extent, px: int, py: int)
    requires 0 <= px < width && 0 <= py < height
    requires Covers(data, width, height, e, px, py)
    ensures Covers(data, width, height, Visit(data, width, e, px, py), px + 1, py)
  {
    if Opaque(data, width, px, py) {
      assert Visible(data, width, height, px, py);
      if e.maxX >= 0 {
        WidenCovers(data, width, height, e, px, py);
      } else {
        assert Visit(data, width, e, px, py) == Extent(px, py, px, py);
      }
    }
  }

  /** A visible pixel after others widens the extremes without losing
      the pixels that reach them. */
  lemma WidenCovers(data: seq<byte>, width: nat, height: nat, e: Extent, px: int, py: int)
    requires 0 <= px < width && 0 <= py < height && e.maxX >= 0
    requires Visible(data, width, height, px, py)
    requires Covers(data, width, height, e, px, py)
    ensures Covers(data, width, height, Visit(data, width, e, px, py), px + 1, py)
  {
    var e2 := Visit(data, width, e, px, py);
    assert e2.minY == e.minY;
    assert exists y :: Visible(data, width, height, e2.minX, y) by {
      if px < e.minX { assert e2.minX == px; } else { assert e2.minX == e.minX; }
    }
    assert exists y :: Visible(data, width, height, e2.maxX, y) by {
      if px > e.maxX { assert e2.maxX == px; } else { assert e2.maxX == e.maxX; }
    }
    assert exists x :: Visible(data, width, height, x, e2.maxY) by {
      if py > e.maxY { assert e2.maxY == py; } else { assert e2.maxY == e.maxY; }
    }
  }

  /** The end of a row is the start of the next one. */
  lemma NextRowCovers(data: seq<byte>, width: nat, height: nat, e: Extent, py: int)
    requires Covers(data, width, height, e, width, py)
    ensures Covers(data, width, height, e, 0, py + 1)
  {
  }

  /** The result of `findBounds` from the final extremes: `null` when
      nothing was seen in either direction, otherwise the box from the
      smallest to the largest column and row. */
  function BoxOf(e: Extent): Option<Box>
  {
    if e.maxX < e.minX || e.maxY < e.minY then None
    else Some(Box(e.minX, e.minY, e.maxX - e.minX + 1, e.maxY - e.minY + 1))
  }

  /** After the whole image, the extremes give the bounding box, or
      nothing exactly when no pixel is visible. */
  lemma BoxOfCovers(data: seq<byte>, width: nat, height: nat, e: Extent)
    requires Covers(data, width, height, e, 0, height)
    ensures BoxOf(e).None? <==> !AnyVisible(data, width, height)
    ensures BoxOf(e).Some? ==> IsBoundingBox(data, width, height, BoxOf(e).value)
  {
    if e.maxX >= 0 {
      SeenBoxOf(data, width, height, e);
    } else {
      UnseenBoxOf(data, width, height, e);
    }
  }

  lemma UnseenBoxOf(data: seq<byte>, width: nat, height: nat, e: Extent)
    requires e.maxX < 0 && Covers(data, width, height, e, 0, height)
    ensures BoxOf(e).None? && !AnyVisible(data, width, height)
  {
    forall x, y | Visible(data, width, height, x, y)
      ensures Before(x, y, 0, height)
    {
    }
  }

  lemma SeenBoxOf(data: seq<byte>, width: nat, height: nat, e: Extent)
    requires e.maxX >= 0 && Covers(data, width, height, e, 0, height)
    ensures BoxOf(e).Some? && AnyVisible(data, width, height)
    ensures IsBoundingBox(data, width, height, BoxOf(e).value)
  {
    var b := Box(e.minX, e.minY, e.maxX - e.minX + 1, e.maxY - e.minY + 1);
    assert BoxOf(e) == Some(b);
    assert Right(b) == e.maxX && Bottom(b) == e.maxY;
    var y :| Visible(data, width, height, e.minX, y);
    assert AnyVisible(data, width, height);
    forall x, y | Visible(data, width, height, x, y)
      ensures InBox(b, x, y)
    {
      assert Before(x, y, 0, height);
    }
  }

  /** `findBounds`: scans the pixels row by row and answers the bounding
      box of the pixels whose alpha is above zero, or `null` when there is
      none. The dimensions come from a canvas and are never negative. */
  method FindBounds(data: seq<byte>, width: nat, height: nat) returns (r: Option<Box>)
    ensures r.None? <==> !AnyVisible(data, width, height)
    ensures r.Some? ==> IsBoundingBox(data, width, height, r.value)
  {
    var e := Unseen(width, height);
    var y := 0;
    while y < height
      invariant 0 <= y <= height
      invariant Covers(data, width, height, e, 0, y)
    {
      var x := 0;
      while x < width
        invariant 0 <= x <= width
        invariant Covers(data, width, height, e, x, y)
      {
        VisitCovers(data, width, height, e, x, y);
        e := Visit(data, width, e, x, y);
        x := x + 1;
      }
      NextRowCovers(data, width, height, e, y);
      y := y + 1;
    }
    BoxOfCovers(data, width, height, e);
    r := BoxOf(e);
  }
}

=== FILE: seqs.dfy ===
/** `Array.prototype.map`, `filter` and `flatMap` over sequences, with the
    facts the catalog, ranking and pagination proofs use. */
module Seqs {
  import opened Common

  function Map<A, B>(xs: seq<A>, f: A -> B): (r: seq<B>)
    ensures |r| == |xs|
    ensures forall i :: 0 <= i < |xs| ==> r[i] == f(xs[i])
  {
    seq(|xs|, i requires 0 <= i < |xs| => f(xs[i]))
  }

  /** The elements of `xs` that pass `p`, in their original order. */
  function Filter<T>(xs: seq<T>, p: T -> bool): (r: seq<T>)
    ensures |r| <= |xs|
  {
    if xs == [] then [] else (if p(xs[0]) then [xs[0]] else []) + Filter(xs[1..], p)
  }

  /** A loop that applies `f` to each element in order and stops at the
      first error: the error of the first element that fails, or every
      result. */
  function CollectOk<A, B>(xs: seq<A>, f: A -> Result<B>): (r: Result<seq<B>>)
    ensures r.Ok? <==> forall i :: 0 <= i < |xs| ==> f(xs[i]).Ok?
    ensures r.Ok? ==> |r.value| == |xs| && forall i :: 0 <= i < |xs| ==> f(xs[i]) == Ok(r.value[i])
    ensures r.Err? ==> exists k :: 0 <= k < |xs| && f(xs[k]) == Err(r.message) && forall j :: 0 <= j < k ==> f(xs[j]).Ok?
  {
    if xs == [] then Ok([])
    else
      match f(xs[0])
      case Err(m) => Err(m)
      case Ok(first) =>
        var rest := CollectOk(xs[1..], f);
        assert forall i :: 1 <= i < |xs| ==> xs[i] == xs[1..][i - 1];
        match rest
        case Err(m) =>
          var k :| 0 <= k < |xs[1..]| && f(xs[1..][k]) == Err(m) && forall j :: 0 <= j < k ==> f(xs[1..][j]).Ok?;
          assert f(xs[k + 1]) == Err(m);
          Err(m)
        case Ok(tail) => Ok([first] + tail)
  }

  /** `xs.flatMap(f)`: the results of `f`, concatenated in order. */
  function FlatMap<A, B>(xs: seq<A>, f: A -> seq<B>): seq<B>
  {
    if xs == [] then [] else f(xs[0]) + FlatMap(xs[1..], f)
  }

  /** The sum of the lengths of the pieces `FlatMap` concatenates. */
  function TotalLength<A, B>(xs: seq<A>, f: A -> seq<B>): nat
  {
    if xs == [] then 0 else |f(xs[0])| + TotalLength(xs[1..], f)
  }

  lemma {:induction false} FilterMembership<T>(xs: seq<T>, p: T -> bool)
    ensures forall x :: x in Filter(xs, p) <==> x in xs && p(x)
  {
    if xs != [] {
      FilterMembership(xs[1..], p);
      assert xs == [xs[0]] + xs[1..];
    }
  }

  /** A kept element comes from the input and passes the test. */
  lemma FilterMember<T>(xs: seq<T>, p: T -> bool, x: T)
    requires x in Filter(xs, p)
    ensures x in xs && p(x)
  {
    FilterMembership(xs, p);
  }

  lemma {:induction false} FilterAppend<T>(xs: seq<T>, ys: seq<T>, p: T -> bool)
    ensures Filter(xs + ys, p) == Filter(xs, p) + Filter(ys, p)
  {
    if xs == [] {
      assert xs + ys == ys;
    } else {
      var xys := xs + ys;
      assert xys[0] == xs[0];
      assert xys[1..] == xs[1..] + ys;
      FilterAppend(xs[1..], ys, p);
      calc {
        Filter(xys, p);
        (if p(xs[0]) then [xs[0]] else []) + Filter(xs[1..] + ys, p);
        (if p(xs[0]) then [xs[0]] else []) + (Filter(xs[1..], p) + Filter(ys, p));
      }
    }
  }

  /** Filtering keeps everything exactly when everything passes. */
  lemma {:induction false} FilterAll<T>(xs: seq<T>, p: T -> bool)
    requires forall i :: 0 <= i < |xs| ==> p(xs[i])
    ensures Filter(xs, p) == xs
  {
    if xs != [] {
      FilterAll(xs[1..], p);
    }
  }

  lemma {:induction false} FlatMapAppend<A, B>(xs: seq<A>, ys: seq<A>, f: A -> seq<B>)
    ensures FlatMap(xs + ys, f) == FlatMap(xs, f) + FlatMap(ys, f)
    ensures TotalLength(xs + ys, f) == TotalLength(xs, f) + TotalLength(ys, f)
  {
    if xs == [] {
      assert xs + ys == ys;
    } else {
      assert (xs + ys)[1..] == xs[1..] + ys;
      FlatMapAppend(xs[1..], ys, f);
    }
  }

  lemma {:induction false} FlatMapLength<A, B>(xs: seq<A>, f: A -> seq<B>)
    ensures |FlatMap(xs, f)| == TotalLength(xs, f)
  {
    if xs != [] {
      FlatMapLength(xs[1..], f);
    }
  }

  /** Element `j` of piece `k` sits at offset `TotalLength(xs[..k], f) + j`
      of the concatenation. */
  lemma FlatMapIndex<A, B>(xs: seq<A>, f: A -> seq<B>, k: nat, j: nat)
    requires k < |xs| && j < |f(xs[k])|
    ensures TotalLength(xs[..k], f) + j < |FlatMap(xs, f)|
    ensures FlatMap(xs, f)[TotalLength(xs[..k], f) + j] == f(xs[k])[j]
  {
    assert xs == xs[..k] + ([xs[k]] + xs[k + 1..]);
    FlatMapAppend(xs[..k], [xs[k]] + xs[k + 1..], f);
    FlatMapLength(xs[..k], f);
    FlatMapLength(xs, f);
    assert FlatMap([xs[k]] + xs[k + 1..], f) == f(xs[k]) + FlatMap(xs[k + 1..], f);
  }

  /** Every element of the concatenation comes from some piece. */
  lemma {:induction false} FlatMapOrigin<A, B>(xs: seq<A>, f: A -> seq<B>, y: B)
    requires y in FlatMap(xs, f)
    ensures exists k :: 0 <= k < |xs| && y in f(xs[k])
  {
    if y !in f(xs[0]) {
      FlatMapOrigin(xs[1..], f, y);
      var k :| 0 <= k < |xs[1..]| && y in f(xs[1..][k]);
      assert y in f(xs[k + 1]);
    }
  }

  lemma MapCons<A, B>(x: A, xs: seq<A>, f: A -> B)
    ensures Map([x] + xs, f) == [f(x)] + Map(xs, f)
  {
  }

  lemma FilterCons<T>(x: T, xs: seq<T>, p: T -> bool)
    ensures Filter([x] + xs, p) == (if p(x) then [x] else []) + Filter(xs, p)
  {
    assert ([x] + xs)[1..] == xs;
  }

  /** A sequence with one more element in front ends where its tail ends. */
  lemma LastOfCons<T>(x: T, tail: seq<T>, whole: seq<T>)
    requires tail != [] && whole == [x] + tail
    ensures whole[|whole| - 1] == tail[|tail| - 1]
  {
  }

  lemma MapAppend<A, B>(xs: seq<A>, ys: seq<A>, f: A -> B)
    ensures Map(xs + ys, f) == Map(xs, f) + Map(ys, f)
  {
  }

  /** Flattening pieces that are images of other pieces under `h` gives the
      image under `h` of the other flattening. */
  lemma {:induction false} FlatMapMapped<A, B, C>(xs: seq<A>, f: A -> seq<B>, g: A -> seq<C>, h: B -> C)
    requires forall i :: 0 <= i < |xs| ==> g(xs[i]) == Map(f(xs[i]), h)
    ensures FlatMap(xs, g) == Map(FlatMap(xs, f), h)
  {
    if xs != [] {
      FlatMapMapped(xs[1..], f, g, h);
      MapAppend(f(xs[0]), FlatMap(xs[1..], f), h);
    }
  }
  /** `xs.findIndex(p)`: the first position whose element passes `p`, or
      -1 when none does. */
  function FindIndex<T>(xs: seq<T>, p: T -> bool): (r: int)
    ensures -1 <= r < |xs|
    ensures r >= 0 ==> p(xs[r]) && forall i :: 0 <= i < r ==> !p(xs[i])
    ensures r == -1 <==> forall i :: 0 <= i < |xs| ==> !p(xs[i])
  {
    if xs == [] then -1
    else if p(xs[0]) then 0
    else
      var r := FindIndex(xs[1..], p);
      if r == -1 then -1 else r + 1
  }

  /** `xs.find(p)`: the first element that passes `p`, or nothing. */
  function Find<T>(xs: seq<T>, p: T -> bool): (r: Option<T>)
    ensures r.None? <==> forall i :: 0 <= i < |xs| ==> !p(xs[i])
    ensures r.Some? ==> exists k :: 0 <= k < |xs| && xs[k] == r.value && p(xs[k]) && forall i :: 0 <= i < k ==> !p(xs[i])
  {
    var k := FindIndex(xs, p);
    if k == -1 then None else Some(xs[k])
  }
}

=== FILE: slugify.dfy ===
/** The backend's `slugify`: lower-case, trim, every run of white space to
    one hyphen, drop everything outside `[A-Za-z0-9_-]`, collapse runs of
    hyphens. */
module SlugifyJs {
  import opened Strings
  import opened Seqs

  /** The regular-expression class `\w`. */
  predicate IsWordChar(c: char) { IsAsciiAlnum(c) || c == '_' }

  /** The class `[\w\-]` the second replacement keeps. */
  predicate IsWordOrHyphen(c: char) { IsWordChar(c) || c == '-' }

  /** The characters a slug is made of: `[a-z0-9_-]`. */
  predicate IsSlugChar(c: char) { IsLowerAlnum(c) || c == '_' || c == '-' }

  /** The shape every slug has: slug characters only, and no hyphen
      directly after another. */
  predicate IsSlug(s: string)
  {
    && (forall i :: 0 <= i < |s| ==> IsSlugChar(s[i]))
    && HyphensSeparated(s)
  }

  /** No hyphen directly after another. */
  predicate HyphensSeparated(s: string)
  {
    forall i :: 0 <= i < |s| - 1 && s[i] == '-' ==> s[i + 1] != '-'
  }

  function Slugify(value: string): string
  {
    var trimmed := TrimBy(Lower(value), IsJsSpace);
    var hyphenated := ReplaceRuns(trimmed, IsJsSpace, '-');
    ReplaceRuns(Filter(hyphenated, IsWordOrHyphen), IsHyphen, '-')
  }

  /** Lower-casing and trimming leave no upper-case ASCII letter. */
  lemma TrimmedLower(value: string)
    ensures forall c :: c in TrimBy(Lower(value), IsJsSpace) ==> !IsUpperLetter(c)
  {
    var l := Lower(value);
    var a := TrimByShape(l, IsJsSpace);
    var t := TrimBy(l, IsJsSpace);
    assert forall i :: 0 <= i < |t| ==> t[i] == l[a + i];
  }

  /** Collapsing runs of hyphens leaves no hyphen after another. */
  lemma HyphensApart(s: string)
    ensures HyphensSeparated(ReplaceRuns(s, IsHyphen, '-'))
  {
    ReplaceRunsSeparated(s, IsHyphen, '-');
  }

  /** Every slug has the slug shape. */
  lemma SlugifyShape(value: string)
    ensures IsSlug(Slugify(value))
  {
    var trimmed := TrimBy(Lower(value), IsJsSpace);
    var hyphenated := ReplaceRuns(trimmed, IsJsSpace, '-');
    var kept := Filter(hyphenated, IsWordOrHyphen);
    var r := ReplaceRuns(kept, IsHyphen, '-');
    TrimmedLower(value);
    ReplaceRunsChars(trimmed, IsJsSpace, '-');
    FilterMembership(hyphenated, IsWordOrHyphen);
    ReplaceRunsChars(kept, IsHyphen, '-');
    forall i | 0 <= i < |r| ensures IsSlugChar(r[i]) {
      var c := r[i];
      assert c in r;
      if c != '-' {
        assert c in kept;
        assert c in hyphenated && IsWordOrHyphen(c);
        assert c in trimmed;
      }
    }
    HyphensApart(kept);
    assert Slugify(value) == r;
  }

  /** A slug contains no white space. */
  lemma SlugifyNoSpace(value: string)
    ensures forall i :: 0 <= i < |Slugify(value)| ==> !IsJsSpace(Slugify(value)[i])
  {
    SlugifyShape(value);
  }

  /** A text of the slug shape is its own slug. */
  lemma SlugifyFixed(s: string)
    requires IsSlug(s)
    ensures Slugify(s) == s
  {
    forall i | 0 <= i < |s| ensures !IsUpperLetter(s[i]) && !IsJsSpace(s[i]) && IsWordOrHyphen(s[i]) {
      assert IsSlugChar(s[i]);
    }
    assert Lower(s) == s by { LowerFixed(s); }
    assert TrimBy(s, IsJsSpace) == s by { TrimByFixed(s, IsJsSpace); }
    assert ReplaceRuns(s, IsJsSpace, '-') == s by { ReplaceRunsFixed(s, IsJsSpace, '-'); }
    assert Filter(s, IsWordOrHyphen) == s by { FilterAll(s, IsWordOrHyphen); }
    assert ReplaceRuns(s, IsHyphen, '-') == s by { ReplaceRunsFixed(s, IsHyphen, '-'); }
  }

  /** Slugifying a slug changes nothing. */
  lemma SlugifyIdempotent(value: string)
    ensures Slugify(Slugify(value)) == Slugify(value)
  {
    SlugifyShape(value);
    SlugifyFixed(Slugify(value));
  }

  /** Hyphens at the ends are not stripped: in "a !" the space becomes a
      hyphen, which stays when the "!" is dropped. */
  lemma TrailingHyphenKept(x: char)
    requires IsLowerAlnum(x)
    ensures Slugify([x, ' ', '!']) == [x, '-']
  {
    var v := [x, ' ', '!'];
    LowerFixed(v);
    TrimByFixed(v, IsJsSpace);
    ReplaceRunsMiddle(x, ' ', '!', IsJsSpace, '-');
    KeptExample(x);
    ReplaceRunsFixed([x, '-'], IsHyphen, '-');
  }

  lemma KeptExample(x: char)
    requires IsLowerAlnum(x)
    ensures Filter([x, '-', '!'], IsWordOrHyphen) == [x, '-']
  {
    var bang := ['!'];
    assert bang[1..] == [];
    assert Filter(bang, IsWordOrHyphen) == [];
    assert ['-', '!'][1..] == bang;
    assert Filter(['-', '!'], IsWordOrHyphen) == ['-'];
    assert [x, '-', '!'][1..] == ['-', '!'];
  }
}

=== FILE: strings.dfy ===
/** String operations shared by the JavaScript and Python code paths:
    ASCII case mapping, the JavaScript whitespace class, regular-expression
    style "replace every run" and "strip the ends", splitting
    and joining. Strings are sequences of characters. */
module Strings {
  import opened Seqs

  predicate IsDigit(c: char) { '0' <= c <= '9' }

  predicate IsLowerLetter(c: char) { 'a' <= c <= 'z' }

  predicate IsUpperLetter(c: char) { 'A' <= c <= 'Z' }

  /** The regular-expression class `[a-z0-9]`. */
  predicate IsLowerAlnum(c: char) { IsLowerLetter(c) || IsDigit(c) }

  /** The regular-expression class `[^a-z0-9]`. */
  predicate NotLowerAlnum(c: char) { !IsLowerAlnum(c) }

  /** Letters and digits of either case. */
  predicate IsAsciiAlnum(c: char) { IsLowerAlnum(c) || IsUpperLetter(c) }

  predicate IsSpaceChar(c: char) { c == ' ' }

  predicate IsHyphen(c: char) { c == '-' }

  /** `toLowerCase` restricted to the ASCII letters; every other character
      is left as it is. */
  function LowerChar(c: char): (r: char)
    ensures IsUpperLetter(c) ==> IsLowerLetter(r)
    ensures !IsUpperLetter(c) ==> r == c
  {
    if IsUpperLetter(c) then (c as int + 32) as char else c
  }

  function Lower(s: string): (r: string)
    ensures |r| == |s|
    ensures forall i :: 0 <= i < |s| ==> r[i] == LowerChar(s[i])
  {
    seq(|s|, i requires 0 <= i < |s| => LowerChar(s[i]))
  }

  /** A string without upper-case ASCII letters is its own lower case. */
  lemma LowerFixed(s: string)
    requires forall i :: 0 <= i < |s| ==> !IsUpperLetter(s[i])
    ensures Lower(s) == s
  {
  }

  /** The characters JavaScript's `trim` removes and `\s` matches: the
      white-space characters (tab, vertical tab, form feed, space, no-break
      space, the byte-order mark and the other space separators) and the
      line terminators. */
  predicate IsJsSpace(c: char)
  {
    var n := c as int;
    n == 0x09 || n == 0x0A || n == 0x0B || n == 0x0C || n == 0x0D || n == 0x20
    || n == 0xA0 || n == 0x1680 || (0x2000 <= n <= 0x200A) || n == 0x2028
    || n == 0x2029 || n == 0x202F || n == 0x205F || n == 0x3000 || n == 0xFEFF
  }

  predicate NotJsSpace(c: char) { !IsJsSpace(c) }

  /** Length of the longest prefix of `s` whose characters satisfy `p`. */
  function SpanLength(s: string, p: char -> bool): (n: nat)
    ensures n <= |s|
    ensures forall i :: 0 <= i < n ==> p(s[i])
    ensures n < |s| ==> !p(s[n])
  {
    if s != [] && p(s[0]) then 1 + SpanLength(s[1..], p) else 0
  }

  /** `s` without its longest prefix of characters satisfying `p`. */
  function DropWhile(s: string, p: char -> bool): (r: string)
    ensures |r| <= |s| && r == s[|s| - |r|..]
    ensures forall i :: 0 <= i < |s| - |r| ==> p(s[i])
    ensures r != [] ==> !p(r[0])
  {
    s[SpanLength(s, p)..]
  }

  /** `s` without its longest suffix of characters satisfying `p`. */
  function DropWhileEnd(s: string, p: char -> bool): (r: string)
    ensures |r| <= |s| && r == s[..|r|]
    ensures forall i :: |r| <= i < |s| ==> p(s[i])
    ensures r != [] ==> !p(r[|r| - 1])
  {
    if s != [] && p(s[|s| - 1]) then DropWhileEnd(s[..|s| - 1], p) else s
  }

  /** Strips both ends: JavaScript's `trim` for `IsJsSpace`, Python's
      `strip(chars)` for membership in `chars`. */
  function TrimBy(s: string, p: char -> bool): string
  {
    DropWhileEnd(DropWhile(s, p), p)
  }

  /** Every replacement of a maximal run of characters satisfying `p` by the
      single character `rep`, as a global regular-expression replace of
      the pattern `[class]+` does. */
  function ReplaceRuns(s: string, p: char -> bool, rep: char): string
    decreases |s|
  {
    if s == [] then []
    else if p(s[0]) then [rep] + ReplaceRuns(DropWhile(s[1..], p), p, rep)
    else [s[0]] + ReplaceRuns(s[1..], p, rep)
  }

  /** `s.split(sep)` for a one-character separator, in both JavaScript and
      Python: the pieces between separators, empty pieces included. */
  function SplitOn(s: string, sep: char): (r: seq<string>)
    ensures |r| >= 1
    decreases |s|
  {
    var n := SpanLength(s, c => c != sep);
    if n == |s| then [s] else [s[..n]] + SplitOn(s[n + 1..], sep)
  }

  /** A text without the separator is a single piece. */
  lemma SplitOnNoSep(s: string, sep: char)
    requires sep !in s
    ensures SplitOn(s, sep) == [s]
  {
    assert forall i :: 0 <= i < |s| ==> s[i] != sep;
  }

  /** The first piece ends at the first separator. */
  lemma SplitOnFirst(a: string, b: string, sep: char)
    requires sep !in a
    ensures SplitOn(a + [sep] + b, sep) == [a] + SplitOn(b, sep)
  {
    var s := a + [sep] + b;
    var n := SpanLength(s, c => c != sep);
    assert forall i :: 0 <= i < |a| ==> s[i] == a[i] && s[i] != sep;
    assert s[|a|] == sep;
    assert n == |a|;
    assert s[..n] == a && s[n + 1..] == b;
  }

  /** Splitting at a first separator found by its position. */
  lemma SplitOnAt(s: string, k: nat, sep: char)
    requires k < |s| && s[k] == sep
    requires forall i :: 0 <= i < k ==> s[i] != sep
    ensures SplitOn(s, sep) == [s[..k]] + SplitOn(s[k + 1..], sep)
  {
    var n := SpanLength(s, c => c != sep);
    assert n == k;
  }

  /** `s.split(/\s+/)`: the pieces between maximal runs of white space; a
      leading or trailing run yields an empty first or last piece. */
  function SplitWs(s: string): (r: seq<string>)
    ensures |r| >= 1
    decreases |s|
  {
    var n := SpanLength(s, NotJsSpace);
    if n == |s| then [s] else [s[..n]] + SplitWs(DropWhile(s[n..], IsJsSpace))
  }

  /** `parts.join(sep)`. */
  function Join(parts: seq<string>, sep: string): string
  {
    if |parts| == 0 then []
    else if |parts| == 1 then parts[0]
    else parts[0] + sep + Join(parts[1..], sep)
  }

  predicate StartsWith(s: string, prefix: string)
  {
    |prefix| <= |s| && s[..|prefix|] == prefix
  }

  predicate EndsWith(s: string, suffix: string)
  {
    |suffix| <= |s| && s[|s| - |suffix|..] == suffix
  }

  /** `s.includes(sub)`: `sub` occurs in `s` at some position. */
  predicate Contains(s: string, sub: string)
  {
    exists i :: 0 <= i <= |s| && StartsWith(s[i..], sub)
  }

  // ---------------------------------------------------------------------
  // Facts about the run replacement, the trims and the filter.

  /** The output of `ReplaceRuns` holds only `rep` and characters of `s`
      outside the class. */
  lemma {:induction false} ReplaceRunsChars(s: string, p: char -> bool, rep: char)
    ensures forall c :: c in ReplaceRuns(s, p, rep) ==> c == rep || (c in s && !p(c))
    decreases |s|
  {
    if s == [] {
    } else if p(s[0]) {
      var t := DropWhile(s[1..], p);
      ReplaceRunsChars(t, p, rep);
      assert forall c :: c in t ==> c in s;
    } else {
      ReplaceRunsChars(s[1..], p, rep);
    }
  }

  /** A character outside the class is copied. */
  lemma ReplaceRunsCopy(c: char, s: string, p: char -> bool, rep: char)
    requires !p(c)
    ensures ReplaceRuns([c] + s, p, rep) == [c] + ReplaceRuns(s, p, rep)
  {
    assert ([c] + s)[1..] == s;
  }

  /** A class character followed by a non-class one (or nothing) becomes
      `rep`. */
  lemma ReplaceRunsSingle(c: char, s: string, p: char -> bool, rep: char)
    requires p(c) && (s == [] || !p(s[0]))
    ensures ReplaceRuns([c] + s, p, rep) == [rep] + ReplaceRuns(s, p, rep)
  {
    assert ([c] + s)[1..] == s;
    assert DropWhile(s, p) == s;
  }

  /** A lone class character between two others becomes `rep`. */
  lemma ReplaceRunsMiddle(a: char, b: char, c: char, p: char -> bool, rep: char)
    requires !p(a) && p(b) && !p(c)
    ensures ReplaceRuns([a, b, c], p, rep) == [a, rep, c]
  {
    ReplaceRunsCopy(c, [], p, rep);
    assert [c] + [] == [c];
    ReplaceRunsSingle(b, [c], p, rep);
    assert [b] + [c] == [b, c];
    ReplaceRunsCopy(a, [b, c], p, rep);
    assert [a] + [b, c] == [a, b, c];
  }

  /** A replacement character is never followed by a character of the
      class: each run was maximal. */
  lemma {:induction false} ReplaceRunsSeparated(s: string, p: char -> bool, rep: char)
    ensures var r := ReplaceRuns(s, p, rep);
            forall i :: 0 <= i < |r| - 1 && r[i] == rep ==> !p(r[i + 1])
    ensures var r := ReplaceRuns(s, p, rep);
            r != [] && !p(s[0]) ==> r[0] == s[0]
    decreases |s|
  {
    if s == [] {
    } else if p(s[0]) {
      var t := DropWhile(s[1..], p);
      ReplaceRunsSeparated(t, p, rep);
      var r' := ReplaceRuns(t, p, rep);
      assert r' != [] ==> t != [] && r'[0] == t[0];
    } else {
      ReplaceRunsSeparated(s[1..], p, rep);
    }
  }

  /** When every class character of `s` is already a lone `rep`, the
      replacement changes nothing. */
  lemma {:induction false} ReplaceRunsFixed(s: string, p: char -> bool, rep: char)
    requires forall i :: 0 <= i < |s| && p(s[i]) ==> s[i] == rep
    requires forall i :: 0 <= i < |s| - 1 && p(s[i]) ==> !p(s[i + 1])
    ensures ReplaceRuns(s, p, rep) == s
    decreases |s|
  {
    if s == [] {
    } else if p(s[0]) {
      assert DropWhile(s[1..], p) == s[1..];
      ReplaceRunsFixed(s[1..], p, rep);
    } else {
      ReplaceRunsFixed(s[1..], p, rep);
    }
  }

  /** Filtering by a class disjoint from the replaced one (and not holding
      `rep`) does not see the replacement. */
  lemma {:induction false} FilterReplaceRuns(s: string, p: char -> bool, rep: char, q: char -> bool)
    requires forall c :: q(c) ==> !p(c)
    requires !q(rep)
    ensures Filter(ReplaceRuns(s, p, rep), q) == Filter(s, q)
    decreases |s|
  {
    if s == [] {
    } else if p(s[0]) {
      FilterReplaceRuns(DropWhile(s[1..], p), p, rep, q);
      FilterRunReplaced(s, p, rep, q);
    } else {
      FilterReplaceRuns(s[1..], p, rep, q);
      FilterAppend([s[0]], ReplaceRuns(s[1..], p, rep), q);
    }
  }

  /** A leading run becomes one `rep`, which a filter disjoint from the
      class does not keep, nor any character of the run. */
  lemma FilterRunReplaced(s: string, p: char -> bool, rep: char, q: char -> bool)
    requires s != [] && p(s[0])
    requires forall c :: q(c) ==> !p(c)
    requires !q(rep)
    requires var t := DropWhile(s[1..], p); Filter(ReplaceRuns(t, p, rep), q) == Filter(t, q)
    ensures Filter(ReplaceRuns(s, p, rep), q) == Filter(s, q)
  {
    var t := DropWhile(s[1..], p);
    var k := |s| - |t|;
    assert Filter(ReplaceRuns(s, p, rep), q) == Filter(t, q) by {
      assert ReplaceRuns(s, p, rep) == [rep] + ReplaceRuns(t, p, rep);
      FilterAppend([rep], ReplaceRuns(t, p, rep), q);
    }
    assert Filter(s, q) == Filter(t, q) by {
      forall i | 0 <= i < k ensures !q(s[i]) {
        if i > 0 {
          assert s[i] == s[1..][i - 1];
        }
      }
      FilterDropPrefix(s, k, q);
    }
  }

  /** Filtering a string none of whose characters pass gives nothing. */
  lemma {:induction false} FilterNone(s: string, q: char -> bool)
    requires forall i :: 0 <= i < |s| ==> !q(s[i])
    ensures Filter(s, q) == []
    decreases |s|
  {
    if s != [] {
      FilterNone(s[1..], q);
    }
  }

  /** Filtering twice, the second time by a narrower class, is filtering
      once by the narrower class. */
  lemma {:induction false} FilterTwice(s: string, q1: char -> bool, q2: char -> bool)
    requires forall c :: q2(c) ==> q1(c)
    ensures Filter(Filter(s, q1), q2) == Filter(s, q2)
    decreases |s|
  {
    if s != [] {
      FilterTwice(s[1..], q1, q2);
      var head := if q1(s[0]) then [s[0]] else [];
      FilterAppend(head, Filter(s[1..], q1), q2);
    }
  }

  /** `TrimBy` returns the piece `s[a..a + |r|]`; everything cut away is in
      the class, and the piece neither starts nor ends with the class. */
  lemma TrimByShape(s: string, p: char -> bool) returns (a: nat)
    ensures a + |TrimBy(s, p)| <= |s|
    ensures TrimBy(s, p) == s[a..a + |TrimBy(s, p)|]
    ensures forall i :: 0 <= i < a ==> p(s[i])
    ensures forall i :: a + |TrimBy(s, p)| <= i < |s| ==> p(s[i])
    ensures var r := TrimBy(s, p); r != [] ==> !p(r[0]) && !p(r[|r| - 1])
  {
    var d := DropWhile(s, p);
    var r := DropWhileEnd(d, p);
    a := |s| - |d|;
    assert r == d[..|r|];
    assert r != [] ==> r[0] == d[0];
  }

  /** A string that neither starts nor ends with the class is its own
      trim. */
  lemma TrimByFixed(s: string, p: char -> bool)
    requires s != [] ==> !p(s[0]) && !p(s[|s| - 1])
    ensures TrimBy(s, p) == s
  {
  }

  /** Everything `TrimBy` cuts is in the class, so a filter by a class
      disjoint from it sees the same characters. */
  lemma FilterTrimBy(s: string, p: char -> bool, q: char -> bool)
    requires forall c :: q(c) ==> !p(c)
    ensures Filter(TrimBy(s, p), q) == Filter(s, q)
  {
    var a := TrimByShape(s, p);
    var r := TrimBy(s, p);
    FilterBetween(s, a, a + |r|, q);
  }

  /** A filter keeps the same characters of `s` as of a middle stretch
      when it drops everything outside the stretch. */
  lemma FilterBetween(s: string, a: nat, e: nat, q: char -> bool)
    requires a <= e <= |s|
    requires forall i :: 0 <= i < a ==> !q(s[i])
    requires forall i :: e <= i < |s| ==> !q(s[i])
    ensures Filter(s, q) == Filter(s[a..e], q)
  {
    var t := s[a..];
    assert Filter(s, q) == Filter(t, q) by {
      FilterDropPrefix(s, a, q);
    }
    assert Filter(t, q) == Filter(s[a..e], q) by {
      FilterDropSuffixAt(s, a, e, q);
    }
  }

  lemma FilterDropSuffixAt(s: string, a: nat, e: nat, q: char -> bool)
    requires a <= e <= |s|
    requires forall i :: e <= i < |s| ==> !q(s[i])
    ensures Filter(s[a..], q) == Filter(s[a..e], q)
  {
    var t := s[a..];
    forall i | e - a <= i < |t| ensures !q(t[i]) {
      assert t[i] == s[a + i];
    }
    FilterDropSuffix(t, e - a, q);
    assert t[..e - a] == s[a..e];
  }

  /** Characters the filter drops may be cut from the front. */
  lemma {:induction false} FilterDropPrefix(s: string, a: nat, q: char -> bool)
    requires a <= |s|
    requires forall i :: 0 <= i < a ==> !q(s[i])
    ensures Filter(s, q) == Filter(s[a..], q)
    decreases a
  {
    if a > 0 {
      FilterDropPrefix(s[1..], a - 1, q);
      assert s[1..][a - 1..] == s[a..];
    }
  }

  /** Characters the filter drops may be cut from the back. */
  lemma FilterDropSuffix(s: string, e: nat, q: char -> bool)
    requires e <= |s|
    requires forall i :: e <= i < |s| ==> !q(s[i])
    ensures Filter(s, q) == Filter(s[..e], q)
  {
    var left, right := s[..e], s[e..];
    assert Filter(right, q) == [] by {
      forall i | 0 <= i < |right| ensures !q(right[i]) {
        assert right[i] == s[e + i];
      }
      FilterNone(right, q);
    }
    assert Filter(s, q) == Filter(left, q) + Filter(right, q) by {
      assert s == left + right;
      FilterAppend(left, right, q);
    }
    assert Filter(left, q) + [] == Filter(left, q);
  }
}

=== FILE: suggestions.dfy ===
/** `getIntegrationSuggestions`: the page of CEP items still without a
    decision, each with its best specialty candidates. The three documents
    it reads (the CEP manifest, the areas file and the ledger) and the two
    files base URLs are parameters. */
module Suggestions {
  import opened Common
  import opened Strings
  import opened Seqs
  import opened CatalogData
  import opened Catalog
  import opened TextMatch
  import opened Ranking
  import opened Ledger

  datatype SuggestionQuery = SuggestionQuery(search: string, minScore: real, page: int, limit: int)

  /** One CEP item with its ranked candidates. */
  datatype Suggestion = Suggestion(cep: CepItem, candidates: seq<Candidate<Specialty>>)

  datatype SuggestionPage = SuggestionPage(
    page: int,
    limit: int,
    total: nat,
    hasMore: bool,
    items: seq<Suggestion>)

  /** The search test: the normalized name or the normalized code contains
      the normalized search text. */
  function MatchesSearch(needle: string): CepItem -> bool
  {
    (item: CepItem) => Contains(NormalizeText(item.nombre), needle) || Contains(NormalizeText(item.codigo), needle)
  }

  /** Every item when the normalized search is empty, otherwise those that
      match it. */
  function SearchFilter(items: seq<CepItem>, search: string): seq<CepItem>
  {
    var needle := NormalizeText(search);
    if needle == [] then items else Filter(items, MatchesSearch(needle))
  }

  function NotLinked(linked: set<string>): CepItem -> bool
  {
    (item: CepItem) => item.id !in linked
  }

  /** The items of the search without a ledger entry, in catalog order. */
  function Pending(items: seq<CepItem>, search: string, ledger: LinkLedger): seq<CepItem>
  {
    Filter(SearchFilter(items, search), NotLinked(LinkedIds(ledger)))
  }

  function SuggestFor(specs: seq<Specialty>, minScore: real): CepItem -> Suggestion
  {
    (cep: CepItem) => Suggestion(cep, Rank(specs, ScoreAgainst(cep), minScore))
  }

  /** The suggestions page over already built catalogs. */
  function SuggestionsPage(
    cepItems: seq<CepItem>, specialties: seq<Specialty>, ledger: LinkLedger, q: SuggestionQuery): SuggestionPage
  {
    PageOfPending(Pending(cepItems, q.search, ledger), specialties, q)
  }

  /** The page over the pending items: their count, whether more follow,
      and the page's items with their candidates. */
  function PageOfPending(pending: seq<CepItem>, specialties: seq<Specialty>, q: SuggestionQuery): SuggestionPage
  {
    SuggestionPage(q.page, q.limit, |pending|, StartIndex(q.page, q.limit) + q.limit < |pending|,
                   Map(PageOf(pending, q.page, q.limit), SuggestFor(specialties, q.minScore)))
  }

  /** `getIntegrationSuggestions` over the three files it reads: a missing
      manifest reads as `null` and a missing areas file as `[]`; any read
      that fails makes the call throw (the message of the first failing
      read, in the order manifest, areas, ledger); otherwise both catalogs
      are flattened and the page is built. */
  function GetSuggestions(
    manifestFile: JsonFile<Option<CepManifest>>,
    areasFile: JsonFile<Option<seq<Area>>>,
    linksFile: JsonFile<Option<StoredLedger>>,
    now: string,
    cepBaseUrl: string,
    areasBaseUrl: string,
    q: SuggestionQuery): (r: Result<SuggestionPage>)
    ensures r.Err? <==> manifestFile.Unreadable? || areasFile.Unreadable? || GetIntegrationLinks(linksFile, now).Err?
    ensures manifestFile.Unreadable? ==> r == Err(manifestFile.error)
    ensures r.Ok? ==> r.value.page == q.page && r.value.limit == q.limit
    ensures r.Ok? && manifestFile.Parsed? && areasFile.Parsed? ==>
              r.value == SuggestionsPage(BuildCepItems(manifestFile.doc, cepBaseUrl),
                                         BuildSpecialties(areasFile.doc, areasBaseUrl),
                                         GetIntegrationLinks(linksFile, now).value, q)
  {
    match ReadJsonFile(manifestFile, None)
    case Err(e) => Err(e)
    case Ok(manifest) =>
      match ReadJsonFile(areasFile, Some([]))
      case Err(e) => Err(e)
      case Ok(areas) =>
        match GetIntegrationLinks(linksFile, now)
        case Err(e) => Err(e)
        case Ok(ledger) =>
          Ok(SuggestionsPage(BuildCepItems(manifest, cepBaseUrl), BuildSpecialties(areas, areasBaseUrl), ledger, q))
  }

  /** Without a manifest file there is nothing to offer: the page is
      empty, and `hasMore` holds only for a window that ends before
      position 0 (a page below 1). */
  lemma MissingManifestEmptyPage(
    areasFile: JsonFile<Option<seq<Area>>>, linksFile: JsonFile<Option<StoredLedger>>,
    now: string, cepBaseUrl: string, areasBaseUrl: string, q: SuggestionQuery)
    requires GetSuggestions(Missing, areasFile, linksFile, now, cepBaseUrl, areasBaseUrl, q).Ok?
    ensures var page := GetSuggestions(Missing, areasFile, linksFile, now, cepBaseUrl, areasBaseUrl, q).value;
            && page.total == 0 && page.items == []
            && (page.hasMore <==> StartIndex(q.page, q.limit) + q.limit < 0)
  {
    var areas := ReadJsonFile(areasFile, Some([])).value;
    var ledger := GetIntegrationLinks(linksFile, now).value;
    var specs := BuildSpecialties(areas, areasBaseUrl);
    assert BuildCepItems(None, cepBaseUrl) == [];
    assert Pending([], q.search, ledger) == [] by {
      assert |Pending([], q.search, ledger)| <= |SearchFilter([], q.search)| <= 0;
    }
    EmptyPendingPage(specs, q);
  }

  lemma EmptyPendingPage(specs: seq<Specialty>, q: SuggestionQuery)
    ensures var page := PageOfPending([], specs, q);
            && page.total == 0 && page.items == []
            && (page.hasMore <==> StartIndex(q.page, q.limit) + q.limit < 0)
  {
    var window: seq<CepItem> := PageOf([], q.page, q.limit);
    assert |window| == 0;
    assert |Map(window, SuggestFor(specs, q.minScore))| == 0;
  }

  // ---------------------------------------------------------------------
  // Which items are offered.

  /** An item is pending exactly when it is in the catalog, passes the
      search (or the search normalizes to nothing) and has no ledger
      entry. */
  lemma PendingMembership(items: seq<CepItem>, search: string, ledger: LinkLedger, item: CepItem)
    ensures item in Pending(items, search, ledger) <==>
              && item in items
              && (NormalizeText(search) == [] || MatchesSearch(NormalizeText(search))(item))
              && item.id !in LinkedIds(ledger)
  {
    FilterMembership(SearchFilter(items, search), NotLinked(LinkedIds(ledger)));
    FilterMembership(items, MatchesSearch(NormalizeText(search)));
  }

  /** Once an item's id has been upserted into the ledger, it is no longer
      pending, and every other item is pending exactly as before. */
  lemma UpsertRemovesFromPending(
    items: seq<CepItem>, search: string, ledger: LinkLedger, req: UpsertRequest, now: string, item: CepItem)
    requires Upsert(ledger, req, now).Ok?
    ensures var after := Upsert(ledger, req, now).value.0;
            && (item.id == TrimBy(req.cepId, IsJsSpace) ==> item !in Pending(items, search, after))
            && (item.id != TrimBy(req.cepId, IsJsSpace) ==>
                  (item in Pending(items, search, after) <==> item in Pending(items, search, ledger)))
  {
    var after := Upsert(ledger, req, now).value.0;
    UpsertLinkedIds(ledger, req, now);
    PendingMembership(items, search, after, item);
    PendingMembership(items, search, ledger, item);
  }

  // ---------------------------------------------------------------------
  // Paging.

  /** The page holds the pending items from position `(page - 1) * limit`
      on, at most `limit` of them; `total` counts every pending item; and
      `hasMore` says exactly whether pending items follow the page. */
  lemma PageWindow(cepItems: seq<CepItem>, specialties: seq<Specialty>, ledger: LinkLedger, q: SuggestionQuery)
    requires q.page >= 1 && q.limit >= 0
    ensures var r := SuggestionsPage(cepItems, specialties, ledger, q);
            var pending := Pending(cepItems, q.search, ledger);
            var start := StartIndex(q.page, q.limit);
            && r.total == |pending|
            && |r.items| == Max(0, Min(q.limit, |pending| - start))
            && (forall i :: 0 <= i < |r.items| ==> 0 <= start + i < |pending| && r.items[i].cep == pending[start + i])
            && (r.hasMore <==> start + |r.items| < |pending|)
  {
    PendingPageWindow(Pending(cepItems, q.search, ledger), specialties, q);
  }

  lemma PendingPageWindow(pending: seq<CepItem>, specialties: seq<Specialty>, q: SuggestionQuery)
    requires q.page >= 1 && q.limit >= 0
    ensures var r := PageOfPending(pending, specialties, q);
            var start := StartIndex(q.page, q.limit);
            && r.total == |pending|
            && |r.items| == Max(0, Min(q.limit, |pending| - start))
            && (forall i :: 0 <= i < |r.items| ==> 0 <= start + i < |pending| && r.items[i].cep == pending[start + i])
            && (r.hasMore <==> start + |r.items| < |pending|)
  {
    MappedPage(pending, q.page, q.limit, SuggestFor(specialties, q.minScore));
    PendingPageItems(pending, specialties, q);
  }

  lemma PendingPageItems(pending: seq<CepItem>, specialties: seq<Specialty>, q: SuggestionQuery)
    requires q.page >= 1 && q.limit >= 0
    ensures var r := PageOfPending(pending, specialties, q);
            var start := StartIndex(q.page, q.limit);
            forall i :: 0 <= i < |r.items| ==> 0 <= start + i < |pending| && r.items[i].cep == pending[start + i]
  {
    var start := StartIndex(q.page, q.limit);
    var f := SuggestFor(specialties, q.minScore);
    var items := Map(PageOf(pending, q.page, q.limit), f);
    assert PageOfPending(pending, specialties, q).items == items;
    MappedPage(pending, q.page, q.limit, f);
    forall i | 0 <= i < |items| ensures 0 <= start + i < |pending| && items[i].cep == pending[start + i] {
      assert items[i] == f(pending[start + i]);
      SuggestForItem(specialties, q.minScore, pending[start + i]);
    }
  }

  /** A page mapped through `f`: at most `limit` results, the `i`-th from
      the element at `start + i`, and elements follow the page exactly
      when `start + limit` falls short of the end. */
  lemma MappedPage<A, B>(xs: seq<A>, page: int, limit: int, f: A -> B)
    requires page >= 1 && limit >= 0
    ensures var ys := Map(PageOf(xs, page, limit), f);
            var start := StartIndex(page, limit);
            && |ys| == Max(0, Min(limit, |xs| - start))
            && (forall i :: 0 <= i < |ys| ==> 0 <= start + i < |xs| && ys[i] == f(xs[start + i]))
            && (start + limit < |xs| <==> start + |ys| < |xs|)
  {
    var start := StartIndex(page, limit);
    PageOfWindow(xs, page, limit);
    MoreAfterPage(start, limit, |xs|, |PageOf(xs, page, limit)|);
  }

  lemma SuggestForItem(specs: seq<Specialty>, minScore: real, cep: CepItem)
    ensures SuggestFor(specs, minScore)(cep).cep == cep
  {
  }

  /** `startIndex + limit < total` says whether anything follows a window
      of `n` elements at `start`. */
  lemma MoreAfterPage(start: int, limit: int, total: int, n: int)
    requires 0 <= start && 0 <= limit && n == Max(0, Min(limit, total - start))
    ensures start + limit < total <==> start + n < total
  {
  }

  /** Page 2 of 20 over 45 pending items holds items 21 to 40, and more
      follow. */
  lemma SecondPageOfFortyFive(cepItems: seq<CepItem>, specialties: seq<Specialty>, ledger: LinkLedger, q: SuggestionQuery)
    requires q.page == 2 && q.limit == 20
    requires |Pending(cepItems, q.search, ledger)| == 45
    ensures var r := SuggestionsPage(cepItems, specialties, ledger, q);
            var pending := Pending(cepItems, q.search, ledger);
            && |r.items| == 20 && r.hasMore && r.total == 45
            && r.items[0].cep == pending[20] && r.items[19].cep == pending[39]
  {
    PageWindow(cepItems, specialties, ledger, q);
  }

  /** Every candidate offered for an item is a specialty of the catalog,
      scored against that item, at or above the minimum score; there are at
      most five, best first. */
  lemma SuggestionCandidates(
    cepItems: seq<CepItem>, specialties: seq<Specialty>, ledger: LinkLedger, q: SuggestionQuery, i: nat, j: nat)
    requires i < |SuggestionsPage(cepItems, specialties, ledger, q).items|
    ensures var s := SuggestionsPage(cepItems, specialties, ledger, q).items[i];
            && |s.candidates| <= MaxCandidates
            && SortedDesc(s.candidates)
            && (j < |s.candidates| ==>
                  && s.candidates[j].specialty in specialties
                  && s.candidates[j].score == ScoreMatch(s.cep, s.candidates[j].specialty)
                  && s.candidates[j].score >= q.minScore)
  {
    var s := SuggestionsPage(cepItems, specialties, ledger, q).items[i];
    var specs := specialties;
    RankShape(specs, ScoreAgainst(s.cep), q.minScore);
    if j < |s.candidates| {
      RankMember(specs, ScoreAgainst(s.cep), q.minScore, j);
    }
  }
}

=== FILE: text_match.dfy ===
/** The text side of the record-linkage engine: `normalizeText`,
    `tokenize`, `tokenScore` and the priority-rule scorer `scoreMatch` of
    the integration service. */
module TextMatch {
  import opened Common
  import opened Strings
  import opened Seqs
  import opened Catalog

  /** The combining diacritical marks U+0300..U+036F that the normalizer
      strips after canonical decomposition. */
  predicate IsCombiningMark(c: char) { 0x300 <= c as int <= 0x36F }

  predicate NotCombiningMark(c: char) { !IsCombiningMark(c) }

  /** The shape of every normalized text: only `[a-z0-9 ]`, no space at
      either end and no two spaces in a row. */
  predicate IsNormalized(s: string)
  {
    && (forall i :: 0 <= i < |s| ==> IsLowerAlnum(s[i]) || s[i] == ' ')
    && (s != [] ==> s[0] != ' ' && s[|s| - 1] != ' ')
    && (forall i :: 0 <= i < |s| - 1 ==> s[i] == ' ' ==> s[i + 1] != ' ')
  }

  /** `normalizeText`: lower-case, drop combining marks, turn every run of
      characters outside `[a-z0-9]` into one space, trim. A missing value
      is the empty string. */
  function NormalizeText(value: string): string
  {
    TrimBy(ReplaceRuns(Filter(Lower(value), NotCombiningMark), NotLowerAlnum, ' '), IsJsSpace)
  }

  /** `tokenize`: the words of the normalized text; none for an empty
      text. */
  function Tokenize(value: string): seq<string>
  {
    var normalized := NormalizeText(value);
    if normalized == [] then [] else SplitWs(normalized)
  }

  /** The distinct tokens of a list (`new Set(tokens)`). */
  function TokenSet(tokens: seq<string>): set<string>
  {
    set t | t in tokens
  }

  /** `tokenScore`: 0 when either list is empty, otherwise the number of
      distinct shared tokens over the larger number of distinct tokens. */
  function TokenScore(a: seq<string>, b: seq<string>): (r: real)
    ensures 0.0 <= r <= 1.0
    ensures r == 0.0 <==> TokenSet(a) * TokenSet(b) == {}
  {
    if |a| == 0 || |b| == 0 then
      TokenSetEmpty(a);
      TokenSetEmpty(b);
      0.0
    else
      IntersectionBounds(a, b);
      RatioBounds(|TokenSet(a) * TokenSet(b)|, Max(|TokenSet(a)|, |TokenSet(b)|));
      (|TokenSet(a) * TokenSet(b)| as real) / (Max(|TokenSet(a)|, |TokenSet(b)|) as real)
  }

  /** The similarity score rules, first applicable rule wins. */
  const SlugMatchScore: real := 0.98
  const NameMatchScore: real := 0.92

  /** `scoreMatch`: 0.98 for equal non-empty slugs, else 0.92 for equal
      non-empty normalized names, else the better of the name and slug
      token overlaps. */
  function ScoreMatch(cep: CepItem, spec: Specialty): (r: real)
    ensures 0.0 <= r <= 1.0
    ensures cep.slug != [] && cep.slug == spec.slug ==> r == SlugMatchScore
    ensures !(cep.slug != [] && cep.slug == spec.slug)
            && NormalizeText(cep.nombre) != [] && NormalizeText(cep.nombre) == NormalizeText(spec.name)
            ==> r == NameMatchScore
  {
    if cep.slug != [] && spec.slug != [] && cep.slug == spec.slug then SlugMatchScore
    else
      var cepName := NormalizeText(cep.nombre);
      var specName := NormalizeText(spec.name);
      if cepName != [] && specName != [] && cepName == specName then NameMatchScore
      else
        var nameScore := TokenScore(Tokenize(cep.nombre), Tokenize(spec.name));
        var slugScore := TokenScore(Tokenize(cep.slug), Tokenize(spec.slug));
        MaxReal(nameScore, slugScore)
  }

  /** The scorer for one CEP item, as a function of the specialty. */
  function ScoreAgainst(cep: CepItem): Specialty -> real
  {
    (spec: Specialty) => ScoreMatch(cep, spec)
  }

  /** The `forEach` loop of `tokenScore`: walk the distinct tokens of the
      first list and count those the second list holds. */
  method CountShared(aTokens: seq<string>, bTokens: seq<string>) returns (matches: nat)
    ensures matches == |TokenSet(aTokens) * TokenSet(bTokens)|
  {
    var aSet := TokenSet(aTokens);
    var bSet := TokenSet(bTokens);
    matches := 0;
    var rest := aSet;
    while rest != {}
      invariant rest <= aSet
      invariant matches == |(aSet - rest) * bSet|
      decreases |rest|
    {
      var t :| t in rest;
      SharedStep(aSet, bSet, rest, t);
      if t in bSet {
        matches := matches + 1;
      }
      rest := rest - {t};
    }
  }

  /** Moving one element from the unvisited part to the visited part adds
      one shared element exactly when the other set holds it. */
  lemma SharedStep<T>(a: set<T>, b: set<T>, rest: set<T>, t: T)
    requires t in rest && rest <= a
    ensures |(a - (rest - {t})) * b| == |(a - rest) * b| + (if t in b then 1 else 0)
  {
    var seen := (a - rest) * b;
    if t in b {
      assert (a - (rest - {t})) * b == seen + {t};
    } else {
      assert (a - (rest - {t})) * b == seen;
    }
  }

  // ---------------------------------------------------------------------
  // Normalization.

  lemma IntersectionBounds(a: seq<string>, b: seq<string>)
    requires |a| > 0 && |b| > 0
    ensures 1 <= |TokenSet(a)| && 1 <= |TokenSet(b)|
    ensures |TokenSet(a) * TokenSet(b)| <= |TokenSet(a)|
    ensures |TokenSet(a) * TokenSet(b)| <= |TokenSet(b)|
  {
    assert a[0] in TokenSet(a);
    assert b[0] in TokenSet(b);
    SubsetCardinality(TokenSet(a) * TokenSet(b), TokenSet(a));
    SubsetCardinality(TokenSet(a) * TokenSet(b), TokenSet(b));
  }

  lemma SubsetCardinality<T>(x: set<T>, y: set<T>)
    requires x <= y
    ensures |x| <= |y|
    ensures |x| == |y| ==> x == y
  {
    assert y == x + (y - x);
    assert |y| == |x| + |y - x|;
    if |x| == |y| {
      assert |y - x| == 0;
      assert y - x == {};
    }
  }

  /** Only `[a-z0-9 ]` and no two adjacent spaces; the ends may be
      spaces. */
  predicate IsSpacedAlnum(s: string)
  {
    && (forall i :: 0 <= i < |s| ==> IsLowerAlnum(s[i]) || s[i] == ' ')
    && (forall i :: 0 <= i < |s| - 1 ==> s[i] == ' ' ==> s[i + 1] != ' ')
  }

  lemma ReplaceRunsSpaced(k: string)
    ensures IsSpacedAlnum(ReplaceRuns(k, NotLowerAlnum, ' '))
  {
    var rr := ReplaceRuns(k, NotLowerAlnum, ' ');
    ReplaceRunsChars(k, NotLowerAlnum, ' ');
    ReplaceRunsSeparated(k, NotLowerAlnum, ' ');
    forall i | 0 <= i < |rr| ensures IsLowerAlnum(rr[i]) || rr[i] == ' ' {
      assert rr[i] in rr;
    }
  }

  lemma TrimSpaced(s: string)
    requires IsSpacedAlnum(s)
    ensures IsNormalized(TrimBy(s, IsJsSpace))
  {
    var a := TrimByShape(s, IsJsSpace);
    var r := TrimBy(s, IsJsSpace);
    assert forall i :: 0 <= i < |r| ==> r[i] == s[a + i];
  }

  /** Every normalized text has the normalized shape: `[a-z0-9 ]` only, no
      space at an end, no two adjacent spaces. */
  lemma NormalizeTextShape(value: string)
    ensures IsNormalized(NormalizeText(value))
  {
    var k := Filter(Lower(value), NotCombiningMark);
    ReplaceRunsSpaced(k);
    TrimSpaced(ReplaceRuns(k, NotLowerAlnum, ' '));
  }

  /** A text of the normalized shape is its own normalization. */
  lemma NormalizeTextFixed(s: string)
    requires IsNormalized(s)
    ensures NormalizeText(s) == s
  {
    LowerFixed(s);
    FilterAll(s, NotCombiningMark);
    ReplaceRunsFixed(s, NotLowerAlnum, ' ');
    TrimByFixed(s, IsJsSpace);
  }

  /** Normalizing twice is normalizing once. */
  lemma NormalizeTextIdempotent(value: string)
    ensures NormalizeText(NormalizeText(value)) == NormalizeText(value)
  {
    NormalizeTextShape(value);
    NormalizeTextFixed(NormalizeText(value));
  }

  /** Normalization keeps exactly the letters and digits of the lower-cased
      text, in order, and is empty exactly when the text has none. */
  lemma NormalizeTextContent(value: string)
    ensures Filter(NormalizeText(value), IsLowerAlnum) == Filter(Lower(value), IsLowerAlnum)
    ensures NormalizeText(value) == [] <==> Filter(Lower(value), IsLowerAlnum) == []
  {
    var l := Lower(value);
    var k := Filter(l, NotCombiningMark);
    var rr := ReplaceRuns(k, NotLowerAlnum, ' ');
    FilterTwice(l, NotCombiningMark, IsLowerAlnum);
    FilterReplaceRuns(k, NotLowerAlnum, ' ', IsLowerAlnum);
    FilterTrimBy(rr, IsJsSpace, IsLowerAlnum);
    var r := NormalizeText(value);
    NormalizeTextShape(value);
    if r != [] {
      assert IsLowerAlnum(r[0]);
      assert Filter(r, IsLowerAlnum) != [];
    }
  }

  // ---------------------------------------------------------------------
  // Tokenization.

  predicate IsToken(t: string)
  {
    t != [] && forall i :: 0 <= i < |t| ==> IsLowerAlnum(t[i])
  }

  lemma {:induction false} SplitWsNormalized(s: string)
    requires IsNormalized(s) && s != []
    ensures forall t :: t in SplitWs(s) ==> IsToken(t)
    ensures Join(SplitWs(s), " ") == s
    decreases |s|
  {
    var n := SpanLength(s, NotJsSpace);
    if n == |s| {
      WordSpan(s, n);
    } else {
      var rest := SplitStep(s);
      WordSpan(s, n);
      SplitWsNormalized(rest);
      assert SplitWs(s) == [s[..n]] + SplitWs(rest);
      assert s == s[..n] + " " + rest;
    }
  }

  /** In a normalized text the run of non-space characters is a word. */
  lemma WordSpan(s: string, n: nat)
    requires IsNormalized(s) && s != [] && n == SpanLength(s, NotJsSpace)
    ensures IsToken(s[..n])
  {
    assert !IsJsSpace(s[0]);
    forall i | 0 <= i < n ensures IsLowerAlnum(s[..n][i]) {
      assert NotJsSpace(s[i]);
    }
  }

  /** One step of the split of a normalized text: a single space follows
      the first word, and the rest is normalized again. */
  lemma SplitStep(s: string) returns (rest: string)
    requires IsNormalized(s) && s != []
    requires SpanLength(s, NotJsSpace) < |s|
    ensures var n := SpanLength(s, NotJsSpace);
            && 0 < n && n + 1 < |s| && s[n] == ' '
            && rest == s[n + 1..] && rest != [] && IsNormalized(rest)
            && DropWhile(s[n..], IsJsSpace) == rest
  {
    var n := SpanLength(s, NotJsSpace);
    assert IsJsSpace(s[n]);
    assert s[n] == ' ';
    assert n != 0;
    assert n + 1 < |s|;
    rest := s[n + 1..];
    assert s[n..][1..] == rest;
    assert rest[0] == s[n + 1] != ' ';
    assert !IsJsSpace(rest[0]);
    assert SpanLength(rest, IsJsSpace) == 0;
    assert IsNormalized(rest) by {
      forall i | 0 <= i < |rest| - 1 && rest[i] == ' ' ensures rest[i + 1] != ' ' {
        assert s[n + 1 + i] == ' ';
      }
    }
  }

  /** `tokenize` gives no tokens exactly when the normalized text is empty;
      every token is a non-empty word of `[a-z0-9]`; and joining the tokens
      with single spaces gives back the normalized text. */
  lemma TokenizeSpec(value: string)
    ensures Tokenize(value) == [] <==> NormalizeText(value) == []
    ensures forall t :: t in Tokenize(value) ==> IsToken(t)
    ensures Join(Tokenize(value), " ") == NormalizeText(value)
  {
    NormalizeTextShape(value);
    if NormalizeText(value) != [] {
      SplitWsNormalized(NormalizeText(value));
    }
  }

  /** Splitting the space-joined words gives the words back. */
  lemma {:induction false} SplitWsJoin(ts: seq<string>)
    requires ts != []
    requires forall i :: 0 <= i < |ts| ==> IsToken(ts[i])
    ensures SplitWs(Join(ts, " ")) == ts
  {
    var s := Join(ts, " ");
    if |ts| == 1 {
      assert SpanLength(s, NotJsSpace) == |s|;
    } else {
      var rest := Join(ts[1..], " ");
      SplitWsJoin(ts[1..]);
      JoinStartsWithToken(ts[1..]);
      var n := |ts[0]|;
      assert s == ts[0] + ([' '] + rest);
      SpanStopsAt(ts[0], [' '] + rest);
      assert s[..n] == ts[0];
      assert s[n..] == [' '] + rest;
      assert DropWhile(s[n..], IsJsSpace) == rest;
    }
  }

  lemma {:induction false} JoinStartsWithToken(ts: seq<string>)
    requires ts != []
    requires forall i :: 0 <= i < |ts| ==> IsToken(ts[i])
    ensures Join(ts, " ") != [] && IsLowerAlnum(Join(ts, " ")[0])
  {
    if |ts| > 1 {
      assert Join(ts, " ")[0] == ts[0][0];
    }
  }

  lemma {:induction false} SpanStopsAt(word: string, tail: string)
    requires forall i :: 0 <= i < |word| ==> IsLowerAlnum(word[i])
    requires tail != [] && IsJsSpace(tail[0])
    ensures SpanLength(word + tail, NotJsSpace) == |word|
    decreases |word|
  {
    if word == [] {
      assert word + tail == tail;
    } else {
      assert (word + tail)[1..] == word[1..] + tail;
      SpanStopsAt(word[1..], tail);
    }
  }

  /** A text whose lower case is already words of `[a-z0-9]` separated by
      single spaces tokenizes to those words. */
  lemma TokenizeWords(value: string, ts: seq<string>)
    requires ts != []
    requires forall i :: 0 <= i < |ts| ==> IsToken(ts[i])
    requires Lower(value) == Join(ts, " ")
    ensures NormalizeText(value) == Join(ts, " ")
    ensures Tokenize(value) == ts
  {
    JoinNormalized(ts);
    NormalizeTextLower(value);
    SplitWsJoin(ts);
  }

  /** A text whose lower case has the normalized shape normalizes to its
      lower case. */
  lemma NormalizeTextLower(value: string)
    requires IsNormalized(Lower(value))
    ensures NormalizeText(value) == Lower(value)
  {
    var l := Lower(value);
    LowerFixed(l);
    NormalizeTextFixed(l);
  }

  lemma {:induction false} JoinNormalized(ts: seq<string>)
    requires ts != []
    requires forall i :: 0 <= i < |ts| ==> IsToken(ts[i])
    ensures IsNormalized(Join(ts, " ")) && Join(ts, " ") != []
  {
    if |ts| > 1 {
      JoinNormalized(ts[1..]);
      var rest := Join(ts[1..], " ");
      var s := Join(ts, " ");
      var n := |ts[0]|;
      assert s == ts[0] + [' '] + rest;
      assert forall i :: 0 <= i < n ==> s[i] == ts[0][i];
      assert s[n] == ' ';
      assert forall i :: n < i < |s| ==> s[i] == rest[i - n - 1];
      assert s[|s| - 1] == rest[|rest| - 1];
    }
  }

  // ---------------------------------------------------------------------
  // Token overlap.

  lemma TokenSetEmpty(tokens: seq<string>)
    ensures |tokens| == 0 <==> TokenSet(tokens) == {}
  {
    if |tokens| > 0 {
      assert tokens[0] in TokenSet(tokens);
    }
  }

  /** The overlap score sees only the sets of tokens: repeating a token
      changes nothing. */
  lemma TokenScoreSetwise(a: seq<string>, a': seq<string>, b: seq<string>, b': seq<string>)
    requires TokenSet(a) == TokenSet(a') && TokenSet(b) == TokenSet(b')
    ensures TokenScore(a, b) == TokenScore(a', b')
  {
    TokenSetEmpty(a);
    TokenSetEmpty(a');
    TokenSetEmpty(b);
    TokenSetEmpty(b');
  }

  /** The overlap score does not depend on the order of its arguments. */
  lemma TokenScoreSymmetric(a: seq<string>, b: seq<string>)
    ensures TokenScore(a, b) == TokenScore(b, a)
  {
    assert TokenSet(a) * TokenSet(b) == TokenSet(b) * TokenSet(a);
  }

  /** The overlap score is 1 exactly when both lists are non-empty and hold
      the same distinct tokens. */
  lemma TokenScoreOne(a: seq<string>, b: seq<string>)
    ensures TokenScore(a, b) == 1.0 <==> |a| > 0 && |b| > 0 && TokenSet(a) == TokenSet(b)
  {
    if |a| > 0 && |b| > 0 {
      var A, B := TokenSet(a), TokenSet(b);
      IntersectionBounds(a, b);
      var m := Max(|A|, |B|);
      RatioOne(|A * B|, m);
      if TokenScore(a, b) == 1.0 {
        SubsetCardinality(A * B, A);
        SubsetCardinality(A * B, B);
      }
      if A == B {
        assert A * B == A;
      }
    }
  }

  lemma RatioOne(x: nat, m: nat)
    requires 0 < m
    ensures (x as real) / (m as real) == 1.0 <==> x == m
  {
    if (x as real) / (m as real) == 1.0 {
      assert x as real == (x as real) / (m as real) * (m as real);
    }
  }

  lemma RatioBounds(x: nat, m: nat)
    requires 0 < m && x <= m
    ensures 0.0 <= (x as real) / (m as real) <= 1.0
  {
    assert (x as real) / (m as real) <= (m as real) / (m as real);
  }

  // ---------------------------------------------------------------------
  // The scorer.

  /** Without a slug or name rule, the score is the better of the two
      overlaps: at least each of them, and equal to one of them. This only
      restates the last branch of `ScoreMatch` as a lemma to cite. */
  lemma ScoreMatchOverlap(cep: CepItem, spec: Specialty)
    requires !(cep.slug != [] && cep.slug == spec.slug)
    requires !(NormalizeText(cep.nombre) != [] && NormalizeText(cep.nombre) == NormalizeText(spec.name))
    ensures var nameScore := TokenScore(Tokenize(cep.nombre), Tokenize(spec.name));
            var slugScore := TokenScore(Tokenize(cep.slug), Tokenize(spec.slug));
            && nameScore <= ScoreMatch(cep, spec) && slugScore <= ScoreMatch(cep, spec)
            && (ScoreMatch(cep, spec) == nameScore || ScoreMatch(cep, spec) == slugScore)
  {
  }

  /** A pair with no letters or digits in either name or slug scores 0. */
  lemma ScoreMatchEmptyFields(cep: CepItem, spec: Specialty)
    requires NormalizeText(cep.nombre) == [] && NormalizeText(spec.name) == []
    requires NormalizeText(cep.slug) == [] && NormalizeText(spec.slug) == []
    requires !(cep.slug != [] && cep.slug == spec.slug)
    ensures ScoreMatch(cep, spec) == 0.0
  {
  }

  /** With empty slugs, names that are different lists of words score the
      overlap of those words. */
  lemma ScoreMatchWords(cep: CepItem, spec: Specialty, ts: seq<string>, us: seq<string>)
    requires ts != [] && forall i :: 0 <= i < |ts| ==> IsToken(ts[i])
    requires us != [] && forall i :: 0 <= i < |us| ==> IsToken(us[i])
    requires ts != us
    requires Lower(cep.nombre) == Join(ts, " ") && Lower(spec.name) == Join(us, " ")
    requires cep.slug == [] && spec.slug == []
    ensures ScoreMatch(cep, spec) == TokenScore(ts, us)
  {
    TokenizeWords(cep.nombre, ts);
    TokenizeWords(spec.name, us);
    assert Tokenize(cep.slug) == [];
  }

  /** Two texts of three and two words sharing two of them score 2/3
      ("Primeros Auxilios Basicos" against "primeros auxilios" with no
      slugs, for instance). */
  lemma ScoreMatchPartialOverlap(cep: CepItem, spec: Specialty, x: string, y: string, z: string)
    requires IsToken(x) && IsToken(y) && IsToken(z) && x != y && x != z && y != z
    requires Lower(cep.nombre) == x + " " + y + " " + z && Lower(spec.name) == x + " " + y
    requires cep.slug == [] && spec.slug == []
    ensures ScoreMatch(cep, spec) == 2.0 / 3.0
  {
    JoinThree(x, y, z);
    ScoreMatchWords(cep, spec, [x, y, z], [x, y]);
    OverlapTwoOfThree(x, y, z);
  }

  lemma JoinThree(x: string, y: string, z: string)
    ensures Join([x, y, z], " ") == x + " " + y + " " + z
    ensures Join([x, y], " ") == x + " " + y
  {
    assert Join([x, y, z][1..], " ") == y + " " + z;
  }

  /** Two of three distinct words shared: 2/3. */
  lemma OverlapTwoOfThree(x: string, y: string, z: string)
    requires x != y && x != z && y != z
    ensures TokenScore([x, y, z], [x, y]) == 2.0 / 3.0
  {
    var A, B := TokenSet([x, y, z]), TokenSet([x, y]);
    assert A == {x, y, z};
    assert B == {x, y};
    assert |A| == 3;
    assert |B| == 2;
    assert A * B == B;
  }

  /** The overlap rule can outrank the exact-slug rule: two names made of
      the same two words in the other order ("nudos amarras" against
      "amarras nudos") score 1, above the 0.98 of an exact slug match. */
  lemma ReorderedNamesOutrankSlugMatch(cep: CepItem, spec: Specialty, x: string, y: string)
    requires IsToken(x) && IsToken(y) && x != y
    requires Lower(cep.nombre) == x + " " + y && Lower(spec.name) == y + " " + x
    requires cep.slug == [] && spec.slug == []
    ensures ScoreMatch(cep, spec) == 1.0 > SlugMatchScore
  {
    JoinThree(x, y, y);
    JoinThree(y, x, x);
    ScoreMatchWords(cep, spec, [x, y], [y, x]);
    assert TokenSet([x, y]) == TokenSet([y, x]);
    TokenScoreOne([x, y], [y, x]);
  }
}

=== FILE: vite_config.dfy ===
/** The ports of the front end's development and preview servers, read
    from `APP_PORT` in the environment Vite loads. The rest of the
    configuration (plugins, alias, allowed hosts) is constant and left
    out. */
module ViteConfig {
  import opened Common
  import opened Strings
  import opened JsNumbers

  const DefaultDevPort: int := 5173
  const DefaultPreviewPort: int := 23500

  /** `parsePort`: the fallback for a falsy value and for one that does not
      start with an integer; otherwise the integer at its front. */
  function ParsePort(value: Option<string>, fallback: int): (r: int)
    ensures IsFalsy(value) ==> r == fallback
    ensures !IsFalsy(value) ==> (r == fallback || ParseInt(value.value) == Some(r))
    ensures !IsFalsy(value) && ParseInt(value.value).Some? ==> r == ParseInt(value.value).value
  {
    if IsFalsy(value) then fallback
    else
      match ParseInt(value.value)
      case None => fallback
      case Some(n) => n
  }

  /** `devPort` and `previewPort`, from `APP_PORT` (`None` when it is not
      set). */
  function Ports(appPort: Option<string>): (r: (int, int))
  {
    (ParsePort(appPort, DefaultDevPort), ParsePort(appPort, DefaultPreviewPort))
  }

  /** Without `APP_PORT` the development server listens on 5173 and the
      preview server on 23500. */
  lemma DefaultPorts()
    ensures Ports(None) == (5173, 23500)
    ensures Ports(Some("")) == (5173, 23500)
  {
  }

  /** A port written as a number, with anything not a digit after it,
      moves both servers to that port. */
  lemma PortsFromNumber(n: int, tail: string)
    requires tail == [] || !IsDigit(tail[0])
    ensures Ports(Some(ShowInt(n) + tail)) == (n, n)
  {
    ParseIntShowInt(n, tail);
    ShowIntShape(n);
  }

  /** A value with no number at its front leaves each server on its own
      default. */
  lemma PortsFromWord(word: string)
    requires word != [] && IsLowerLetter(word[0])
    ensures Ports(Some(word)) == (DefaultDevPort, DefaultPreviewPort)
  {
    assert !IsJsSpace(word[0]) by {
      assert 'a' <= word[0] <= 'z';
    }
    assert DropWhile(word, IsJsSpace) == word;
  }
}
